=== FILE: README.md ===
# decompile-rs class-file decoder, in Dafny

This project models the class-file decoder of decompile-rs. The decoder reads
a Java class file as a big-endian byte stream and builds a `ClassFile` value.
It follows chapter 4 of the Java Virtual Machine Specification (Java SE 21).
The model covers these parts of the decoder:

- the byte reader (`read_u8`, `read_u16`, `read_u32`, `read_variable`);
- the magic-number check;
- the constant-pool loop and its tag dispatch (`cp_*`);
- the items after the pool: access flags, this and super class, interfaces, fields and methods;
- `read_field_info`, including how a `ConstantValue` attribute becomes the field's value;
- `read_method_info`;
- the recursive, name-dispatched `read_attribute_info`;
- `resolve_utf8_cp_entry`.

The stream is the whole file, a `seq` of bytes, and the cursor is a position
in it. Every decoder returns one of three outcomes:
- `Ok` with the value and the next cursor position;
- a typed error (`DecompileError`), the value the Rust code returns with `Err`;
- a panic (`Panic`), one per panic site of the Rust code: `expect` on a short read, `unwrap` on bad UTF-8, `assert_eq!` on a ConstantValue length, the three `todo!`s, and the u16 underflow of `constant_pool_count - 2` (with overflow checks on).

Every decoder has a partner, its encoder (`EncodeEntry`, `EncodeAttribute`,
`EncodeMember`, `EncodeClass`, ...). The contract of each decoder in the table
below ties the two together in both directions:
- When the decoder succeeds, the bytes it consumed are the encoding of a readable value, and it returned that value.
- On any stream that starts with the encoding of a readable value, it returns exactly that value (the `...At` predicates).

Failures are pinned the same way. Each reader names the failures it must
report (the `...Fails` predicates): a short read, an unknown tag, a name that
does not resolve, an unsupported attribute, a pool payload or an attribute
body cut short, bad UTF-8 in a Utf8 entry, and a failure inside the nested
table of a Code attribute. Each loop then reports, after any stored run of
elements, the failure of the first element that cannot be read. These facts
compose up to `Decompile.Decompile`.

Fields differ in what "that value" means. Their names are resolved and their
value folded in, so a field result is `FieldOf`/`FieldsOf` applied to the
stored member, and a whole class is `ClassOf` of the stored class. In that case
the first direction reads: some member (or class) is stored there, and the
result is what the decoder builds from it. The two row helpers `ReadU16s` and
`ReadRows` are covered by the table readers that use them (`ReadTable16`,
`ReadTable8`).

Layout: `bytes.dfy` (big-endian integers), `outcomes.dfy`, `types.dfy` (the
data model), `utf8.dfy`, `numeric.dfy` (decimal text of int and long
constants), `reader.dfy`, `constant_pool.dfy`, `attributes.dfy`,
`members.dfy`, `decompile.dfy` (the top level) and `divergences.dfy`.

Assumptions and choices:
- `get_constant_pool_entry`, `add_constant_pool_entry` and `ClassFile::new` are not part of this model. Lookup is assumed to be 1-based over the entries in the order they were appended, returning nothing for index 0 and for indices past the last entry (`Types.Lookup`). `ClassFile::new(magic)` is assumed to be the default class file with that magic number.
- `decompile()` returns `Ok(())`. The model returns the `ClassFile` it built instead, so that properties can be stated about it.
- `decompile.rs` builds types that `types.rs` does not define. These are `Attribute`, `ExceptionTable`, the `FieldInfo` with name, descriptor and value, and `ConstantUtf8` with text. The model defines them the way `decompile.rs` constructs them. Numeric pool payloads are kept as raw bytes, as in `types.rs`.
- Where the two sources disagree, the model follows the code. `cp_integer`, `cp_float`, `cp_long` and `cp_double` call `read_exact(..)?`, so a short numeric constant is the typed error `IOError`, not a panic.
- The decoder departs from the Java Virtual Machine Specification in several places. The model keeps each departure as written and states it:
  - The pool loop reads `constant_pool_count - 2` entries (`Decompile.Decompile`, `Divergences.PoolCountDivergence`).
  - There is no second slot after a Long or Double (`Divergences.IndexDivergence`).
  - Interfaces are read one byte each (`Decompile.ClassImage`).
  - No class-level attribute table is read (`Divergences.TrailingBytesIgnored`).
  - A `ConstantValue` string whose target index finds no entry is reported under the field's `name_index` (`Members.ConstantFieldValue`).
  - An attribute's declared length is checked only for `ConstantValue` and never bounds a body.

## Model

| member | source | states |
|---|---|---|
| Reader.ReadU8 | src/decompile.rs:217-222 | one byte, the cursor moves by exactly 1; with no byte left the outcome is the `expect` panic, never data |
| Reader.ReadU16 | src/decompile.rs:224-229 | succeeds exactly when two bytes remain; the cursor moves by 2 and the bytes read are the big-endian encoding of the value; otherwise the `expect` panic |
| Reader.ReadU32 | src/decompile.rs:231-236 | succeeds exactly when four bytes remain; the cursor moves by 4 and the bytes read are the big-endian encoding of the value; otherwise the `expect` panic |
| Reader.ReadVariable | src/decompile.rs:238-243 | succeeds exactly when n bytes remain, returns exactly those n bytes and moves the cursor by n; otherwise the `expect` panic |
| Reader.ReadExact | src/decompile.rs:181-215 | the `read_exact(..)?` of the numeric helpers: the same read, but a short stream is the typed error `IOError` |
| Reader.ReadU16OfEncoding | src/decompile.rs:224-229 | a u16 stored big-endian reads back as itself, with the cursor moved past it |
| Reader.ReadU32OfEncoding | src/decompile.rs:231-236 | a u32 stored big-endian reads back as itself, with the cursor moved past it |
| Reader.ReadRowsOfEncoding | src/decompile.rs:398-405 | count rows of u16 items read back as themselves, in order |
| Reader.ReadTable16OfEncoding | src/decompile.rs:425-432 | a u16 count followed by that many fixed-width rows reads back as exactly those rows |
| Reader.ReadTable8OfEncoding | src/decompile.rs:447-454 | a u8 count followed by that many rows reads back as exactly those rows |
| Reader.ReadBlob32OfEncoding | src/decompile.rs:394-395 | a u32 length followed by that many bytes reads back as exactly those bytes |
| Bytes.Encode32OfBigEndian | src/decompile.rs:231-236 | every four bytes are the big-endian encoding of exactly one u32 |
| Bytes.BigEndianConcat | src/decompile.rs:190-197 | the value of the concatenation of two big-endian strings is the high part shifted past the low part |
| Numeric.LongValueOfBytes | src/types.rs:48-51 | the Long payload's high and low halves give the 64-bit two's-complement value high * 2^32 + low |
| Numeric.DecimalRoundTrip | src/decompile.rs:294-297 | the decimal text a field gets from an int or long constant parses back to that number |
| Numeric.DecimalTextUnique | src/decompile.rs:294-297 | a text parses as n exactly when it is the text `format!` writes for n, so no other spelling (a leading zero, "-0") stands for the same number |
| Numeric.CanonicalDigitsOfValue | src/decompile.rs:294-297 | digits without a leading zero are the digits `format!` writes for their own value |
| Utf8.EncodeStringIsValid | src/decompile.rs:176 | the UTF-8 encoding of any string passes the well-formedness check that `from_utf8` applies |
| Types.TagsOfKinds | src/types.rs:23-85 | every payload kind has an accepted tag, and every accepted tag belongs to a kind |
| Types.LookupAfterAppend | src/types.rs:87-91 | an appended entry is found at the next 1-based index; earlier lookups and index 0 are unaffected |
| ConstantPool.ReadUtf8 | src/decompile.rs:170-179 | succeeds exactly when a u16 length and that many well-formed UTF-8 bytes are present, and then consumes exactly the length and those bytes and returns them as a Utf8 entry; a short length or text is the `ReadPastEnd` panic, and text present but not well-formed is the `MalformedUtf8` panic |
| ConstantPool.ReadNumeric | src/decompile.rs:181-215 | Integer and Float take 4 raw bytes, Long and Double 8, as high and low halves; a short stream is `IOError` |
| ConstantPool.ReadIndexEntry | src/decompile.rs:61-66 | tags 7, 8, 16, 19 and 20 read one u16; a short read panics |
| ConstantPool.ReadPairEntry | src/decompile.rs:67-82 | tags 9, 10, 11, 12, 17 and 18 read two u16 items in field order; a short read panics |
| ConstantPool.ReadMethodHandle | src/decompile.rs:83-86 | tag 15 reads a u8 kind and then a u16 index |
| ConstantPool.ReadPayload | src/decompile.rs:54-108 | the tag dispatch: an unknown tag is `InvalidConstantPoolTag(tag, offset of the tag)`; a known tag succeeds exactly when its whole payload fits, consumes exactly its width, and yields the kind of that tag; a non-numeric, non-Utf8 payload that does not fit is the `ReadPastEnd` panic |
| ConstantPool.PayloadWidth | src/decompile.rs:53-103 | each kind's width: 2 + len for Utf8, 4 for Integer and Float, 8 for Long and Double, 3 for MethodHandle, 4 for the two-index kinds, 2 for the rest |
| ConstantPool.ReadPayloadOfEncoding | src/decompile.rs:54-103 | every stored payload reads back as itself |
| ConstantPool.PayloadInjective | src/types.rs:23-85 | distinct payloads of one kind have distinct encodings |
| ConstantPool.ReadEntry | src/decompile.rs:53-115 | one entry: its tag byte at the cursor, then its payload; appended as `CpInfo{tag, Some(payload)}`; an unknown tag is reported at its own offset; a missing tag byte panics, and a known tag whose payload does not fit fails exactly as that kind's reader does: `IOError` for the four numeric kinds, `ReadPastEnd` or `MalformedUtf8` for Utf8, `ReadPastEnd` for the rest (`EntryFails`); the only typed errors are `IOError` under a numeric tag and the unknown tag; any entry stored at the cursor is read back exactly |
| ConstantPool.ReadPool | src/decompile.rs:52-116 | exactly count entries in file order; the first failing entry ends the loop with its outcome: after any stored run of fewer than count entries, an entry that fails as `EntryFails` says is the loop's failure (`PoolFails`); any pool of count entries stored at the cursor is read back exactly |
| ConstantPool.PoolPrefixUnique | src/decompile.rs:52-116 | a stream starts with the encoding of at most one pool of a given size |
| Attributes.ResolveUtf8 | src/decompile.rs:502-523 | never panics and never moves the cursor; an absent index is `NoSuchConstantPoolEntry(index, pos)`; a present non-Utf8 entry is `InvalidUtf8ConstantPoolEntry(index)`; otherwise the entry's text |
| Attributes.NameOf | src/decompile.rs:379-494 | each attribute kind has its own dispatch name, one of the six the decoder knows |
| Attributes.ReadCodeHead | src/decompile.rs:392-406 | max_stack, max_locals, a u32 code length with exactly that many code bytes, a u16-counted table of 8-byte exception rows, then the attribute count; a short read panics |
| Attributes.ReadCodeHeadOfEncoding | src/decompile.rs:392-406 | every stored Code head reads back as itself |
| Attributes.ReadLeaf | src/decompile.rs:380-494 | a ConstantValue whose length is not 2 panics before anything is read; an unknown name panics; LineNumberTable, InnerClasses (u16 count) and MethodParameters (u8 count) yield exactly count records |
| Attributes.ReadLeafOfEncoding | src/decompile.rs:424-479 | every stored non-Code body reads back as itself |
| Attributes.ReadAttribute | src/decompile.rs:365-500 | a u16 name index and a u32 length (6 bytes, panic if short), the name resolved after the header, then the body by name; errors only from name resolution, and a name that does not resolve is exactly that failure; an unsupported name or a ConstantValue length other than 2 panics, a known body cut short panics as its reader does, and a Code attribute whose head is cut short panics while one whose nested table fails has that failure (`AttributeFails`, `AttributeBodyFails`, `CodeFails`); any decodable attribute stored at the cursor is read back exactly |
| Attributes.ReadCode | src/decompile.rs:391-423 | the Code body with its nested attribute table read recursively; \|exception_table\| = exception_table_length and \|attributes\| = attributes_count; a head cut short is the head's panic, and after a complete head the nested table's failure is the Code attribute's (`CodeFails`) |
| Attributes.ReadAttributes | src/decompile.rs:356-360 | count attributes in file order, the first failure ending the table: after any stored run of fewer than count attributes, an attribute that fails as `AttributeFails` says is the table's failure (`TableFails`); any table of count decodable attributes stored at the cursor is read back exactly |
| Attributes.ExceptionRowsInverse | src/decompile.rs:398-405 | the rows read and the exception entries built from them convert back and forth without loss |
| Members.ConstantFieldValue | src/decompile.rs:283-326 | Integer and Long give their decimal text; Float and Double give their raw bits; a String gives the Utf8 text it points to; a missing entry, or a missing string target, is `NoSuchConstantPoolEntry(name_index, pos)`; a non-Utf8 string target is `InvalidUtf8ConstantPoolEntry(string_idx)`; the five value kinds never panic and any other kind does; the decimal text is the only spelling that parses as the value (see `Numeric.DecimalTextUnique`) |
| Members.FoldValuesAtMostOne | src/decompile.rs:262-283 | a field whose attribute loop completes met at most one ConstantValue, and it has a value exactly when it met one |
| Members.ReadFieldAttributes | src/decompile.rs:262-333 | each attribute is read and then folded before the next is read; every attribute is kept in file order; any table stored at the cursor gives the reference fold; after a stored run whose fold fails, that failure, and after a stored run whose fold succeeds, the failure of the attribute that follows (`FieldTableFails`) |
| Members.ReadField | src/decompile.rs:245-336 | four u16 items (panic if short), then name and descriptor resolved in that order at the position after them, then the attributes; a name that does not resolve is exactly that failure, then the descriptor's, then the attribute table's (`FieldFails`); any member stored at the cursor gives `FieldOf` of it |
| Members.FieldOfMeaning | src/decompile.rs:245-336 | a field read from a member keeps its access flags and attributes, has the Utf8 texts of its name and descriptor indices, and has a value exactly when it carries one ConstantValue |
| Members.ReadMethod | src/decompile.rs:338-363 | four u16 items and \|attributes\| = attributes_count; name and descriptor stay indices; a short header panics and otherwise the attribute table's failure is the method's (`MethodFails`); any method stored at the cursor is read back exactly |
| Members.ReadFields | src/decompile.rs:144-148 | fields_count fields in file order, the first failure ending the loop: after a stored run of fields, the first failing one, in its read or in its attribute fold, is the loop's failure (`FieldsFail`); any stored list gives `FieldsOf` of it, and a successful loop read a stored list and returned `FieldsOf` of it |
| Members.ReadMethods | src/decompile.rs:153-157 | methods_count methods in file order, the first failure ending the loop: after any stored run of fewer than count methods, a method that fails as `MethodFails` says is the loop's failure (`MethodsFail`); any stored list is read back exactly |
| Decompile.Decompile | src/decompile.rs:34-52 | a stream shorter than 4 bytes panics; a first u32 other than 0xCAFEBABE is `InvalidMagicNumber(value)` with nothing more read, and that error never carries 0xCAFEBABE; minor before major version; a pool count below 2 panics; the pool holds count - 2 entries; on success the list lengths match their counts and there are no class attributes; any class file stored at the start reads as `ClassOf` of it, and every success is `ClassOf` of a class file stored at the start; every failure that `ClassFails` names (a pool loop failure, or a failure in the body after a stored pool) is the decoder's outcome; the only typed errors are a wrong magic number, `IOError`, an unknown pool tag and the two name-resolution errors |
| Decompile.FirstTagReported | src/decompile.rs:52-107 | with the right magic number and a pool count of at least 3, an unknown first tag byte is a `ClassFails` failure, `InvalidConstantPoolTag(tag, 10)`, so the decoder returns exactly that error |
| Decompile.ReadClassBody | src/decompile.rs:123-139 | after the pool: access_flags, this_class, super_class and interfaces_count as u16, then interfaces_count single bytes; any stored class reads as `ClassOf` of it; after a stored header, every success is `ClassOf` of a stored class with that header; too few bytes for the four items or the interfaces panic, and otherwise the members part's failure is the body's (`BodyFails`) |
| Decompile.ReadClassMembers | src/decompile.rs:141-157 | fields_count and the fields, then methods_count and the methods; nothing after them is read; after a stored front, every success is `ClassOf` of a stored class with that front; the fields loop's failure, or, after stored readable fields, a missing methods_count or the methods loop's failure, is the outcome (`MembersFail`) |
| Decompile.FieldsOfEnd | src/decompile.rs:144-148 | the fields loop ends exactly where the stored members end, with one field per member |
| Divergences.PoolCountDivergence | src/decompile.rs:52 | the count-2 loop bound agrees with the pool count of section 4.1 of the Java Virtual Machine Specification exactly when the pool holds one Long or Double |
| Divergences.IndexDivergence | src/decompile.rs:57-58 | the k-th entry is found at index k + 1, while section 4.4.5 of the Java Virtual Machine Specification puts it one further for every Long or Double before it |
| Divergences.SlotsCount | src/decompile.rs:57-58 | under section 4.4.5 of the Java Virtual Machine Specification the entries take one slot each, and one more for each Long or Double |
| Divergences.TrailingBytesIgnored | src/decompile.rs:153-166 | bytes after the methods, such as a class attribute table, leave the class as it was read |

## Left out

- File access is left out: `Decompile::new`, `File::open`, `BufReader`. The file is the byte sequence passed in.
- `stream_position()?` is left out. The position is the cursor, and the error it could return cannot happen on an in-memory stream.
- Logging (`debug!`, `trace!`) and the `Display` dump of the class file are left out. They have no effect on the result.
- Floating-point values are left out. `f32::from_be_bytes`, `f64::from_be_bytes` and the `format!` of a float or double field value are not modelled; such a value keeps its raw bits (`RenderedFloat`, `RenderedDouble`).
- `ValidUtf8` is well-formed Unicode UTF-8, which is what `from_utf8` accepts. Modified UTF-8 (section 4.4.7 of the Java Virtual Machine Specification) is not modelled.
- Attribute names are compared as the UTF-8 bytes of their ASCII names.
- `src/main.rs` (command-line handling and exit codes) is left out. It is process glue.
- The message formatting of `src/error.rs` is left out. Only the error variants matter.
- `Decompile.ReadClassBody`: the interface loop reads one byte per iteration. The model reads all of them at once, which gives the same outcome: the bytes, or the same panic when too few remain.
- `Decompile.Decompile`: the model assumes overflow checks are on, as in a debug build, so a pool count of 0 or 1 panics on `constant_pool_count - 2`. In a release build that subtraction wraps: counts 0 and 1 make the loop run 65534 and 65535 times, and the outcome then depends on the bytes that follow. The release behaviour is not modelled.
- The Rust code keeps the `ClassFile` it has partly filled when it fails. The model returns only the failure, because the Rust code drops that value on every failure path.

=== FILE: attributes.dfy ===
/**
 * The attribute decoder `read_attribute_info` (section 4.7 of the Java Virtual
 * Machine Specification, Java SE 21) and the pool lookup it resolves names
 * with, `resolve_utf8_cp_entry`. An attribute is a u2 name index, a u4 length
 * and a body whose layout the resolved name selects. The length is read and
 * kept, but only a ConstantValue checks it; no other body is bounded by it.
 * A Code attribute holds an attribute table of its own, read by the same
 * decoder, so the readers here are mutually recursive.
 */
module Attributes {
  import opened Bytes
  import opened Outcomes
  import opened Utf8
  import opened Types
  import opened Reader

  /** The bytes of an ASCII string, one per character. */
  function Ascii(t: string): (r: bytes)
    requires IsAscii(t)
    ensures |r| == |t|
  {
    seq(|t|, i requires 0 <= i < |t| => t[i] as int)
  }

  /** The names the decoder dispatches on, as the UTF-8 bytes a CONSTANT_Utf8 entry holds them in. */
  const ConstantValueName: bytes := Ascii("ConstantValue")
  const CodeName: bytes := Ascii("Code")
  const LineNumberTableName: bytes := Ascii("LineNumberTable")
  const SourceFileName: bytes := Ascii("SourceFile")
  const MethodParametersName: bytes := Ascii("MethodParameters")
  const InnerClassesName: bytes := Ascii("InnerClasses")

  /** Every name the decoder has a branch for. */
  const AttributeNames: set<bytes> :=
    {ConstantValueName, CodeName, LineNumberTableName, SourceFileName, MethodParametersName, InnerClassesName}

  /** The name an attribute of each kind is stored under. */
  function NameOf(a: Attribute): (name: bytes)
    ensures name in AttributeNames
    ensures name == CodeName <==> a.Code?
    ensures name == ConstantValueName <==> a.ConstantValue?
  {
    match a
    case ConstantValue(_, _, _) => ConstantValueName
    case Code(_, _, _, _, _, _, _, _, _, _) => CodeName
    case LineNumberTable(_, _, _, _) => LineNumberTableName
    case SourceFile(_, _, _) => SourceFileName
    case MethodParameters(_, _, _, _) => MethodParametersName
    case InnerClasses(_, _, _, _) => InnerClassesName
  }

  /** The six names are distinct (they have six distinct lengths), so each selects one kind. */
  lemma NamesSelectKinds(a: Attribute, b: Attribute)
    requires NameOf(a) == NameOf(b)
    ensures a.ConstantValue? == b.ConstantValue? && a.Code? == b.Code?
    ensures a.LineNumberTable? == b.LineNumberTable? && a.SourceFile? == b.SourceFile?
    ensures a.MethodParameters? == b.MethodParameters? && a.InnerClasses? == b.InnerClasses?
  {
    assert |ConstantValueName| == 13 && |CodeName| == 4 && |LineNumberTableName| == 15;
    assert |SourceFileName| == 10 && |MethodParametersName| == 16 && |InnerClassesName| == 12;
  }

  /**
   * `resolve_utf8_cp_entry`: the text of the Utf8 entry at index. An index
   * that finds no entry is reported with the stream position `at`; an entry of
   * another kind is reported by its index. The stream is not read.
   */
  function ResolveUtf8(pool: seq<CpInfo>, index: uint16, at: nat): (r: Outcome<bytes>)
    ensures !r.IsAbort()
    ensures Lookup(pool, index).None? ==> r == Err(NoSuchConstantPoolEntry(index, at))
    ensures Lookup(pool, index).Some? && !r.Ok? ==> r == Err(InvalidUtf8ConstantPoolEntry(index))
    ensures r.Ok? ==> IsUtf8At(pool, index, r.value)
    ensures forall text :: IsUtf8At(pool, index, text) ==> r == Ok(text)
  {
    match Lookup(pool, index)
    case None => Err(NoSuchConstantPoolEntry(index, at))
    case Some(CpInfo(_, Some(ConstantUtf8(_, raw)))) => Ok(raw)
    case Some(_) => Err(InvalidUtf8ConstantPoolEntry(index))
  }

  // The record tables of the attribute bodies, each row a run of u2 fields in declaration order.

  function ExceptionRows(t: seq<ExceptionTable>): (rows: seq<seq<uint16>>)
    ensures |rows| == |t| && forall i :: 0 <= i < |rows| ==> |rows[i]| == 4
  {
    seq(|t|, i requires 0 <= i < |t| => [t[i].startPc, t[i].endPc, t[i].handlerPc, t[i].catchType])
  }

  function ExceptionsOf(rows: seq<seq<uint16>>): (t: seq<ExceptionTable>)
    requires forall i :: 0 <= i < |rows| ==> |rows[i]| == 4
    ensures |t| == |rows| && ExceptionRows(t) == rows
  {
    var t := seq(|rows|, i requires 0 <= i < |rows| => ExceptionTable(rows[i][0], rows[i][1], rows[i][2], rows[i][3]));
    assert forall i :: 0 <= i < |rows| ==> ExceptionRows(t)[i] == rows[i];
    t
  }

  lemma ExceptionRowsInverse(t: seq<ExceptionTable>)
    ensures ExceptionsOf(ExceptionRows(t)) == t
  {
  }

  function LineRows(t: seq<LineNumberTableEntry>): (rows: seq<seq<uint16>>)
    ensures |rows| == |t| && forall i :: 0 <= i < |rows| ==> |rows[i]| == 2
  {
    seq(|t|, i requires 0 <= i < |t| => [t[i].startPc, t[i].lineNumber])
  }

  function LinesOf(rows: seq<seq<uint16>>): (t: seq<LineNumberTableEntry>)
    requires forall i :: 0 <= i < |rows| ==> |rows[i]| == 2
    ensures |t| == |rows| && LineRows(t) == rows
  {
    var t := seq(|rows|, i requires 0 <= i < |rows| => LineNumberTableEntry(rows[i][0], rows[i][1]));
    assert forall i :: 0 <= i < |rows| ==> LineRows(t)[i] == rows[i];
    t
  }

  lemma LineRowsInverse(t: seq<LineNumberTableEntry>)
    ensures LinesOf(LineRows(t)) == t
  {
  }

  function ParameterRows(t: seq<MethodParameter>): (rows: seq<seq<uint16>>)
    ensures |rows| == |t| && forall i :: 0 <= i < |rows| ==> |rows[i]| == 2
  {
    seq(|t|, i requires 0 <= i < |t| => [t[i].nameIndex, t[i].accessFlags])
  }

  function ParametersOf(rows: seq<seq<uint16>>): (t: seq<MethodParameter>)
    requires forall i :: 0 <= i < |rows| ==> |rows[i]| == 2
    ensures |t| == |rows| && ParameterRows(t) == rows
  {
    var t := seq(|rows|, i requires 0 <= i < |rows| => MethodParameter(rows[i][0], rows[i][1]));
    assert forall i :: 0 <= i < |rows| ==> ParameterRows(t)[i] == rows[i];
    t
  }

  lemma ParameterRowsInverse(t: seq<MethodParameter>)
    ensures ParametersOf(ParameterRows(t)) == t
  {
  }

  function ClassRows(t: seq<InnerClassInfo>): (rows: seq<seq<uint16>>)
    ensures |rows| == |t| && forall i :: 0 <= i < |rows| ==> |rows[i]| == 4
  {
    seq(|t|, i requires 0 <= i < |t| =>
      [t[i].innerClassInfoIndex, t[i].outerClassInfoIndex, t[i].innerNameIndex, t[i].innerClassAccessFlags])
  }

  function ClassesOf(rows: seq<seq<uint16>>): (t: seq<InnerClassInfo>)
    requires forall i :: 0 <= i < |rows| ==> |rows[i]| == 4
    ensures |t| == |rows| && ClassRows(t) == rows
  {
    var t := seq(|rows|, i requires 0 <= i < |rows| => InnerClassInfo(rows[i][0], rows[i][1], rows[i][2], rows[i][3]));
    assert forall i :: 0 <= i < |rows| ==> ClassRows(t)[i] == rows[i];
    t
  }

  lemma ClassRowsInverse(t: seq<InnerClassInfo>)
    ensures ClassesOf(ClassRows(t)) == t
  {
  }

  /** The fields of a Code attribute before its nested attribute table. */
  datatype CodeHead = CodeHead(
    maxStack: uint16,
    maxLocals: uint16,
    codeLength: uint32,
    code: bytes,
    exceptionTableLength: uint16,
    exceptionTable: seq<ExceptionTable>,
    attributesCount: uint16)

  function HeadOf(a: Attribute): CodeHead
    requires a.Code?
  {
    CodeHead(a.maxStack, a.maxLocals, a.codeLength, a.code, a.exceptionTableLength, a.exceptionTable, a.attributesCount)
  }

  /** A Code attribute from its header, the fields before its table, and its table. */
  function CodeOf(index: uint16, length: uint32, h: CodeHead, attrs: seq<Attribute>): (a: Attribute)
    ensures a.Code? && HeadOf(a) == h && a.attributes == attrs
    ensures a.attributeNameIndex == index && a.attributeLength == length
  {
    Code(index, length, h.maxStack, h.maxLocals, h.codeLength, h.code, h.exceptionTableLength, h.exceptionTable,
      h.attributesCount, attrs)
  }

  /** Head fields as read: code_length bytes of code, exception_table_length rows. */
  predicate HeadShaped(h: CodeHead)
  {
    |h.code| == h.codeLength && |h.exceptionTable| == h.exceptionTableLength
  }

  /** The bytes of a Code attribute's head, in file order. */
  function EncodeCodeHead(h: CodeHead): bytes
  {
    Encode16(h.maxStack) + (Encode16(h.maxLocals) + (EncodeBlob32(h.codeLength, h.code)
      + (EncodeTable16(h.exceptionTableLength, ExceptionRows(h.exceptionTable)) + Encode16(h.attributesCount))))
  }

  /** An attribute as stored: name index, length, body. */
  function EncodeAttribute(a: Attribute): bytes
    decreases a, 1
  {
    Encode16(a.attributeNameIndex) + Encode32(a.attributeLength) + EncodeBody(a)
  }

  /** The body of an attribute, after its six header bytes. */
  function EncodeBody(a: Attribute): bytes
    decreases a, 0
  {
    match a
    case ConstantValue(_, _, i) => Encode16(i)
    case Code(_, _, _, _, _, _, _, _, _, attrs) => EncodeCodeHead(HeadOf(a)) + EncodeAttributes(attrs)
    case LineNumberTable(_, _, n, t) => EncodeTable16(n, LineRows(t))
    case SourceFile(_, _, i) => Encode16(i)
    case MethodParameters(_, _, n, t) => EncodeTable8(n, ParameterRows(t))
    case InnerClasses(_, _, n, t) => EncodeTable16(n, ClassRows(t))
  }

  /** An attribute table as stored: its attributes one after the other. */
  function EncodeAttributes(attrs: seq<Attribute>): bytes
    decreases attrs
  {
    if |attrs| == 0 then [] else EncodeAttribute(attrs[0]) + EncodeAttributes(attrs[1..])
  }

  /** The shape of a body other than Code: a ConstantValue declares length 2, and every count matches its table. */
  predicate LeafShaped(a: Attribute)
  {
    match a
    case ConstantValue(_, length, _) => length == 2
    case Code(_, _, _, _, _, _, _, _, _, _) => false
    case LineNumberTable(_, _, n, t) => |t| == n
    case SourceFile(_, _, _) => true
    case MethodParameters(_, _, n, t) => |t| == n
    case InnerClasses(_, _, n, t) => |t| == n
  }

  /**
   * An attribute the decoder can produce against `pool`: its name index
   * resolves to the name of its kind, and its body has the shape reading
   * gives it, down through nested tables.
   */
  predicate Decodable(pool: seq<CpInfo>, a: Attribute)
    decreases a, 1
  {
    IsUtf8At(pool, a.attributeNameIndex, NameOf(a)) && BodyShaped(pool, a)
  }

  predicate BodyShaped(pool: seq<CpInfo>, a: Attribute)
    decreases a, 0
  {
    if a.Code? then
      HeadShaped(HeadOf(a)) && |a.attributes| == a.attributesCount && AllDecodable(pool, a.attributes)
    else LeafShaped(a)
  }

  predicate AllDecodable(pool: seq<CpInfo>, attrs: seq<Attribute>)
    decreases attrs
  {
    forall i :: 0 <= i < |attrs| ==> Decodable(pool, attrs[i])
  }

  /** A decodable attribute is stored at pos. */
  predicate AttributeAt(s: bytes, pos: nat, pool: seq<CpInfo>, a: Attribute)
    requires pos <= |s|
  {
    Decodable(pool, a) && EncodeAttribute(a) <= s[pos..]
  }

  /** The body of a decodable attribute is stored at pos. */
  predicate BodyAt(s: bytes, pos: nat, pool: seq<CpInfo>, a: Attribute)
    requires pos <= |s|
  {
    BodyShaped(pool, a) && EncodeBody(a) <= s[pos..]
  }

  /** A table of decodable attributes is stored at pos. */
  predicate AttributesAt(s: bytes, pos: nat, pool: seq<CpInfo>, attrs: seq<Attribute>)
    requires pos <= |s|
  {
    AllDecodable(pool, attrs) && EncodeAttributes(attrs) <= s[pos..]
  }

  /**
   * The fields of a Code attribute before its table: max_stack, max_locals,
   * a u4 code_length and exactly that many bytes of code, a u2
   * exception_table_length and that many four-field rows, then
   * attributes_count.
   */
  function ReadCodeHead(s: bytes, pos: nat): (r: Outcome<Parsed<CodeHead>>)
    requires pos <= |s|
    ensures !r.Ok? ==> r == Abort(ReadPastEnd)
    ensures r.Ok? ==> HeadShaped(r.value.item) && pos < r.value.next <= |s|
    ensures r.Ok? ==> Spans(s, pos, EncodeCodeHead(r.value.item), r.value.next)
  {
    var ms :- ReadU16(s, pos);
    var ml :- ReadU16(s, ms.next);
    var code :- ReadBlob32(s, ml.next);
    var rows :- ReadTable16(s, code.next, 4);
    var ac :- ReadU16(s, rows.next);
    var h := CodeHead(ms.item, ml.item, |code.item|, code.item, |rows.item|, ExceptionsOf(rows.item), ac.item);
    CodeHeadSpans(s, pos, h, code.next, rows.next, ac.next);
    Ok(Parsed(h, ac.next))
  }

  /** The fields of a Code head, each stored just after the one before, spell its encoding. */
  lemma CodeHeadSpans(s: bytes, pos: nat, h: CodeHead, p3: nat, p4: nat, next: nat)
    requires Spans(s, pos, Encode16(h.maxStack), pos + 2) && Spans(s, pos + 2, Encode16(h.maxLocals), pos + 4)
    requires Spans(s, pos + 4, EncodeBlob32(h.codeLength, h.code), p3)
    requires Spans(s, p3, EncodeTable16(h.exceptionTableLength, ExceptionRows(h.exceptionTable)), p4)
    requires Spans(s, p4, Encode16(h.attributesCount), next)
    ensures Spans(s, pos, EncodeCodeHead(h), next)
  {
    hide Encode16, EncodeBlob32, EncodeTable16, ExceptionRows;
    SliceSplit(s, p3, p4, next);
    SliceSplit(s, pos + 4, p3, next);
    SliceSplit(s, pos + 2, pos + 4, next);
    SliceSplit(s, pos, pos + 2, next);
  }

  /** A Code head is read back from its own encoding, whatever follows it. */
  lemma ReadCodeHeadOfEncoding(s: bytes, pos: nat, h: CodeHead)
    requires pos <= |s| && HeadShaped(h) && EncodeCodeHead(h) <= s[pos..]
    ensures ReadCodeHead(s, pos) == Ok(Parsed(h, pos + |EncodeCodeHead(h)|))
  {
    hide ReadU16, ReadBlob32, ReadTable16, EncodeTable16, Encode16, Encode32, ExceptionsOf, EncodeRows;
    var rows := ExceptionRows(h.exceptionTable);
    var blob := EncodeBlob32(h.codeLength, h.code);
    var table := EncodeTable16(h.exceptionTableLength, rows);
    var e3 := table + Encode16(h.attributesCount);
    var e2 := blob + e3;
    var e1 := Encode16(h.maxLocals) + e2;
    var p3 := pos + 4 + |blob|;
    var p4 := p3 + |table|;
    PrefixAppendAt(s, pos, Encode16(h.maxStack), e1);
    PrefixSlice(s, pos, Encode16(h.maxStack));
    PrefixAppendAt(s, pos + 2, Encode16(h.maxLocals), e2);
    PrefixSlice(s, pos + 2, Encode16(h.maxLocals));
    PrefixAppendAt(s, pos + 4, blob, e3);
    PrefixAppendAt(s, p3, table, Encode16(h.attributesCount));
    PrefixSlice(s, p4, Encode16(h.attributesCount));
    ReadU16OfEncoding(s, pos, h.maxStack);
    ReadU16OfEncoding(s, pos + 2, h.maxLocals);
    ReadBlob32OfEncoding(s, pos + 4, h.code);
    ReadTable16OfEncoding(s, p3, rows, 4);
    ReadU16OfEncoding(s, p4, h.attributesCount);
    ExceptionRowsInverse(h.exceptionTable);
  }

  /**
   * The body of every attribute other than Code, selected by its resolved
   * name: a ConstantValue whose declared length is not 2 fails the assertion
   * before its index is read, and a name without a branch is unsupported.
   */
  function ReadLeaf(s: bytes, pos: nat, index: uint16, length: uint32, name: bytes): (r: Outcome<Parsed<Attribute>>)
    requires pos <= |s| && name != CodeName
    ensures !r.Ok? ==> r.IsAbort()
    ensures name == ConstantValueName && length != 2 ==> r == Abort(ConstantValueLength(length))
    ensures name !in AttributeNames ==> r == Abort(UnsupportedAttribute(name))
    ensures r.Ok? ==> NameOf(r.value.item) == name && LeafShaped(r.value.item)
    ensures r.Ok? ==> r.value.item.attributeNameIndex == index && r.value.item.attributeLength == length
    ensures r.Ok? ==> pos < r.value.next && Spans(s, pos, EncodeBody(r.value.item), r.value.next)
  {
    if name == ConstantValueName then
      if length != 2 then Abort(ConstantValueLength(length))
      else
        var i :- ReadU16(s, pos);
        Ok(Parsed(ConstantValue(index, length, i.item), i.next))
    else if name == LineNumberTableName then
      var t :- ReadTable16(s, pos, 2);
      Ok(Parsed(LineNumberTable(index, length, |t.item|, LinesOf(t.item)), t.next))
    else if name == SourceFileName then
      var i :- ReadU16(s, pos);
      Ok(Parsed(SourceFile(index, length, i.item), i.next))
    else if name == MethodParametersName then
      var t :- ReadTable8(s, pos, 2);
      Ok(Parsed(MethodParameters(index, length, |t.item|, ParametersOf(t.item)), t.next))
    else if name == InnerClassesName then
      var t :- ReadTable16(s, pos, 4);
      Ok(Parsed(InnerClasses(index, length, |t.item|, ClassesOf(t.item)), t.next))
    else Abort(UnsupportedAttribute(name))
  }

  /** A body other than Code is read back from its own encoding, whatever follows it. */
  lemma ReadLeafOfEncoding(s: bytes, pos: nat, a: Attribute)
    requires pos <= |s| && LeafShaped(a) && EncodeBody(a) <= s[pos..]
    ensures ReadLeaf(s, pos, a.attributeNameIndex, a.attributeLength, NameOf(a)) == Ok(Parsed(a, pos + |EncodeBody(a)|))
  {
    hide Ascii, ReadU16, ReadTable16, ReadTable8, EncodeTable16, EncodeTable8, Encode16,
      LineRows, LinesOf, ParameterRows, ParametersOf, ClassRows, ClassesOf;
    assert |ConstantValueName| == 13 && |CodeName| == 4 && |LineNumberTableName| == 15;
    assert |SourceFileName| == 10 && |MethodParametersName| == 16 && |InnerClassesName| == 12;
    match a
    case ConstantValue(_, _, i) =>
      PrefixSlice(s, pos, EncodeBody(a));
      ReadU16OfEncoding(s, pos, i);
    case SourceFile(_, _, i) =>
      PrefixSlice(s, pos, EncodeBody(a));
      ReadU16OfEncoding(s, pos, i);
    case LineNumberTable(_, _, n, t) =>
      ReadTable16OfEncoding(s, pos, LineRows(t), 2);
      LineRowsInverse(t);
    case MethodParameters(_, _, n, t) =>
      ReadTable8OfEncoding(s, pos, ParameterRows(t), 2);
      ParameterRowsInverse(t);
    case InnerClasses(_, _, n, t) =>
      ReadTable16OfEncoding(s, pos, ClassRows(t), 4);
      ClassRowsInverse(t);
  }

  /**
   * `read_attribute_info` at pos fails with f: a header cut short, a name
   * that does not resolve, or a body that fails as the reader its name
   * selects does. At most one f fits.
   */
  ghost predicate AttributeFails(s: bytes, pos: nat, pool: seq<CpInfo>, f: Failure)
    requires pos <= |s|
    decreases |s| - pos, 2
  {
    if pos + 6 > |s| then f == Panicked(ReadPastEnd)
    else
      var name := ResolveUtf8(pool, U16At(s, pos), pos + 6);
      if name.Fail? then f == name.failure
      else AttributeBodyFails(s, pos + 6, pool, U16At(s, pos), ReadU32(s, pos + 2).value.item, name.value, f)
  }

  /**
   * The body at pos of an attribute whose header gave index, length and the
   * resolved name fails with f: a Code body as `CodeFails` says, any other
   * body as `ReadLeaf` does (a panic in every case).
   */
  ghost predicate AttributeBodyFails(s: bytes, pos: nat, pool: seq<CpInfo>, index: uint16, length: uint32, name: bytes,
                                     f: Failure)
    requires pos <= |s|
    decreases |s| - pos, 1
  {
    if name == CodeName then CodeFails(s, pos, pool, f)
    else
      var body := ReadLeaf(s, pos, index, length, name);
      body.Fail? && f == body.failure
  }

  /** A Code body at pos fails with f: its head is cut short, or its own attribute table fails with f. */
  ghost predicate CodeFails(s: bytes, pos: nat, pool: seq<CpInfo>, f: Failure)
    requires pos <= |s|
    decreases |s| - pos, 0
  {
    var head := ReadCodeHead(s, pos);
    if head.Fail? then f == head.failure
    else TableFails(s, head.value.next, pool, head.value.item.attributesCount, f)
  }

  /**
   * A table of count attributes at pos fails with f: a shorter run of
   * attributes is stored there, and the attribute right after it fails with f.
   */
  ghost predicate TableFails(s: bytes, pos: nat, pool: seq<CpInfo>, count: nat, f: Failure)
    decreases |s| - pos, 3
  {
    pos <= |s| && exists attrs :: (|attrs| < count && AttributesAt(s, pos, pool, attrs)
                                   && AttributeFails(s, pos + |EncodeAttributes(attrs)|, pool, f))
  }

  /**
   * `read_attribute_info`: the name index and the length, the name resolved
   * at the position just past them, then the body that name selects. Reading
   * an attribute consumes its six header bytes and more.
   */
  method ReadAttribute(s: bytes, pos: nat, pool: seq<CpInfo>) returns (r: Outcome<Parsed<Attribute>>)
    requires pos <= |s|
    ensures r.Ok? ==> pos + 6 < r.value.next <= |s| && Decodable(pool, r.value.item)
    ensures r.Ok? ==> Spans(s, pos, EncodeAttribute(r.value.item), r.value.next)
    ensures pos + 6 > |s| ==> r == Abort(ReadPastEnd)
    ensures pos + 6 <= |s| && ResolveUtf8(pool, U16At(s, pos), pos + 6).Fail? ==>
      r == Fail(ResolveUtf8(pool, U16At(s, pos), pos + 6).failure)
    ensures forall f :: AttributeFails(s, pos, pool, f) ==> r == Fail(f)
    ensures r.IsErr() ==> r.failure.error.NoSuchConstantPoolEntry? || r.failure.error.InvalidUtf8ConstantPoolEntry?
    ensures forall a :: AttributeAt(s, pos, pool, a) ==> r == Ok(Parsed(a, pos + |EncodeAttribute(a)|))
    decreases |s| - pos, 0, 0
  {
    hide Decodable, BodyShaped, AttributeAt, BodyAt, EncodeBody, EncodeAttribute, ReadLeaf, ReadCodeHead, ResolveUtf8,
      IsUtf8At, Lookup;
    AttributeHeads(s, pos, pool);
    var index := ReadU16(s, pos);
    if index.Fail? {
      return Fail(index.failure);
    }
    var length := ReadU32(s, pos + 2);
    if length.Fail? {
      return Fail(length.failure);
    }
    var name := ResolveUtf8(pool, index.value.item, pos + 6);
    if name.Fail? {
      return Fail(name.failure);
    }
    r := ReadBody(s, pos + 6, pool, index.value.item, length.value.item, name.value);
    if r.Ok? {
      AttributeGlue(s, pos, r.value.next, pool, r.value.item);
    }
  }

  /** The body of an attribute whose header gave index, length and the resolved name. */
  method ReadBody(s: bytes, pos: nat, pool: seq<CpInfo>, index: uint16, length: uint32, name: bytes)
    returns (r: Outcome<Parsed<Attribute>>)
    requires pos <= |s|
    ensures r.Ok? ==> pos < r.value.next <= |s| && NameOf(r.value.item) == name && BodyShaped(pool, r.value.item)
    ensures r.Ok? ==> r.value.item.attributeNameIndex == index && r.value.item.attributeLength == length
    ensures r.Ok? ==> Spans(s, pos, EncodeBody(r.value.item), r.value.next)
    ensures r.IsErr() ==> r.failure.error.NoSuchConstantPoolEntry? || r.failure.error.InvalidUtf8ConstantPoolEntry?
    ensures name == ConstantValueName && length != 2 ==> r == Abort(ConstantValueLength(length))
    ensures name !in AttributeNames ==> r == Abort(UnsupportedAttribute(name))
    ensures forall a :: (BodyAt(s, pos, pool, a) && a.attributeNameIndex == index && a.attributeLength == length && NameOf(a) == name
                         ==> r == Ok(Parsed(a, pos + |EncodeBody(a)|)))
    ensures forall f :: AttributeBodyFails(s, pos, pool, index, length, name, f) ==> r == Fail(f)
    decreases |s| - pos, 1, 0
  {
    if name == CodeName {
      assert |CodeName| == 4 && |ConstantValueName| == 13;
      r := ReadCode(s, pos, pool, index, length);
    } else {
      r := ReadLeaf(s, pos, index, length, name);
      LeavesOfEncoding(s, pos, pool, index, length, name);
    }
  }

  /** The body of a Code attribute: its head, then its own attribute table, read recursively. */
  method ReadCode(s: bytes, pos: nat, pool: seq<CpInfo>, index: uint16, length: uint32) returns (r: Outcome<Parsed<Attribute>>)
    requires pos <= |s|
    ensures r.Ok? ==> pos < r.value.next <= |s| && r.value.item.Code? && BodyShaped(pool, r.value.item)
    ensures r.Ok? ==> r.value.item.attributeNameIndex == index && r.value.item.attributeLength == length
    ensures r.Ok? ==> Spans(s, pos, EncodeBody(r.value.item), r.value.next)
    ensures r.IsErr() ==> r.failure.error.NoSuchConstantPoolEntry? || r.failure.error.InvalidUtf8ConstantPoolEntry?
    ensures forall a :: (BodyAt(s, pos, pool, a) && a.Code? && a.attributeNameIndex == index && a.attributeLength == length
                         ==> r == Ok(Parsed(a, pos + |EncodeBody(a)|)))
    ensures forall f :: CodeFails(s, pos, pool, f) ==> r == Fail(f)
    decreases |s| - pos, 0, 0
  {
    hide BodyAt, AttributesAt, AttributeAt, Decodable, BodyShaped, EncodeBody, EncodeAttributes, EncodeAttribute,
      EncodeCodeHead, ReadCodeHead, ReadLeaf;
    CodeParts(s, pos, pool);
    var head := ReadCodeHead(s, pos);
    if head.Fail? {
      return Fail(head.failure);
    }
    var h := head.value.item;
    var attrs := ReadAttributes(s, head.value.next, pool, h.attributesCount);
    if attrs.Fail? {
      return Fail(attrs.failure);
    }
    var a := CodeOf(index, length, h, attrs.value.item);
    CodeGlue(s, pos, head.value.next, attrs.value.next, pool, a);
    r := Ok(Parsed(a, attrs.value.next));
  }

  /**
   * An attribute table of count entries, read in file order (the loops of
   * `read_field_info`, `read_method_info` and the Code branch). The first
   * failing attribute ends the table with its failure.
   */
  method ReadAttributes(s: bytes, pos: nat, pool: seq<CpInfo>, count: nat) returns (r: Outcome<Parsed<seq<Attribute>>>)
    requires pos <= |s|
    ensures r.Ok? ==> |r.value.item| == count && pos <= r.value.next <= |s|
    ensures r.Ok? ==> AllDecodable(pool, r.value.item) && Spans(s, pos, EncodeAttributes(r.value.item), r.value.next)
    ensures r.IsErr() ==> r.failure.error.NoSuchConstantPoolEntry? || r.failure.error.InvalidUtf8ConstantPoolEntry?
    ensures forall attrs :: (|attrs| == count && AttributesAt(s, pos, pool, attrs)
                             ==> r == Ok(Parsed(attrs, pos + |EncodeAttributes(attrs)|)))
    ensures forall f :: TableFails(s, pos, pool, count, f) ==> r == Fail(f)
    decreases |s| - pos, 1, count
  {
    hide AttributesAt, AttributeAt, Decodable, BodyShaped, EncodeBody, EncodeAttribute, ReadCodeHead, ReadLeaf;
    if count == 0 {
      r := Ok(Parsed([], pos));
      return;
    }
    var e := ReadAttribute(s, pos, pool);
    if e.Fail? {
      NoAttributesWithoutHead(s, pos, pool, count, e);
      TableFailsAtHead(s, pos, pool, count, e);
      return Fail(e.failure);
    }
    var rest := ReadAttributes(s, e.value.next, pool, count - 1);
    TableFailsAfterHead(s, pos, pool, count, e.value, rest);
    if rest.Fail? {
      NoAttributesWithoutTail(s, pos, pool, count, e.value, rest);
      return Fail(rest.failure);
    }
    AttributesCons(s, pos, pool, e.value, rest.value);
    AttributesFromParts(s, pos, pool, count, e.value, rest.value);
    r := Ok(Parsed([e.value.item] + rest.value.item, rest.value.next));
  }

  /** An attribute stored at pos: its header read back, its name resolved, its body right after. */
  lemma AttributeHeads(s: bytes, pos: nat, pool: seq<CpInfo>)
    requires pos <= |s|
    ensures forall a :: AttributeAt(s, pos, pool, a) ==>
      && pos + 6 <= |s|
      && ReadU16(s, pos) == Ok(Parsed(a.attributeNameIndex, pos + 2))
      && ReadU32(s, pos + 2) == Ok(Parsed(a.attributeLength, pos + 6))
      && IsUtf8At(pool, a.attributeNameIndex, NameOf(a))
      && BodyAt(s, pos + 6, pool, a)
      && |EncodeAttribute(a)| == 6 + |EncodeBody(a)|
  {
    forall a | AttributeAt(s, pos, pool, a)
      ensures pos + 6 <= |s|
      ensures ReadU16(s, pos) == Ok(Parsed(a.attributeNameIndex, pos + 2))
      ensures ReadU32(s, pos + 2) == Ok(Parsed(a.attributeLength, pos + 6))
      ensures BodyAt(s, pos + 6, pool, a)
    {
      var header := Encode16(a.attributeNameIndex) + Encode32(a.attributeLength);
      PrefixAppendAt(s, pos, header, EncodeBody(a));
      PrefixSlice(s, pos, header);
      SliceConcat(s, pos, pos + 6, Encode16(a.attributeNameIndex), Encode32(a.attributeLength));
      ReadU16OfEncoding(s, pos, a.attributeNameIndex);
      ReadU32OfEncoding(s, pos + 2, a.attributeLength);
    }
  }

  /** A header and a body read one after the other spell a decodable attribute. */
  lemma AttributeGlue(s: bytes, pos: nat, next: nat, pool: seq<CpInfo>, a: Attribute)
    requires pos + 6 <= next <= |s|
    requires s[pos..pos + 2] == Encode16(a.attributeNameIndex) && s[pos + 2..pos + 6] == Encode32(a.attributeLength)
    requires s[pos + 6..next] == EncodeBody(a)
    requires IsUtf8At(pool, a.attributeNameIndex, NameOf(a)) && BodyShaped(pool, a)
    ensures s[pos..next] == EncodeAttribute(a) && Decodable(pool, a)
  {
    SliceSplit(s, pos, pos + 2, pos + 6);
    SliceSplit(s, pos, pos + 6, next);
  }

  /** Every body other than Code stored at pos is what ReadLeaf returns there. */
  lemma LeavesOfEncoding(s: bytes, pos: nat, pool: seq<CpInfo>, index: uint16, length: uint32, name: bytes)
    requires pos <= |s| && name != CodeName
    ensures forall a :: (BodyAt(s, pos, pool, a) && a.attributeNameIndex == index && a.attributeLength == length && NameOf(a) == name
                         ==> ReadLeaf(s, pos, index, length, name) == Ok(Parsed(a, pos + |EncodeBody(a)|)))
  {
    forall a | BodyAt(s, pos, pool, a) && a.attributeNameIndex == index && a.attributeLength == length && NameOf(a) == name
      ensures ReadLeaf(s, pos, index, length, name) == Ok(Parsed(a, pos + |EncodeBody(a)|))
    {
      ReadLeafOfEncoding(s, pos, a);
    }
  }

  /** A Code body stored at pos: its head read back, and its table stored right after. */
  lemma CodeParts(s: bytes, pos: nat, pool: seq<CpInfo>)
    requires pos <= |s|
    ensures forall a :: BodyAt(s, pos, pool, a) && a.Code? ==>
      && ReadCodeHead(s, pos) == Ok(Parsed(HeadOf(a), pos + |EncodeCodeHead(HeadOf(a))|))
      && pos + |EncodeCodeHead(HeadOf(a))| <= |s|
      && AttributesAt(s, pos + |EncodeCodeHead(HeadOf(a))|, pool, a.attributes)
      && |a.attributes| == a.attributesCount
      && |EncodeBody(a)| == |EncodeCodeHead(HeadOf(a))| + |EncodeAttributes(a.attributes)|
  {
    hide BodyAt, AttributesAt, ReadCodeHead, EncodeBody, EncodeCodeHead, EncodeAttributes;
    forall a | BodyAt(s, pos, pool, a) && a.Code?
      ensures ReadCodeHead(s, pos) == Ok(Parsed(HeadOf(a), pos + |EncodeCodeHead(HeadOf(a))|))
      ensures pos + |EncodeCodeHead(HeadOf(a))| <= |s|
      ensures AttributesAt(s, pos + |EncodeCodeHead(HeadOf(a))|, pool, a.attributes)
      ensures |a.attributes| == a.attributesCount
      ensures |EncodeBody(a)| == |EncodeCodeHead(HeadOf(a))| + |EncodeAttributes(a.attributes)|
    {
      CodeSplit(s, pos, pool, a);
    }
  }

  lemma CodeSplit(s: bytes, pos: nat, pool: seq<CpInfo>, a: Attribute)
    requires pos <= |s| && a.Code? && BodyAt(s, pos, pool, a)
    ensures ReadCodeHead(s, pos) == Ok(Parsed(HeadOf(a), pos + |EncodeCodeHead(HeadOf(a))|))
    ensures pos + |EncodeCodeHead(HeadOf(a))| <= |s|
    ensures AttributesAt(s, pos + |EncodeCodeHead(HeadOf(a))|, pool, a.attributes)
    ensures |a.attributes| == a.attributesCount
    ensures |EncodeBody(a)| == |EncodeCodeHead(HeadOf(a))| + |EncodeAttributes(a.attributes)|
  {
    hide ReadCodeHead, EncodeCodeHead, EncodeAttributes, Decodable, ReadLeaf, AttributeAt, EncodeAttribute, LeafShaped;
    PrefixAppendAt(s, pos, EncodeCodeHead(HeadOf(a)), EncodeAttributes(a.attributes));
    ReadCodeHeadOfEncoding(s, pos, HeadOf(a));
  }

  /** A head and a table read one after the other spell a Code body. */
  lemma CodeGlue(s: bytes, pos: nat, mid: nat, next: nat, pool: seq<CpInfo>, a: Attribute)
    requires pos <= mid <= next <= |s| && a.Code?
    requires HeadShaped(HeadOf(a)) && s[pos..mid] == EncodeCodeHead(HeadOf(a))
    requires |a.attributes| == a.attributesCount && AllDecodable(pool, a.attributes)
    requires s[mid..next] == EncodeAttributes(a.attributes)
    ensures s[pos..next] == EncodeBody(a) && BodyShaped(pool, a)
  {
    SliceSplit(s, pos, mid, next);
  }

  /** A table stored at pos starts with an attribute stored at pos, and continues right after it. */
  lemma AttributesHead(s: bytes, pos: nat, pool: seq<CpInfo>, attrs: seq<Attribute>)
    requires pos <= |s| && |attrs| > 0 && AttributesAt(s, pos, pool, attrs)
    ensures AttributeAt(s, pos, pool, attrs[0]) && pos + |EncodeAttribute(attrs[0])| <= |s|
    ensures AttributesAt(s, pos + |EncodeAttribute(attrs[0])|, pool, attrs[1..])
    ensures |EncodeAttributes(attrs)| == |EncodeAttribute(attrs[0])| + |EncodeAttributes(attrs[1..])|
  {
    var head, tail := EncodeAttribute(attrs[0]), EncodeAttributes(attrs[1..]);
    assert EncodeAttributes(attrs) == head + tail;
    PrefixAppendAt(s, pos, head, tail);
    assert Decodable(pool, attrs[0]);
    assert AllDecodable(pool, attrs[1..]) by {
      forall i | 0 <= i < |attrs[1..]|
        ensures Decodable(pool, attrs[1..][i])
      {
        assert attrs[1..][i] == attrs[i + 1];
      }
    }
  }

  /** When the first attribute cannot be read, no table of count entries is stored at pos. */
  lemma NoAttributesWithoutHead(s: bytes, pos: nat, pool: seq<CpInfo>, count: nat, e: Outcome<Parsed<Attribute>>)
    requires pos <= |s| && count > 0 && e.Fail?
    requires forall a :: AttributeAt(s, pos, pool, a) ==> e == Ok(Parsed(a, pos + |EncodeAttribute(a)|))
    ensures forall attrs :: |attrs| == count ==> !AttributesAt(s, pos, pool, attrs)
  {
    forall attrs | |attrs| == count
      ensures !AttributesAt(s, pos, pool, attrs)
    {
      if AttributesAt(s, pos, pool, attrs) {
        AttributesHead(s, pos, pool, attrs);
      }
    }
  }

  /** When the first attribute cannot be read, the table fails as that attribute does. */
  lemma TableFailsAtHead(s: bytes, pos: nat, pool: seq<CpInfo>, count: nat, e: Outcome<Parsed<Attribute>>)
    requires pos <= |s| && e.Fail?
    requires forall a :: AttributeAt(s, pos, pool, a) ==> e == Ok(Parsed(a, pos + |EncodeAttribute(a)|))
    requires forall f :: AttributeFails(s, pos, pool, f) ==> e == Fail(f)
    ensures forall f :: TableFails(s, pos, pool, count, f) ==> e == Fail(f)
  {
    hide AttributeFails, Decodable, EncodeAttribute;
    forall f | TableFails(s, pos, pool, count, f)
      ensures e == Fail(f)
    {
      var attrs :| |attrs| < count && AttributesAt(s, pos, pool, attrs)
                   && AttributeFails(s, pos + |EncodeAttributes(attrs)|, pool, f);
      if |attrs| > 0 {
        AttributesHead(s, pos, pool, attrs);
      }
    }
  }

  /**
   * When the first attribute is read, a shorter run stored at pos is that
   * attribute followed by a shorter run stored after it, so the table fails
   * as the rest, read after the first attribute, does.
   */
  lemma TableFailsAfterHead<T>(s: bytes, pos: nat, pool: seq<CpInfo>, count: nat, head: Parsed<Attribute>, rest: Outcome<T>)
    requires pos <= |s| && count > 0
    requires forall a :: AttributeAt(s, pos, pool, a) ==> Ok(head) == Ok(Parsed(a, pos + |EncodeAttribute(a)|))
    requires forall f :: !AttributeFails(s, pos, pool, f)
    requires forall f :: TableFails(s, head.next, pool, count - 1, f) ==> rest == Fail(f)
    ensures forall f :: TableFails(s, pos, pool, count, f) ==> rest == Fail(f)
  {
    hide AttributeFails, Decodable, EncodeAttribute;
    forall f | TableFails(s, pos, pool, count, f)
      ensures rest == Fail(f)
    {
      var attrs :| |attrs| < count && AttributesAt(s, pos, pool, attrs)
                   && AttributeFails(s, pos + |EncodeAttributes(attrs)|, pool, f);
      if |attrs| > 0 {
        AttributesHead(s, pos, pool, attrs);
        var tail := attrs[1..];
        assert |tail| < count - 1 && AttributesAt(s, head.next, pool, tail)
               && AttributeFails(s, head.next + |EncodeAttributes(tail)|, pool, f);
        assert TableFails(s, head.next, pool, count - 1, f);
      }
    }
  }

  /** When the rest of the table cannot be read after its first attribute, no table of count entries is stored at pos. */
  lemma NoAttributesWithoutTail(s: bytes, pos: nat, pool: seq<CpInfo>, count: nat, head: Parsed<Attribute>,
                                rest: Outcome<Parsed<seq<Attribute>>>)
    requires pos <= |s| && count > 0 && rest.Fail? && head.next <= |s|
    requires forall a :: AttributeAt(s, pos, pool, a) ==> Ok(head) == Ok(Parsed(a, pos + |EncodeAttribute(a)|))
    requires forall attrs :: (|attrs| == count - 1 && AttributesAt(s, head.next, pool, attrs)
                              ==> rest == Ok(Parsed(attrs, head.next + |EncodeAttributes(attrs)|)))
    ensures forall attrs :: |attrs| == count ==> !AttributesAt(s, pos, pool, attrs)
  {
    forall attrs | |attrs| == count
      ensures !AttributesAt(s, pos, pool, attrs)
    {
      if AttributesAt(s, pos, pool, attrs) {
        AttributesHead(s, pos, pool, attrs);
      }
    }
  }

  /** A table read one attribute after another spells a decodable table. */
  lemma AttributesCons(s: bytes, pos: nat, pool: seq<CpInfo>, head: Parsed<Attribute>, rest: Parsed<seq<Attribute>>)
    requires pos <= head.next <= rest.next <= |s|
    requires Decodable(pool, head.item) && s[pos..head.next] == EncodeAttribute(head.item)
    requires AllDecodable(pool, rest.item) && s[head.next..rest.next] == EncodeAttributes(rest.item)
    ensures AllDecodable(pool, [head.item] + rest.item)
    ensures s[pos..rest.next] == EncodeAttributes([head.item] + rest.item)
  {
    SliceSplit(s, pos, head.next, rest.next);
    assert ([head.item] + rest.item)[0] == head.item && ([head.item] + rest.item)[1..] == rest.item;
  }

  /** Every table stored at pos is the first attribute read there followed by the rest read after it. */
  lemma AttributesFromParts(s: bytes, pos: nat, pool: seq<CpInfo>, count: nat, head: Parsed<Attribute>,
                            rest: Parsed<seq<Attribute>>)
    requires pos <= |s| && count > 0 && head.next <= |s|
    requires forall a :: AttributeAt(s, pos, pool, a) ==> Ok(head) == Ok(Parsed(a, pos + |EncodeAttribute(a)|))
    requires forall attrs :: (|attrs| == count - 1 && AttributesAt(s, head.next, pool, attrs)
                              ==> Ok(rest) == Ok(Parsed(attrs, head.next + |EncodeAttributes(attrs)|)))
    ensures forall attrs :: (|attrs| == count && AttributesAt(s, pos, pool, attrs)
                             ==> Ok(Parsed([head.item] + rest.item, rest.next)) == Ok(Parsed(attrs, pos + |EncodeAttributes(attrs)|)))
  {
    hide Decodable, AttributeAt, AttributesAt, EncodeAttribute, EncodeAttributes, BodyShaped, EncodeBody;
    forall attrs | |attrs| == count && AttributesAt(s, pos, pool, attrs)
      ensures Ok(Parsed([head.item] + rest.item, rest.next)) == Ok(Parsed(attrs, pos + |EncodeAttributes(attrs)|))
    {
      AttributesHead(s, pos, pool, attrs);
      assert attrs == [attrs[0]] + attrs[1..];
    }
  }
}

=== FILE: bytes.dfy ===
/**
 * Fixed-width unsigned integers and the big-endian byte order in which every
 * multi-byte item of a class file is stored (section 4.1 of the Java Virtual
 * Machine Specification, Java SE 21: "u1, u2 and u4 ... big-endian order").
 */
module Bytes {

  type uint8 = x: int | 0 <= x < 0x100
  type uint16 = x: int | 0 <= x < 0x1_0000
  type uint32 = x: int | 0 <= x < 0x1_0000_0000

  /** A byte string: the class file itself, or any run of raw bytes taken from it. */
  type bytes = seq<uint8>

  /** 256 to the power n: the number of distinct values of an n-byte big-endian item. */
  function Pow256(n: nat): (r: nat)
    ensures r > 0
  {
    if n == 0 then 1 else 0x100 * Pow256(n - 1)
  }

  /** The unsigned value of a big-endian byte string, most significant byte first. */
  function BigEndian(s: bytes): nat
  {
    if |s| == 0 then 0 else BigEndian(s[..|s| - 1]) * 0x100 + s[|s| - 1]
  }

  /** An n-byte big-endian string holds a value below 256^n. */
  lemma {:induction false} BigEndianBound(s: bytes)
    ensures BigEndian(s) < Pow256(|s|)
  {
    if |s| > 0 {
      BigEndianBound(s[..|s| - 1]);
    }
  }

  /** Splitting a big-endian string: the left part is shifted past the right part's bytes. */
  lemma {:induction false} BigEndianConcat(a: bytes, b: bytes)
    ensures BigEndian(a + b) == BigEndian(a) * Pow256(|b|) + BigEndian(b)
    decreases |b|
  {
    if |b| == 0 {
      assert a + b == a;
    } else {
      var b' := b[..|b| - 1];
      assert (a + b)[..|a + b| - 1] == a + b';
      BigEndianConcat(a, b');
      calc {
        BigEndian(a + b);
        BigEndian(a + b') * 0x100 + b[|b| - 1];
        (BigEndian(a) * Pow256(|b'|) + BigEndian(b')) * 0x100 + b[|b| - 1];
        BigEndian(a) * (Pow256(|b'|) * 0x100) + (BigEndian(b') * 0x100 + b[|b| - 1]);
        BigEndian(a) * Pow256(|b|) + BigEndian(b);
      }
    }
  }

  /** The two-byte big-endian encoding of a u2 item. */
  function Encode16(v: uint16): (r: bytes)
    ensures |r| == 2 && BigEndian(r) == v
  {
    var r := [v / 0x100, v % 0x100];
    BigEndianPair(r);
    r
  }

  /** A two-byte string spells high * 256 + low. */
  lemma BigEndianPair(s: bytes)
    requires |s| == 2
    ensures BigEndian(s) == (s[0] as int) * 0x100 + s[1]
  {
    var a := s[..1];
    assert a[..0] == [];
    assert BigEndian(a) == BigEndian(a[..0]) * 0x100 + s[0];
    assert s[..|s| - 1] == a;
  }

  /** The u2 item stored big-endian at pos: the value whose encoding the two bytes there spell. */
  function U16At(s: bytes, pos: nat): (v: uint16)
    requires pos + 2 <= |s|
    ensures Encode16(v) == s[pos..pos + 2]
  {
    BigEndianPair(s[pos..pos + 2]);
    Encode16OfBigEndian(s[pos..pos + 2]);
    (s[pos] as int) * 0x100 + s[pos + 1] as int
  }

  /** The four-byte big-endian encoding of a u4 item. */
  function Encode32(v: uint32): (r: bytes)
    ensures |r| == 4 && BigEndian(r) == v
  {
    var hi := Encode16(v / 0x1_0000);
    var lo := Encode16(v % 0x1_0000);
    BigEndianConcat(hi, lo);
    hi + lo
  }

  /** Every two-byte string is the encoding of the u2 value it spells. */
  lemma Encode16OfBigEndian(s: bytes)
    requires |s| == 2
    ensures BigEndian(s) < 0x1_0000 && Encode16(BigEndian(s)) == s
  {
    BigEndianPair(s);
  }

  /** Every four-byte string is the encoding of the u4 value it spells. */
  lemma Encode32OfBigEndian(s: bytes)
    requires |s| == 4
    ensures BigEndian(s) < 0x1_0000_0000 && Encode32(BigEndian(s)) == s
  {
    var hi, lo := s[..2], s[2..];
    assert s == hi + lo;
    BigEndianConcat(hi, lo);
    BigEndianBound(lo);
    Encode16OfBigEndian(hi);
    Encode16OfBigEndian(lo);
    var v := BigEndian(s);
    assert v == BigEndian(hi) * 0x1_0000 + BigEndian(lo);
    assert v / 0x1_0000 == BigEndian(hi);
    assert v % 0x1_0000 == BigEndian(lo);
  }

  /** From pos on, s holds exactly the bytes e, and next is the position just past them. */
  predicate Spans(s: bytes, pos: nat, e: bytes, next: nat)
  {
    next == pos + |e| <= |s| && s[pos..next] == e
  }

  /** Splits s[i..k] at j. */
  lemma SliceSplit(s: bytes, i: nat, j: nat, k: nat)
    requires i <= j <= k <= |s|
    ensures s[i..k] == s[i..j] + s[j..k]
  {
  }

  /** A slice that spells a + b splits into a slice spelling a and one spelling b. */
  lemma SliceConcat(s: bytes, i: nat, k: nat, a: bytes, b: bytes)
    requires i <= k <= |s| && s[i..k] == a + b
    ensures i + |a| <= k && s[i..i + |a|] == a && s[i + |a|..k] == b
  {
    assert s[i..i + |a|] == (a + b)[..|a|];
    assert s[i + |a|..k] == (a + b)[|a|..];
  }

  /** A slice that spells one byte followed by p: that byte, then p. */
  lemma SliceCons(s: bytes, pos: nat, x: uint8, p: bytes)
    requires pos + 1 + |p| <= |s| && s[pos..pos + 1 + |p|] == [x] + p
    ensures s[pos] == x && s[pos + 1..pos + 1 + |p|] == p
  {
    assert s[pos] == s[pos..pos + 1 + |p|][0];
    assert s[pos + 1..pos + 1 + |p|] == s[pos..pos + 1 + |p|][1..];
  }

  /** A slice starting at i is a prefix of the suffix from i. */
  lemma SlicePrefix(s: bytes, i: nat, k: nat)
    requires i <= k <= |s|
    ensures s[i..k] <= s[i..]
  {
    assert s[i..k] == s[i..][..k - i];
  }

  /** A stream that starts with a + b starts with a, and continues with b. */
  lemma PrefixAppend(t: bytes, a: bytes, b: bytes)
    requires a + b <= t
    ensures a <= t && b <= t[|a|..]
  {
    assert a == (a + b)[..|a|];
    assert b == (a + b)[|a|..];
  }

  /** A stream that starts with one byte followed by p: that byte, then p. */
  lemma PrefixCons(t: bytes, x: uint8, p: bytes)
    requires [x] + p <= t
    ensures t[0] == x && p <= t[1..]
  {
    PrefixAppend(t, [x], p);
  }

  /** Two prefixes of one stream with the same length are equal. */
  lemma PrefixesOfOneLength(t: bytes, a: bytes, b: bytes)
    requires a <= t && b <= t && |a| == |b|
    ensures a == b
  {
    assert a == t[..|a|] && b == t[..|b|];
  }

  /** A stream whose suffix from pos starts with x holds x at pos. */
  lemma PrefixSlice(s: bytes, pos: nat, x: bytes)
    requires pos <= |s| && x <= s[pos..]
    ensures pos + |x| <= |s| && s[pos..pos + |x|] == x
  {
    assert s[pos..pos + |x|] == s[pos..][..|x|];
  }

  /** A suffix from pos that starts with a + b: a at pos, and b right after it. */
  lemma PrefixAppendAt(s: bytes, pos: nat, a: bytes, b: bytes)
    requires pos <= |s| && a + b <= s[pos..]
    ensures a <= s[pos..] && pos + |a| <= |s| && b <= s[pos + |a|..]
  {
    PrefixAppend(s[pos..], a, b);
    assert s[pos..][|a|..] == s[pos + |a|..];
  }
}

=== FILE: constant_pool.dfy ===
/**
 * The constant-pool decoder: the tag dispatch of the pool loop and the
 * `cp_*` helpers (section 4.4 of the Java Virtual Machine Specification,
 * Java SE 21), with the encoding each entry is read from.
 */
module ConstantPool {
  import opened Bytes
  import opened Outcomes
  import opened Utf8
  import opened Types
  import opened Reader

  /** The kinds decoded with `read_exact(..)?`, whose short reads are I/O errors. */
  const NumericTags: set<uint8> := {3, 4, 5, 6}

  /** The payload width of every accepted kind other than Utf8, whose width is 2 + its length. */
  function FixedWidth(tag: uint8): nat
  {
    if tag == 3 || tag == 4 then 4
    else if tag == 5 || tag == 6 then 8
    else if tag == 15 then 3
    else if tag in {9, 10, 11, 12, 17, 18} then 4
    else 2
  }

  /** The bytes a payload is stored as, after its tag. */
  function EncodePayload(c: ConstantPoolType): bytes
  {
    match c
    case ConstantUtf8(len, raw) => Encode16(len) + raw
    case ConstantInteger(raw) => raw
    case ConstantFloat(raw) => raw
    case ConstantLong(hi, lo) => hi + lo
    case ConstantDouble(hi, lo) => hi + lo
    case ConstantClass(i) => Encode16(i)
    case ConstantString(i) => Encode16(i)
    case ConstantFieldref(a, b) => Encode16(a) + Encode16(b)
    case ConstantMethodref(a, b) => Encode16(a) + Encode16(b)
    case ConstantInterfaceMethodref(a, b) => Encode16(a) + Encode16(b)
    case ConstantNameAndType(a, b) => Encode16(a) + Encode16(b)
    case ConstantMethodHandle(k, i) => [k] + Encode16(i)
    case ConstantMethodType(i) => Encode16(i)
    case ConstantDynamic(a, b) => Encode16(a) + Encode16(b)
    case ConstantInvokeDynamic(a, b) => Encode16(a) + Encode16(b)
    case ConstantModule(i) => Encode16(i)
    case ConstantPackage(i) => Encode16(i)
  }

  /** The shape constraints of a decoded payload: raw numeric bytes of the right widths, Utf8 length matching its bytes. */
  predicate WellFormed(c: ConstantPoolType)
  {
    match c
    case ConstantUtf8(len, raw) => |raw| == len && ValidUtf8(raw)
    case ConstantInteger(raw) => |raw| == 4
    case ConstantFloat(raw) => |raw| == 4
    case ConstantLong(hi, lo) => |hi| == 4 && |lo| == 4
    case ConstantDouble(hi, lo) => |hi| == 4 && |lo| == 4
    case _ => true
  }

  /** An entry as the pool loop appends it: its tag and a well-formed payload of that tag. */
  predicate Decoded(e: CpInfo)
  {
    e.info.Some? && e.tag == Tag(e.info.value) && WellFormed(e.info.value)
  }

  /** An entry as stored: its tag byte followed by its payload, if it has one. */
  function EncodeEntry(e: CpInfo): bytes
  {
    [e.tag] + if e.info.Some? then EncodePayload(e.info.value) else []
  }

  /** A Utf8 payload fits in the stream and holds well-formed UTF-8. */
  predicate Utf8Readable(s: bytes, pos: nat)
    requires pos <= |s|
  {
    pos + 2 <= |s| && pos + 2 + U16At(s, pos) <= |s|
    && ValidUtf8(s[pos + 2..pos + 2 + U16At(s, pos)])
  }

  /** `cp_utf8`: a u2 length, that many bytes, and the UTF-8 check that panics on failure. */
  function ReadUtf8(s: bytes, pos: nat): (r: Outcome<Parsed<ConstantPoolType>>)
    requires pos <= |s|
    ensures r.Ok? <==> Utf8Readable(s, pos)
    ensures !r.Ok? ==> r.IsAbort() && (r.failure.panic == ReadPastEnd || r.failure.panic == MalformedUtf8)
    ensures r.IsAbort() && r.failure.panic == MalformedUtf8 ==> pos + 2 <= |s| && pos + 2 + U16At(s, pos) <= |s|
    ensures pos + 2 <= |s| && pos + 2 + U16At(s, pos) <= |s| && !ValidUtf8(s[pos + 2..pos + 2 + U16At(s, pos)])
      ==> r == Abort(MalformedUtf8)
    ensures (pos + 2 > |s| || pos + 2 + U16At(s, pos) > |s|) ==> r == Abort(ReadPastEnd)
    ensures r.Ok? ==> r.value.item.ConstantUtf8? && WellFormed(r.value.item)
    ensures r.Ok? ==> Spans(s, pos, EncodePayload(r.value.item), r.value.next)
  {
    var len :- ReadU16(s, pos);
    var text :- ReadVariable(s, len.next, len.item);
    assert len.item == U16At(s, pos) && text.item == s[pos + 2..pos + 2 + U16At(s, pos)];
    if ValidUtf8(text.item) then
      SliceSplit(s, pos, len.next, text.next);
      assert EncodePayload(ConstantUtf8(len.item, text.item)) == Encode16(len.item) + text.item;
      Ok(Parsed(ConstantUtf8(len.item, text.item), text.next))
    else Abort(MalformedUtf8)
  }

  /** `cp_integer`, `cp_float`, `cp_long`, `cp_double`: four or eight raw bytes, via `read_exact(..)?`. */
  function ReadNumeric(s: bytes, pos: nat, tag: uint8): (r: Outcome<Parsed<ConstantPoolType>>)
    requires pos <= |s| && tag in NumericTags
    ensures r.Ok? <==> pos + FixedWidth(tag) <= |s|
    ensures !r.Ok? ==> r == Err(IOError)
    ensures r.Ok? ==> Tag(r.value.item) == tag && WellFormed(r.value.item)
    ensures r.Ok? ==> Spans(s, pos, EncodePayload(r.value.item), r.value.next)
  {
    if tag == 3 || tag == 4 then
      var b :- ReadExact(s, pos, 4);
      Ok(Parsed(if tag == 3 then ConstantInteger(b.item) else ConstantFloat(b.item), b.next))
    else
      var b :- ReadExact(s, pos, 8);
      assert b.item == b.item[..4] + b.item[4..];
      Ok(Parsed(if tag == 5 then ConstantLong(b.item[..4], b.item[4..])
                else ConstantDouble(b.item[..4], b.item[4..]), b.next))
  }

  /** The kinds whose payload is a single u2 pool index. */
  const IndexTags: set<uint8> := {7, 8, 16, 19, 20}

  /** Tags 7, 8, 16, 19, 20: one `read_u16`. */
  function ReadIndexEntry(s: bytes, pos: nat, tag: uint8): (r: Outcome<Parsed<ConstantPoolType>>)
    requires pos <= |s| && tag in IndexTags
    ensures r.Ok? <==> pos + FixedWidth(tag) <= |s|
    ensures !r.Ok? ==> r == Abort(ReadPastEnd)
    ensures r.Ok? ==> Tag(r.value.item) == tag && WellFormed(r.value.item)
    ensures r.Ok? ==> Spans(s, pos, EncodePayload(r.value.item), r.value.next)
  {
    var i :- ReadU16(s, pos);
    var c := match tag
      case 7 => ConstantClass(i.item)
      case 8 => ConstantString(i.item)
      case 16 => ConstantMethodType(i.item)
      case 19 => ConstantModule(i.item)
      case _ => ConstantPackage(i.item);
    Ok(Parsed(c, i.next))
  }

  /** The kinds whose payload is two u2 items. */
  const PairTags: set<uint8> := {9, 10, 11, 12, 17, 18}

  /** Tags 9, 10, 11, 12, 17, 18: two `read_u16` calls, in field order. */
  function ReadPairEntry(s: bytes, pos: nat, tag: uint8): (r: Outcome<Parsed<ConstantPoolType>>)
    requires pos <= |s| && tag in PairTags
    ensures r.Ok? <==> pos + FixedWidth(tag) <= |s|
    ensures !r.Ok? ==> r == Abort(ReadPastEnd)
    ensures r.Ok? ==> Tag(r.value.item) == tag && WellFormed(r.value.item)
    ensures r.Ok? ==> Spans(s, pos, EncodePayload(r.value.item), r.value.next)
  {
    var a :- ReadU16(s, pos);
    var b :- ReadU16(s, a.next);
    SliceSplit(s, pos, a.next, b.next);
    var c := match tag
      case 9 => ConstantFieldref(a.item, b.item)
      case 10 => ConstantMethodref(a.item, b.item)
      case 11 => ConstantInterfaceMethodref(a.item, b.item)
      case 12 => ConstantNameAndType(a.item, b.item)
      case 17 => ConstantDynamic(a.item, b.item)
      case _ => ConstantInvokeDynamic(a.item, b.item);
    Ok(Parsed(c, b.next))
  }

  /** Tag 15: a `read_u8` reference kind, then a `read_u16` reference index. */
  function ReadMethodHandle(s: bytes, pos: nat): (r: Outcome<Parsed<ConstantPoolType>>)
    requires pos <= |s|
    ensures r.Ok? <==> pos + FixedWidth(15) <= |s|
    ensures !r.Ok? ==> r == Abort(ReadPastEnd)
    ensures r.Ok? ==> Tag(r.value.item) == 15 && WellFormed(r.value.item)
    ensures r.Ok? ==> Spans(s, pos, EncodePayload(r.value.item), r.value.next)
  {
    var k :- ReadU8(s, pos);
    var i :- ReadU16(s, k.next);
    SliceSplit(s, pos, k.next, i.next);
    Ok(Parsed(ConstantMethodHandle(k.item, i.item), i.next))
  }

  /** The stream holds a complete payload of the kind `tag` at `pos`. */
  predicate PayloadFits(s: bytes, pos: nat, tag: uint8)
    requires pos <= |s|
  {
    if tag == 1 then Utf8Readable(s, pos) else tag in KnownTags && pos + FixedWidth(tag) <= |s|
  }

  /** The byte size of the complete payload of kind `tag` at `pos`. */
  function PayloadLength(s: bytes, pos: nat, tag: uint8): (n: nat)
    requires pos <= |s| && PayloadFits(s, pos, tag)
    ensures pos + n <= |s|
  {
    if tag == 1 then 2 + U16At(s, pos) else FixedWidth(tag)
  }

  /**
   * The dispatch on a tag read at offset `at`: the payload that follows it at
   * `pos`, or the error for a tag the decoder does not accept.
   */
  function ReadPayload(s: bytes, pos: nat, tag: uint8, at: nat): (r: Outcome<Parsed<ConstantPoolType>>)
    requires pos <= |s|
    ensures tag !in KnownTags ==> r == Err(InvalidConstantPoolTag(tag, at))
    ensures r.Ok? <==> PayloadFits(s, pos, tag)
    ensures tag in NumericTags && !r.Ok? ==> r == Err(IOError)
    ensures tag in KnownTags && tag !in NumericTags && !r.Ok? ==> r.IsAbort()
    ensures tag in KnownTags && tag !in NumericTags && tag != 1 && !r.Ok? ==> r == Abort(ReadPastEnd)
    ensures r.Ok? ==> Tag(r.value.item) == tag && WellFormed(r.value.item)
    ensures r.Ok? ==> r.value.next == pos + PayloadLength(s, pos, tag)
    ensures r.Ok? ==> Spans(s, pos, EncodePayload(r.value.item), r.value.next)
  {
    if tag == 1 then ReadUtf8(s, pos)
    else if tag in NumericTags then ReadNumeric(s, pos, tag)
    else if tag in IndexTags then ReadIndexEntry(s, pos, tag)
    else if tag in PairTags then ReadPairEntry(s, pos, tag)
    else if tag == 15 then ReadMethodHandle(s, pos)
    else Err(InvalidConstantPoolTag(tag, at))
  }

  /** Every entry of the sequence is one the pool loop could have appended. */
  predicate AllDecoded(pool: seq<CpInfo>)
  {
    forall i :: 0 <= i < |pool| ==> Decoded(pool[i])
  }

  /** The bytes of a sequence of entries, one after the other. */
  function EncodePool(pool: seq<CpInfo>): bytes
  {
    if |pool| == 0 then [] else EncodeEntry(pool[0]) + EncodePool(pool[1..])
  }

  /** The stream holds, at `pos`, the encoding of the decoded entry `e`. */
  predicate EntryAt(s: bytes, pos: nat, e: CpInfo)
    requires pos <= |s|
  {
    Decoded(e) && EncodeEntry(e) <= s[pos..]
  }

  /** The stream holds, from `pos`, the encodings of the decoded entries of `pool`, one after the other. */
  predicate PoolAt(s: bytes, pos: nat, pool: seq<CpInfo>)
    requires pos <= |s|
  {
    AllDecoded(pool) && EncodePool(pool) <= s[pos..]
  }

  /**
   * Reading an entry at pos fails with f: no tag byte left, a tag the decoder
   * does not accept, or a payload that does not fit, which fails as that
   * kind's reader does (`IOError` for a numeric constant, a panic for the
   * others). At most one f fits.
   */
  predicate EntryFails(s: bytes, pos: nat, f: Failure)
  {
    if pos >= |s| then f == Panicked(ReadPastEnd)
    else if s[pos] !in KnownTags then f == Error(InvalidConstantPoolTag(s[pos], pos))
    else !PayloadFits(s, pos + 1, s[pos]) && f == ReadPayload(s, pos + 1, s[pos], pos).failure
  }

  /** The pool loop over count entries at pos fails with f: a shorter run is stored there, and the entry right after it fails with f. */
  ghost predicate PoolFails(s: bytes, pos: nat, count: nat, f: Failure)
  {
    pos <= |s| && exists pool :: |pool| < count && PoolAt(s, pos, pool) && EntryFails(s, pos + |EncodePool(pool)|, f)
  }

  /**
   * One pool entry: a `read_u8` tag at `pos`, then its payload. A tag byte
   * the decoder does not accept is reported with its own offset.
   */
  method ReadEntry(s: bytes, pos: nat) returns (r: Outcome<Parsed<CpInfo>>)
    requires pos <= |s|
    ensures pos == |s| ==> r == Abort(ReadPastEnd)
    ensures pos < |s| && s[pos] !in KnownTags ==> r == Err(InvalidConstantPoolTag(s[pos], pos))
    ensures r.IsErr() ==> (pos < |s| && s[pos] in NumericTags && r.failure.error == IOError)
                          || (pos < |s| && s[pos] !in KnownTags && r.failure.error == InvalidConstantPoolTag(s[pos], pos))
    ensures r.Ok? ==> Decoded(r.value.item) && r.value.item.tag == s[pos]
    ensures r.Ok? ==> pos < r.value.next && Spans(s, pos, EncodeEntry(r.value.item), r.value.next)
    ensures forall e :: EntryAt(s, pos, e) ==> r == Ok(Parsed(e, pos + |EncodeEntry(e)|))
    ensures forall f :: EntryFails(s, pos, f) ==> r == Fail(f)
  {
    EntryPrefixes(s, pos);
    var tag := ReadU8(s, pos);
    if tag.Fail? {
      return Fail(tag.failure);
    }
    var payload := ReadPayload(s, pos + 1, tag.value.item, pos);
    if payload.Fail? {
      return Fail(payload.failure);
    }
    SliceSplit(s, pos, pos + 1, payload.value.next);
    r := Ok(Parsed(CpInfo(tag.value.item, Some(payload.value.item)), payload.value.next));
    EntriesFromPrefix(s, pos, r.value);
  }

  /** Where a decoded entry's encoding starts, its tag byte is there and its payload reads back. */
  lemma EntryPrefixes(s: bytes, pos: nat)
    requires pos <= |s|
    ensures forall e :: EntryAt(s, pos, e) ==>
      pos < |s| && s[pos] == e.tag && ReadPayload(s, pos + 1, e.tag, pos).Ok?
  {
    forall e | EntryAt(s, pos, e)
      ensures pos < |s| && s[pos] == e.tag && ReadPayload(s, pos + 1, e.tag, pos).Ok?
    {
      PrefixSlice(s, pos, EncodeEntry(e));
      EntrySplit(s, pos, e);
      ReadPayloadOfEncoding(s, pos + 1, e.info.value, pos);
    }
  }

  /** The entry read at `pos` is the only decoded entry whose encoding starts there. */
  lemma EntriesFromPrefix(s: bytes, pos: nat, r: Parsed<CpInfo>)
    requires Decoded(r.item) && pos <= r.next <= |s| && s[pos..r.next] == EncodeEntry(r.item)
    ensures forall e :: EntryAt(s, pos, e) ==> Ok(r) == Ok(Parsed(e, pos + |EncodeEntry(e)|))
  {
    forall e | EntryAt(s, pos, e) ensures Ok(r) == Ok(Parsed(e, pos + |EncodeEntry(e)|)) {
      EntryFromPrefix(s, pos, r, e);
    }
  }

  /**
   * The pool loop: `count` entries in file order, each appended as read,
   * written as recursion on the number of entries still to read. A failing
   * entry ends the loop with its outcome.
   */
  method ReadPool(s: bytes, pos: nat, count: nat) returns (r: Outcome<Parsed<seq<CpInfo>>>)
    requires pos <= |s|
    ensures r.Ok? ==> |r.value.item| == count && pos <= r.value.next <= |s|
    ensures r.Ok? ==> AllDecoded(r.value.item) && Spans(s, pos, EncodePool(r.value.item), r.value.next)
    ensures r.IsErr() ==> r.failure.error == IOError || r.failure.error.InvalidConstantPoolTag?
    ensures r.IsErr() && r.failure.error.InvalidConstantPoolTag? ==>
      pos <= r.failure.error.offset < |s| && s[r.failure.error.offset] == r.failure.error.tag && r.failure.error.tag !in KnownTags
    ensures forall pool :: |pool| == count && PoolAt(s, pos, pool) ==> r == Ok(Parsed(pool, pos + |EncodePool(pool)|))
    ensures forall f :: PoolFails(s, pos, count, f) ==> r == Fail(f)
    decreases count
  {
    hide PoolAt, EntryAt, EncodeEntry, Decoded, EntryFails;
    if count == 0 {
      r := Ok(Parsed([], pos));
      PoolsFromPrefix(s, pos, 0, r.value);
      return;
    }
    var e := ReadEntry(s, pos);
    if e.Fail? {
      NoPoolWithoutHead(s, pos, count, e);
      PoolFailsAtHead(s, pos, count, e);
      return Fail(e.failure);
    }
    var rest := ReadPool(s, e.value.next, count - 1);
    PoolFailsAfterHead(s, pos, count, e.value, rest);
    if rest.Fail? {
      NoPoolWithoutTail(s, pos, count, e.value, rest);
      return Fail(rest.failure);
    }
    PoolCons(s, pos, e.value.next, rest.value.next, e.value.item, rest.value.item);
    r := Ok(Parsed([e.value.item] + rest.value.item, rest.value.next));
    PoolsFromPrefix(s, pos, count, r.value);
  }

  /** When no entry can be read at `pos`, no run of entries is encoded there. */
  lemma NoPoolWithoutHead(s: bytes, pos: nat, count: nat, e: Outcome<Parsed<CpInfo>>)
    requires pos <= |s| && count > 0 && e.Fail?
    requires forall x :: EntryAt(s, pos, x) ==> e == Ok(Parsed(x, pos + |EncodeEntry(x)|))
    ensures forall pool :: |pool| == count ==> !PoolAt(s, pos, pool)
  {
    forall pool | |pool| == count ensures !PoolAt(s, pos, pool) {
      if PoolAt(s, pos, pool) {
        PoolHead(s, pos, pool);
      }
    }
  }

  /** When no entry can be read at `pos`, the loop fails as that entry does. */
  lemma PoolFailsAtHead(s: bytes, pos: nat, count: nat, e: Outcome<Parsed<CpInfo>>)
    requires pos <= |s| && e.Fail?
    requires forall x :: EntryAt(s, pos, x) ==> e == Ok(Parsed(x, pos + |EncodeEntry(x)|))
    requires forall f :: EntryFails(s, pos, f) ==> e == Fail(f)
    ensures forall f :: PoolFails(s, pos, count, f) ==> e == Fail(f)
  {
    hide EntryFails, EntryAt, EncodeEntry, Decoded;
    forall f | PoolFails(s, pos, count, f)
      ensures e == Fail(f)
    {
      var pool :| |pool| < count && PoolAt(s, pos, pool) && EntryFails(s, pos + |EncodePool(pool)|, f);
      if |pool| > 0 {
        PoolHead(s, pos, pool);
      }
    }
  }

  /**
   * When an entry is read at `pos`, a shorter run stored there is that entry
   * followed by a shorter run stored after it, so the loop fails as the rest,
   * read after the entry, does.
   */
  lemma PoolFailsAfterHead<T>(s: bytes, pos: nat, count: nat, head: Parsed<CpInfo>, rest: Outcome<T>)
    requires pos <= |s| && count > 0
    requires forall x :: EntryAt(s, pos, x) ==> Ok(head) == Ok(Parsed(x, pos + |EncodeEntry(x)|))
    requires forall f :: !EntryFails(s, pos, f)
    requires forall f :: PoolFails(s, head.next, count - 1, f) ==> rest == Fail(f)
    ensures forall f :: PoolFails(s, pos, count, f) ==> rest == Fail(f)
  {
    hide EntryFails, EntryAt, Decoded, PoolAt;
    forall f | PoolFails(s, pos, count, f)
      ensures rest == Fail(f)
    {
      var pool :| |pool| < count && PoolAt(s, pos, pool) && EntryFails(s, pos + |EncodePool(pool)|, f);
      if |pool| > 0 {
        PoolHead(s, pos, pool);
        var tail := pool[1..];
        assert |tail| < count - 1 && PoolAt(s, head.next, tail) && EntryFails(s, head.next + |EncodePool(tail)|, f);
        assert PoolFails(s, head.next, count - 1, f);
      }
    }
  }

  /** When the entries after the head cannot be read, no run of entries is encoded at `pos`. */
  lemma NoPoolWithoutTail(s: bytes, pos: nat, count: nat, head: Parsed<CpInfo>, rest: Outcome<Parsed<seq<CpInfo>>>)
    requires pos <= |s| && count > 0 && rest.Fail?
    requires Decoded(head.item) && pos <= head.next <= |s| && s[pos..head.next] == EncodeEntry(head.item)
    requires forall pool :: |pool| == count - 1 && PoolAt(s, head.next, pool) ==> rest == Ok(Parsed(pool, head.next + |EncodePool(pool)|))
    ensures forall pool :: |pool| == count ==> !PoolAt(s, pos, pool)
  {
    forall pool | |pool| == count ensures !PoolAt(s, pos, pool) {
      if PoolAt(s, pos, pool) {
        PoolHead(s, pos, pool);
        EntryFromPrefix(s, pos, head, pool[0]);
      }
    }
  }

  /** A non-empty run of decoded entries is encoded as its head entry, then its tail. */
  lemma PoolHead(s: bytes, pos: nat, pool: seq<CpInfo>)
    requires pos <= |s| && |pool| > 0 && PoolAt(s, pos, pool)
    ensures EntryAt(s, pos, pool[0]) && pos + |EncodeEntry(pool[0])| <= |s|
    ensures PoolAt(s, pos + |EncodeEntry(pool[0])|, pool[1..])
  {
    hide EncodeEntry, Decoded;
    PrefixAppendAt(s, pos, EncodeEntry(pool[0]), EncodePool(pool[1..]));
  }

  /** Prepending a decoded entry read just before a run of decoded entries. */
  lemma PoolCons(s: bytes, pos: nat, mid: nat, next: nat, e: CpInfo, rest: seq<CpInfo>)
    requires pos <= mid <= next <= |s|
    requires s[pos..mid] == EncodeEntry(e) && s[mid..next] == EncodePool(rest)
    requires Decoded(e) && AllDecoded(rest)
    ensures s[pos..next] == EncodePool([e] + rest)
    ensures AllDecoded([e] + rest)
  {
    hide EncodeEntry, Decoded;
    SliceSplit(s, pos, mid, next);
    assert ([e] + rest)[0] == e && ([e] + rest)[1..] == rest;
  }

  /** The payload width table: 2 + length for Utf8, FixedWidth for every other kind. */
  lemma PayloadWidth(c: ConstantPoolType)
    requires WellFormed(c)
    ensures |EncodePayload(c)| == if c.ConstantUtf8? then 2 + c.len else FixedWidth(Tag(c))
  {
  }

  /** Encode16 loses nothing. */
  lemma Encode16Injective(a: uint16, b: uint16)
    requires Encode16(a) == Encode16(b)
    ensures a == b
  {
    assert BigEndian(Encode16(a)) == a;
  }

  /** Two u2 items are recovered from their concatenated encodings. */
  lemma Encode16PairInjective(a: uint16, b: uint16, c: uint16, d: uint16)
    requires Encode16(a) + Encode16(b) == Encode16(c) + Encode16(d)
    ensures a == c && b == d
  {
    var x, y := Encode16(a) + Encode16(b), Encode16(c) + Encode16(d);
    assert x[..2] == Encode16(a) && y[..2] == Encode16(c);
    assert x[2..] == Encode16(b) && y[2..] == Encode16(d);
    Encode16Injective(a, c);
    Encode16Injective(b, d);
  }

  /** Well-formed payloads of one kind with equal encodings are equal. */
  lemma PayloadInjective(a: ConstantPoolType, b: ConstantPoolType)
    requires WellFormed(a) && WellFormed(b) && Tag(a) == Tag(b)
    requires EncodePayload(a) == EncodePayload(b)
    ensures a == b
  {
    var ea := EncodePayload(a);
    match a
    case ConstantUtf8(len, raw) =>
      assert ea[..2] == Encode16(len) && ea[2..] == raw;
      assert EncodePayload(b)[..2] == Encode16(b.len) && EncodePayload(b)[2..] == b.raw;
      Encode16Injective(len, b.len);
    case ConstantLong(hi, lo) =>
      assert ea[..4] == hi && ea[4..] == lo;
      assert EncodePayload(b)[..4] == b.highBytes && EncodePayload(b)[4..] == b.lowBytes;
    case ConstantDouble(hi, lo) =>
      assert ea[..4] == hi && ea[4..] == lo;
      assert EncodePayload(b)[..4] == b.highBytes && EncodePayload(b)[4..] == b.lowBytes;
    case ConstantClass(i) => Encode16Injective(i, b.nameIndex);
    case ConstantString(i) => Encode16Injective(i, b.stringIndex);
    case ConstantMethodType(i) => Encode16Injective(i, b.descriptorIndex);
    case ConstantModule(i) => Encode16Injective(i, b.nameIndex);
    case ConstantPackage(i) => Encode16Injective(i, b.nameIndex);
    case ConstantFieldref(x, y) => Encode16PairInjective(x, y, b.classIndex, b.nameAndTypeIndex);
    case ConstantMethodref(x, y) => Encode16PairInjective(x, y, b.classIndex, b.nameAndTypeIndex);
    case ConstantInterfaceMethodref(x, y) => Encode16PairInjective(x, y, b.classIndex, b.nameAndTypeIndex);
    case ConstantNameAndType(x, y) => Encode16PairInjective(x, y, b.nameIndex, b.descriptorIndex);
    case ConstantDynamic(x, y) => Encode16PairInjective(x, y, b.bootstrapMethodAttrIndex, b.nameAndTypeIndex);
    case ConstantInvokeDynamic(x, y) => Encode16PairInjective(x, y, b.bootstrapMethodAttrIndex, b.nameAndTypeIndex);
    case ConstantMethodHandle(k, i) =>
      assert ea[0] == k && ea[1..] == Encode16(i);
      assert EncodePayload(b)[0] == b.referenceKind && EncodePayload(b)[1..] == Encode16(b.referenceIndex);
      Encode16Injective(i, b.referenceIndex);
    case _ =>
  }

  /** The encoding of a well-formed payload is a complete payload of its kind. */
  lemma EncodingFits(s: bytes, pos: nat, c: ConstantPoolType)
    requires WellFormed(c)
    requires pos + |EncodePayload(c)| <= |s| && s[pos..pos + |EncodePayload(c)|] == EncodePayload(c)
    ensures PayloadFits(s, pos, Tag(c)) && PayloadLength(s, pos, Tag(c)) == |EncodePayload(c)|
  {
    TagsOfKinds();
    PayloadWidth(c);
    if c.ConstantUtf8? {
      SliceConcat(s, pos, pos + |EncodePayload(c)|, Encode16(c.len), c.raw);
      Encode16Injective(U16At(s, pos), c.len);
    }
  }

  /** A stream starts with the encoding of at most one well-formed payload of a given kind. */
  lemma PayloadPrefixUnique(t: bytes, a: ConstantPoolType, b: ConstantPoolType)
    requires WellFormed(a) && WellFormed(b) && Tag(a) == Tag(b)
    requires EncodePayload(a) <= t && EncodePayload(b) <= t
    ensures a == b
  {
    PayloadWidth(a);
    PayloadWidth(b);
    if a.ConstantUtf8? {
      PrefixAppend(t, Encode16(a.len), a.raw);
      PrefixAppend(t, Encode16(b.len), b.raw);
      PrefixesOfOneLength(t, Encode16(a.len), Encode16(b.len));
      Encode16Injective(a.len, b.len);
    }
    PrefixesOfOneLength(t, EncodePayload(a), EncodePayload(b));
    PayloadInjective(a, b);
  }

  /** The payload read by one shape helper, compared with the encoded one. */
  lemma SameKindFromPrefix(s: bytes, pos: nat, r: Parsed<ConstantPoolType>, c: ConstantPoolType)
    requires WellFormed(c) && WellFormed(r.item) && Tag(r.item) == Tag(c)
    requires pos <= r.next <= |s| && s[pos..r.next] == EncodePayload(r.item)
    requires pos + |EncodePayload(c)| <= |s| && s[pos..pos + |EncodePayload(c)|] == EncodePayload(c)
    ensures r == Parsed(c, pos + |EncodePayload(c)|)
  {
    SlicePrefix(s, pos, r.next);
    SlicePrefix(s, pos, pos + |EncodePayload(c)|);
    PayloadPrefixUnique(s[pos..], r.item, c);
  }

  /** A well-formed payload is read back from its own encoding. */
  lemma ReadPayloadOfEncoding(s: bytes, pos: nat, c: ConstantPoolType, at: nat)
    requires WellFormed(c)
    requires pos + |EncodePayload(c)| <= |s| && s[pos..pos + |EncodePayload(c)|] == EncodePayload(c)
    ensures ReadPayload(s, pos, Tag(c), at) == Ok(Parsed(c, pos + |EncodePayload(c)|))
  {
    EncodingFits(s, pos, c);
    var tag := Tag(c);
    if tag == 1 {
      SameKindFromPrefix(s, pos, ReadUtf8(s, pos).value, c);
    } else if tag in NumericTags {
      SameKindFromPrefix(s, pos, ReadNumeric(s, pos, tag).value, c);
    } else if tag in IndexTags {
      SameKindFromPrefix(s, pos, ReadIndexEntry(s, pos, tag).value, c);
    } else if tag in PairTags {
      SameKindFromPrefix(s, pos, ReadPairEntry(s, pos, tag).value, c);
    } else {
      SameKindFromPrefix(s, pos, ReadMethodHandle(s, pos).value, c);
    }
  }

  /** An entry's encoding is its tag byte followed by its payload's. */
  lemma EntrySplit(s: bytes, pos: nat, e: CpInfo)
    requires Decoded(e)
    requires pos + |EncodeEntry(e)| <= |s| && s[pos..pos + |EncodeEntry(e)|] == EncodeEntry(e)
    ensures |EncodeEntry(e)| == 1 + |EncodePayload(e.info.value)| && s[pos] == e.tag
    ensures s[pos + 1..pos + 1 + |EncodePayload(e.info.value)|] == EncodePayload(e.info.value)
  {
    SliceCons(s, pos, e.tag, EncodePayload(e.info.value));
  }

  /** A stream starts with the encoding of at most one decoded entry. */
  lemma EntryPrefixUnique(t: bytes, a: CpInfo, b: CpInfo)
    requires Decoded(a) && Decoded(b)
    requires EncodeEntry(a) <= t && EncodeEntry(b) <= t
    ensures a == b
  {
    PrefixCons(t, a.tag, EncodePayload(a.info.value));
    PrefixCons(t, b.tag, EncodePayload(b.info.value));
    PayloadPrefixUnique(t[1..], a.info.value, b.info.value);
  }

  /** The entry read at `pos`, compared with a decoded entry whose encoding starts there. */
  lemma EntryFromPrefix(s: bytes, pos: nat, r: Parsed<CpInfo>, e: CpInfo)
    requires Decoded(r.item) && Decoded(e)
    requires pos <= r.next <= |s| && s[pos..r.next] == EncodeEntry(r.item)
    requires EncodeEntry(e) <= s[pos..]
    ensures r == Parsed(e, pos + |EncodeEntry(e)|)
  {
    SlicePrefix(s, pos, r.next);
    EntryPrefixUnique(s[pos..], r.item, e);
  }

  /** A stream starts with the encoding of at most one sequence of `n` decoded entries. */
  lemma {:induction false} PoolPrefixUnique(t: bytes, a: seq<CpInfo>, b: seq<CpInfo>)
    requires |a| == |b| && AllDecoded(a) && AllDecoded(b)
    requires EncodePool(a) <= t && EncodePool(b) <= t
    ensures a == b
    decreases |a|
  {
    hide EncodeEntry, Decoded;
    if |a| > 0 {
      PrefixAppend(t, EncodeEntry(a[0]), EncodePool(a[1..]));
      PrefixAppend(t, EncodeEntry(b[0]), EncodePool(b[1..]));
      EntryPrefixUnique(t, a[0], b[0]);
      PoolPrefixUnique(t[|EncodeEntry(a[0])|..], a[1..], b[1..]);
      assert a == [a[0]] + a[1..];
      assert b == [b[0]] + b[1..];
    }
  }

  /** The entries read from `pos` are the only `count` decoded entries whose encoding starts there. */
  lemma PoolsFromPrefix(s: bytes, pos: nat, count: nat, r: Parsed<seq<CpInfo>>)
    requires |r.item| == count && AllDecoded(r.item) && pos <= r.next <= |s| && s[pos..r.next] == EncodePool(r.item)
    ensures forall pool :: |pool| == count && PoolAt(s, pos, pool) ==> Ok(r) == Ok(Parsed(pool, pos + |EncodePool(pool)|))
  {
    forall pool | |pool| == count && PoolAt(s, pos, pool) ensures Ok(r) == Ok(Parsed(pool, pos + |EncodePool(pool)|)) {
      PoolFromPrefix(s, pos, r, pool);
    }
  }

  /** The entries read from `pos`, compared with decoded entries whose encoding starts there. */
  lemma PoolFromPrefix(s: bytes, pos: nat, r: Parsed<seq<CpInfo>>, pool: seq<CpInfo>)
    requires |r.item| == |pool| && AllDecoded(r.item) && AllDecoded(pool)
    requires pos <= r.next <= |s| && s[pos..r.next] == EncodePool(r.item)
    requires EncodePool(pool) <= s[pos..]
    ensures r == Parsed(pool, pos + |EncodePool(pool)|)
  {
    hide EncodeEntry, Decoded;
    SlicePrefix(s, pos, r.next);
    PoolPrefixUnique(s[pos..], r.item, pool);
  }
}

=== FILE: decompile.dfy ===
/**
 * `Decompile::decompile`: the whole class file, read front to back (section
 * 4.1 of the Java Virtual Machine Specification, Java SE 21). The decoder
 * returns the class file it builds; what it does with it afterwards is not
 * part of this model.
 */
module Decompile {
  import opened Bytes
  import opened Outcomes
  import opened Types
  import opened Reader
  import opened ConstantPool
  import opened Attributes
  import opened Members

  /**
   * A class file as this decoder reads it: everything it reads, in the order
   * it reads it, with fields and methods as stored. There is no class-level
   * attribute table, and every interface is a single byte.
   */
  datatype ClassImage = ClassImage(
    minorVersion: uint16,
    majorVersion: uint16,
    constantPoolCount: uint16,
    constantPool: seq<CpInfo>,
    accessFlags: uint16,
    thisClass: uint16,
    superClass: uint16,
    interfacesCount: uint16,
    interfaces: seq<uint8>,
    fieldsCount: uint16,
    fields: seq<MethodInfo>,
    methodsCount: uint16,
    methods: seq<MethodInfo>)

  /** The fields and the methods, each list after its count, as stored. */
  function EncodeClassMembers(c: ClassImage): (r: bytes)
    ensures |r| >= 4
  {
    Encode16(c.fieldsCount) + (EncodeMembers(c.fields) + (Encode16(c.methodsCount) + EncodeMembers(c.methods)))
  }

  /** Everything after the constant pool, as stored. */
  function EncodeClassBody(c: ClassImage): bytes
  {
    Encode16(c.accessFlags) + (Encode16(c.thisClass) + (Encode16(c.superClass) + (Encode16(c.interfacesCount)
      + (c.interfaces + EncodeClassMembers(c)))))
  }

  /** The whole class file as stored, from the magic number on. */
  function EncodeClass(c: ClassImage): bytes
  {
    Encode32(CafeBabe) + (Encode16(c.minorVersion) + (Encode16(c.majorVersion) + (Encode16(c.constantPoolCount)
      + (EncodePool(c.constantPool) + EncodeClassBody(c)))))
  }

  /**
   * A class file this decoder reads completely: the pool count is two more
   * than the number of entries, every count matches its list, and every
   * entry, field and method is one the decoder can read.
   */
  predicate ClassShaped(c: ClassImage)
  {
    && c.constantPoolCount == |c.constantPool| + 2
    && AllDecoded(c.constantPool)
    && |c.interfaces| == c.interfacesCount
    && |c.fields| == c.fieldsCount && AllMembersShaped(c.constantPool, c.fields)
    && |c.methods| == c.methodsCount && AllMembersShaped(c.constantPool, c.methods)
  }

  /** The stream starts with the readable class file c; whatever follows it is never read. */
  predicate ClassAt(s: bytes, c: ClassImage)
  {
    ClassShaped(c) && EncodeClass(c) <= s
  }

  /** Where the access flags are stored: just after the pool. */
  function BodyStart(c: ClassImage): nat
  {
    10 + |EncodePool(c.constantPool)|
  }

  /** Where the first field is stored. */
  function FieldsStart(c: ClassImage): nat
  {
    BodyStart(c) + 8 + |c.interfaces| + 2
  }

  /** Where `methods_count` is stored. */
  function MethodsCountAt(c: ClassImage): nat
  {
    FieldsStart(c) + |EncodeMembers(c.fields)|
  }

  /** The class file up to and including its pool, as stored. */
  function EncodeHeader(c: ClassImage): bytes
  {
    Encode32(CafeBabe) + (Encode16(c.minorVersion) + (Encode16(c.majorVersion) + (Encode16(c.constantPoolCount)
      + EncodePool(c.constantPool))))
  }

  /** The class file up to and including its interfaces, as stored. */
  function EncodeFront(c: ClassImage): bytes
  {
    EncodeHeader(c) + (Encode16(c.accessFlags) + (Encode16(c.thisClass) + (Encode16(c.superClass)
      + (Encode16(c.interfacesCount) + c.interfaces))))
  }

  /** The stream starts with the readable header of c: what the decoder has read when the pool loop ends. */
  predicate HeaderStored(s: bytes, c: ClassImage)
  {
    c.constantPoolCount == |c.constantPool| + 2 && AllDecoded(c.constantPool) && EncodeHeader(c) <= s
  }

  /** The stream starts with the readable front of c: what the decoder has read before `fields_count`. */
  predicate FrontStored(s: bytes, c: ClassImage)
  {
    && c.constantPoolCount == |c.constantPool| + 2 && AllDecoded(c.constantPool)
    && |c.interfaces| == c.interfacesCount && EncodeFront(c) <= s
  }

  /** The header ends where the body starts, the front ends at `fields_count`, and the class is its front followed by its members. */
  lemma ClassSpelling(c: ClassImage)
    ensures |EncodeHeader(c)| == BodyStart(c) && |EncodeFront(c)| == FieldsStart(c) - 2
    ensures EncodeClass(c) == EncodeFront(c) + EncodeClassMembers(c)
  {
    hide Encode16, Encode32, EncodePool, EncodeClassMembers;
  }

  /**
   * The class file that `decompile` builds from the stored class c: every
   * item as read, fields resolved in file order, and no class attributes.
   */
  function ClassOf(c: ClassImage): Outcome<ClassFile>
    requires AllDecoded(c.constantPool)
  {
    var fields :- FieldsOf(c.constantPool, c.fields, FieldsStart(c));
    Ok(ClassFile(CafeBabe, c.minorVersion, c.majorVersion, c.constantPool, c.accessFlags, c.thisClass,
                 c.superClass, c.interfacesCount, c.interfaces, c.fieldsCount, fields.item, c.methodsCount,
                 c.methods, []))
  }

  /** The magic word, when the stream is long enough to hold one. */
  function MagicOf(s: bytes): Option<uint32>
  {
    match ReadU32(s, 0)
    case Ok(p) => Some(p.item)
    case Fail(_) => None
  }

  /** The class file as it stands when the pool loop ends: the magic number, the versions and the pool. */
  function HeaderOf(c: ClassImage): ClassFile
  {
    NewClassFile(CafeBabe).(minorVersion := c.minorVersion, majorVersion := c.majorVersion,
                            constantPool := c.constantPool)
  }

  /**
   * The decoder fails with f on s: the magic number is missing or wrong,
   * the versions or the pool count are missing, the pool count is below 2,
   * the pool loop fails, or a readable pool is followed by a failing body.
   */
  ghost predicate ClassFails(s: bytes, f: Failure)
  {
    match MagicOf(s)
    case None => f == Panicked(ReadPastEnd)
    case Some(m) =>
      if m != CafeBabe then f == Error(InvalidMagicNumber(m))
      else if |s| < 10 then f == Panicked(ReadPastEnd)
      else if U16At(s, 8) < 2 then f == Panicked(PoolCountUnderflow)
      else PoolFails(s, 10, U16At(s, 8) - 2, f) || exists pool :: BodyAfterPool(s, pool, f)
  }

  /** The pool is stored after the pool count with as many entries as the count says; the body after it fails with f. */
  ghost predicate BodyAfterPool(s: bytes, pool: seq<CpInfo>, f: Failure)
    requires 10 <= |s|
  {
    && |pool| + 2 == U16At(s, 8) && PoolAt(s, 10, pool)
    && BodyFails(s, 10 + |EncodePool(pool)|, pool, f)
  }

  /**
   * The decoder. A stream shorter than the magic number panics; a wrong magic
   * number is the only error reported before anything else is read; a pool
   * count below 2 panics on the subtraction; the pool then holds two entries
   * fewer than the count.
   */
  method Decompile(s: bytes) returns (r: Outcome<ClassFile>)
    ensures |s| < 4 ==> r == Abort(ReadPastEnd)
    ensures MagicOf(s).Some? && MagicOf(s).value != CafeBabe ==> r == Err(InvalidMagicNumber(MagicOf(s).value))
    ensures r.IsErr() && r.failure.error.InvalidMagicNumber? ==>
      MagicOf(s) == Some(r.failure.error.magic) && r.failure.error.magic != CafeBabe
    ensures MagicOf(s) == Some(CafeBabe) && 10 <= |s| && U16At(s, 8) < 2 ==> r == Abort(PoolCountUnderflow)
    ensures r.Ok? ==> MagicOf(s) == Some(CafeBabe) && r.value.magic == CafeBabe && 10 <= |s|
    ensures r.Ok? ==> r.value.minorVersion == U16At(s, 4) && r.value.majorVersion == U16At(s, 6)
    ensures r.Ok? ==> |r.value.constantPool| + 2 == U16At(s, 8) && AllDecoded(r.value.constantPool)
    ensures r.Ok? ==> 10 + |EncodePool(r.value.constantPool)| <= |s|
    ensures r.Ok? ==> s[10..10 + |EncodePool(r.value.constantPool)|] == EncodePool(r.value.constantPool)
    ensures r.Ok? ==> |r.value.interfaces| == r.value.interfacesCount && |r.value.fields| == r.value.fieldsCount
    ensures r.Ok? ==> |r.value.methods| == r.value.methodsCount && AllMembersShaped(r.value.constantPool, r.value.methods)
    ensures r.Ok? ==> r.value.attributes == []
    ensures forall c :: ClassAt(s, c) ==> r == ClassOf(c)
    ensures r.Ok? ==> exists c :: ClassAt(s, c) && r == ClassOf(c)
    ensures forall f :: ClassFails(s, f) ==> r == Fail(f)
    ensures r.IsErr() ==> r.failure.error.InvalidMagicNumber? || r.failure.error == IOError
                          || r.failure.error.InvalidConstantPoolTag? || r.failure.error.NoSuchConstantPoolEntry?
                          || r.failure.error.InvalidUtf8ConstantPoolEntry?
  {
    hide ClassAt, EncodeClass, EncodeClassBody, EncodePool, PoolAt, MembersAt, EncodeMembers, AllMembersShaped,
      FieldsOf, AllDecoded, ReadVariable, ClassOf, FieldsStart, MethodsCountAt;
    ClassFronts(s);
    var magic := ReadU32(s, 0);
    if magic.Fail? {
      return Fail(magic.failure);
    }
    if magic.value.item != CafeBabe {
      return Err(InvalidMagicNumber(magic.value.item));
    }
    var minorVersion := ReadU16(s, 4);
    if minorVersion.Fail? {
      return Fail(minorVersion.failure);
    }
    var majorVersion := ReadU16(s, 6);
    if majorVersion.Fail? {
      return Fail(majorVersion.failure);
    }
    var poolCount := ReadU16(s, 8);
    if poolCount.Fail? {
      return Fail(poolCount.failure);
    }
    if poolCount.value.item < 2 {
      return Abort(PoolCountUnderflow);
    }
    hide ClassFails, BodyFails, PoolFails;
    var pool := ReadPool(s, 10, poolCount.value.item - 2);
    if pool.Fail? {
      ClassFailsInPool(s, poolCount.value.item - 2, pool);
      return Fail(pool.failure);
    }
    ClassFailsAfterPool(s, poolCount.value.item - 2, pool.value);
    var header := NewClassFile(magic.value.item).(minorVersion := minorVersion.value.item,
                                                  majorVersion := majorVersion.value.item,
                                                  constantPool := pool.value.item);
    r := ReadClassBody(s, pool.value.next, header);
    if r.Ok? {
      var c := ClassImage(minorVersion.value.item, majorVersion.value.item, poolCount.value.item, pool.value.item,
                          0, 0, 0, 0, [], 0, [], 0, []);
      HeaderFromReads(s, c, pool.value.next);
      assert header == HeaderOf(c);
    }
  }

  /**
   * A class file whose pool count promises at least one entry and whose first
   * tag byte is unknown fails with that tag, reported at offset 10.
   */
  lemma FirstTagReported(s: bytes)
    requires MagicOf(s) == Some(CafeBabe) && 11 <= |s| && U16At(s, 8) >= 3 && s[10] !in KnownTags
    ensures ClassFails(s, Error(InvalidConstantPoolTag(s[10], 10)))
  {
    var none: seq<CpInfo> := [];
    assert |none| < U16At(s, 8) - 2 && PoolAt(s, 10, none) && EncodePool(none) == [];
  }

  /** When the pool loop of n entries fails, the decoder fails as it does. */
  lemma ClassFailsInPool(s: bytes, n: nat, pool: Outcome<Parsed<seq<CpInfo>>>)
    requires MagicOf(s) == Some(CafeBabe) && 10 <= |s| && n + 2 == U16At(s, 8) && pool.Fail?
    requires forall p :: |p| == n && PoolAt(s, 10, p) ==> pool == Ok(Parsed(p, 10 + |EncodePool(p)|))
    requires forall f :: PoolFails(s, 10, n, f) ==> pool == Fail(f)
    ensures forall f :: ClassFails(s, f) ==> pool.failure == f
  {
    hide PoolFails, PoolAt, BodyFails;
    forall f | ClassFails(s, f)
      ensures pool.failure == f
    {
      if !PoolFails(s, 10, n, f) {
        assert false;
      }
    }
  }

  /** When the pool loop of n entries completes, the decoder can only fail in the body after it. */
  lemma ClassFailsAfterPool(s: bytes, n: nat, pool: Parsed<seq<CpInfo>>)
    requires MagicOf(s) == Some(CafeBabe) && 10 <= |s| && n + 2 == U16At(s, 8)
    requires AllDecoded(pool.item) && pool.next <= |s|
    requires forall p :: |p| == n && PoolAt(s, 10, p) ==> Ok(pool) == Ok(Parsed(p, 10 + |EncodePool(p)|))
    requires forall f :: PoolFails(s, 10, n, f) ==> Ok(pool) == Fail(f)
    ensures forall f :: ClassFails(s, f) ==> BodyFails(s, pool.next, pool.item, f)
  {
    hide PoolFails, PoolAt, BodyFails, EncodePool;
    forall f | ClassFails(s, f)
      ensures BodyFails(s, pool.next, pool.item, f)
    {
      if PoolFails(s, 10, n, f) {
        assert false;
      }
      var p :| BodyAfterPool(s, p, f);
    }
  }

  /** The front items and the pool, read one after the other from the start of s, spell a readable header. */
  lemma HeaderFromReads(s: bytes, c: ClassImage, next: nat)
    requires 10 <= |s| && s[0..4] == Encode32(CafeBabe)
    requires s[4..6] == Encode16(c.minorVersion) && s[6..8] == Encode16(c.majorVersion)
    requires s[8..10] == Encode16(c.constantPoolCount) && c.constantPoolCount == |c.constantPool| + 2
    requires AllDecoded(c.constantPool) && Spans(s, 10, EncodePool(c.constantPool), next)
    ensures HeaderStored(s, c) && next == BodyStart(c)
  {
    hide Encode16, Encode32, EncodePool, AllDecoded;
    SliceSplit(s, 8, 10, next);
    SliceSplit(s, 6, 8, next);
    SliceSplit(s, 4, 6, next);
    SliceSplit(s, 0, 4, next);
    SlicePrefix(s, 0, next);
    assert s[0..] == s;
  }

  /**
   * The part after the pool, at at, fails with f: the four items or the
   * interfaces run past the end, or the members part after them fails.
   */
  ghost predicate BodyFails(s: bytes, at: nat, pool: seq<CpInfo>, f: Failure)
    requires at <= |s| && AllDecoded(pool)
  {
    if at + 8 > |s| then f == Panicked(ReadPastEnd)
    else if at + 8 + U16At(s, at + 6) > |s| then f == Panicked(ReadPastEnd)
    else MembersFail(s, at + 8 + U16At(s, at + 6), pool, f)
  }

  /**
   * Access flags, this and super class, and one byte per interface, read
   * into the class file `cf` built so far; then the fields and methods.
   */
  method ReadClassBody(s: bytes, at: nat, cf: ClassFile) returns (r: Outcome<ClassFile>)
    requires at <= |s| && AllDecoded(cf.constantPool)
    ensures r.Ok? ==> r.value.magic == cf.magic && r.value.minorVersion == cf.minorVersion
    ensures r.Ok? ==> r.value.majorVersion == cf.majorVersion && r.value.constantPool == cf.constantPool
    ensures r.Ok? ==> |r.value.interfaces| == r.value.interfacesCount && |r.value.fields| == r.value.fieldsCount
    ensures r.Ok? ==> |r.value.methods| == r.value.methodsCount && AllMembersShaped(r.value.constantPool, r.value.methods)
    ensures r.Ok? ==> r.value.attributes == []
    ensures r.IsErr() ==> r.failure.error.NoSuchConstantPoolEntry? || r.failure.error.InvalidUtf8ConstantPoolEntry?
    ensures forall c :: (ClassAt(s, c) && at == BodyStart(c) && cf == HeaderOf(c) ==> r == ClassOf(c))
    ensures r.Ok? ==> forall c0 :: (HeaderStored(s, c0) && at == BodyStart(c0) && cf == HeaderOf(c0)
                                    ==> exists c :: ClassAt(s, c) && HeaderOf(c) == cf && r == ClassOf(c))
    ensures forall f :: BodyFails(s, at, cf.constantPool, f) ==> r == Fail(f)
  {
    hide ClassAt, EncodeClass, EncodeClassBody, EncodeClassMembers, EncodePool, PoolAt, MembersAt, EncodeMembers,
      AllMembersShaped, FieldsOf, AllDecoded, ClassOf, FieldsStart, MethodsCountAt, MembersFail;
    ClassBodies(s);
    var accessFlags := ReadU16(s, at);
    if accessFlags.Fail? {
      return Fail(accessFlags.failure);
    }
    var thisClass := ReadU16(s, at + 2);
    if thisClass.Fail? {
      return Fail(thisClass.failure);
    }
    var superClass := ReadU16(s, at + 4);
    if superClass.Fail? {
      return Fail(superClass.failure);
    }
    var interfacesCount := ReadU16(s, at + 6);
    if interfacesCount.Fail? {
      return Fail(interfacesCount.failure);
    }
    var interfaces := ReadVariable(s, at + 8, interfacesCount.value.item);
    if interfaces.Fail? {
      return Fail(interfaces.failure);
    }
    r := ReadClassMembers(s, interfaces.value.next,
                          cf.(accessFlags := accessFlags.value.item, thisClass := thisClass.value.item,
                              superClass := superClass.value.item, interfacesCount := interfacesCount.value.item,
                              interfaces := interfaces.value.item));
    StoredFromBody(s, at, cf, accessFlags.value.item, thisClass.value.item, superClass.value.item,
                   interfacesCount.value.item, interfaces.value, r);
  }

  /**
   * The items after the pool, read one after the other from at: when the
   * members read after them complete a stored class with that front, the
   * header read before at completes one too.
   */
  lemma StoredFromBody(s: bytes, at: nat, cf: ClassFile, af: uint16, tc: uint16, sc: uint16, ic: uint16,
                       ifs: Parsed<bytes>, r: Outcome<ClassFile>)
    requires at + 8 <= |s| && s[at..at + 2] == Encode16(af) && s[at + 2..at + 4] == Encode16(tc)
    requires s[at + 4..at + 6] == Encode16(sc) && s[at + 6..at + 8] == Encode16(ic)
    requires |ifs.item| == ic && Spans(s, at + 8, ifs.item, ifs.next)
    requires r.Ok? ==> forall c0 :: (FrontStored(s, c0) && ifs.next == FieldsStart(c0) - 2
                                     && cf.(accessFlags := af, thisClass := tc, superClass := sc, interfacesCount := ic,
                                            interfaces := ifs.item) == FrontOf(c0)
                                     ==> exists c :: (ClassAt(s, c) && r == ClassOf(c)
                                                      && cf.(accessFlags := af, thisClass := tc, superClass := sc,
                                                             interfacesCount := ic, interfaces := ifs.item) == FrontOf(c)))
    ensures r.Ok? ==> forall c0 :: (HeaderStored(s, c0) && at == BodyStart(c0) && cf == HeaderOf(c0)
                                    ==> exists c :: ClassAt(s, c) && HeaderOf(c) == cf && r == ClassOf(c))
  {
    hide FrontStored, HeaderStored;
    if r.Ok? {
      var front := cf.(accessFlags := af, thisClass := tc, superClass := sc, interfacesCount := ic, interfaces := ifs.item);
      forall c0 | HeaderStored(s, c0) && at == BodyStart(c0) && cf == HeaderOf(c0)
        ensures exists c :: ClassAt(s, c) && HeaderOf(c) == cf && r == ClassOf(c)
      {
        var c1 := c0.(accessFlags := af, thisClass := tc, superClass := sc, interfacesCount := ic, interfaces := ifs.item);
        FrontFromBody(s, at, af, tc, sc, ic, ifs, c0);
        var c :| ClassAt(s, c) && r == ClassOf(c) && front == FrontOf(c);
      }
    }
  }

  /** A stored header, followed by the items after the pool read from where it ends, is a stored front. */
  lemma FrontFromBody(s: bytes, at: nat, af: uint16, tc: uint16, sc: uint16, ic: uint16, ifs: Parsed<bytes>,
                      c0: ClassImage)
    requires at + 8 <= |s| && s[at..at + 2] == Encode16(af) && s[at + 2..at + 4] == Encode16(tc)
    requires s[at + 4..at + 6] == Encode16(sc) && s[at + 6..at + 8] == Encode16(ic)
    requires |ifs.item| == ic && Spans(s, at + 8, ifs.item, ifs.next)
    requires HeaderStored(s, c0) && at == BodyStart(c0)
    ensures var c1 := c0.(accessFlags := af, thisClass := tc, superClass := sc, interfacesCount := ic,
                          interfaces := ifs.item);
      FrontStored(s, c1) && ifs.next == FieldsStart(c1) - 2 && FrontOf(c1) == HeaderOf(c0).(accessFlags := af,
        thisClass := tc, superClass := sc, interfacesCount := ic, interfaces := ifs.item)
  {
    hide Encode16, Encode32, EncodePool, AllDecoded;
    var c1 := c0.(accessFlags := af, thisClass := tc, superClass := sc, interfacesCount := ic, interfaces := ifs.item);
    ClassSpelling(c0);
    assert s[0..] == s;
    PrefixSlice(s, 0, EncodeHeader(c0));
    SliceSplit(s, at + 6, at + 8, ifs.next);
    SliceSplit(s, at + 4, at + 6, ifs.next);
    SliceSplit(s, at + 2, at + 4, ifs.next);
    SliceSplit(s, at, at + 2, ifs.next);
    SliceSplit(s, 0, at, ifs.next);
    SlicePrefix(s, 0, ifs.next);
    assert EncodeHeader(c1) == EncodeHeader(c0);
  }

  /** The class file as it stands when the interfaces have been read. */
  function FrontOf(c: ClassImage): ClassFile
  {
    HeaderOf(c).(accessFlags := c.accessFlags, thisClass := c.thisClass, superClass := c.superClass,
                 interfacesCount := c.interfacesCount, interfaces := c.interfaces)
  }

  /**
   * The members part at at fails with f: `fields_count` cannot be read, the
   * fields loop fails, or the fields are stored and readable and the methods
   * part after them fails.
   */
  ghost predicate MembersFail(s: bytes, at: nat, pool: seq<CpInfo>, f: Failure)
    requires at <= |s| && AllDecoded(pool)
  {
    if at + 2 > |s| then f == Panicked(ReadPastEnd)
    else FieldsFail(s, at + 2, pool, U16At(s, at), f) || exists fs :: MethodsAfterFields(s, at, pool, fs, f)
  }

  /** The fields fs are stored after `fields_count` at at and read without error; what follows them fails with f. */
  ghost predicate MethodsAfterFields(s: bytes, at: nat, pool: seq<CpInfo>, fs: seq<MethodInfo>, f: Failure)
    requires at + 2 <= |s| && AllDecoded(pool)
  {
    && |fs| == U16At(s, at) && MembersAt(s, at + 2, pool, fs) && FieldsOf(pool, fs, at + 2).Ok?
    && var m := at + 2 + |EncodeMembers(fs)|;
       if m + 2 > |s| then f == Panicked(ReadPastEnd) else MethodsFail(s, m + 2, pool, U16At(s, m), f)
  }

  /** The fields loop after `fields_count`, then the methods loop after `methods_count`, read into `cf`. */
  method ReadClassMembers(s: bytes, at: nat, cf: ClassFile) returns (r: Outcome<ClassFile>)
    requires at <= |s| && AllDecoded(cf.constantPool)
    ensures r.Ok? ==> r.value.accessFlags == cf.accessFlags && r.value.thisClass == cf.thisClass
    ensures r.Ok? ==> r.value.superClass == cf.superClass
    ensures r.Ok? ==> r.value.magic == cf.magic && r.value.minorVersion == cf.minorVersion
    ensures r.Ok? ==> r.value.majorVersion == cf.majorVersion && r.value.constantPool == cf.constantPool
    ensures r.Ok? ==> r.value.interfaces == cf.interfaces && r.value.interfacesCount == cf.interfacesCount
    ensures r.Ok? ==> |r.value.fields| == r.value.fieldsCount
    ensures r.Ok? ==> |r.value.methods| == r.value.methodsCount && AllMembersShaped(r.value.constantPool, r.value.methods)
    ensures r.Ok? ==> r.value.attributes == []
    ensures r.IsErr() ==> r.failure.error.NoSuchConstantPoolEntry? || r.failure.error.InvalidUtf8ConstantPoolEntry?
    ensures forall c :: (ClassAt(s, c) && at == FieldsStart(c) - 2 && cf == FrontOf(c) ==> r == ClassOf(c))
    ensures r.Ok? ==> forall c0 :: (FrontStored(s, c0) && at == FieldsStart(c0) - 2 && cf == FrontOf(c0)
                                    ==> exists c :: ClassAt(s, c) && r == ClassOf(c) && cf == FrontOf(c))
    ensures forall f :: MembersFail(s, at, cf.constantPool, f) ==> r == Fail(f)
  {
    hide ClassAt, EncodeClass, EncodeClassBody, EncodeClassMembers, EncodePool, PoolAt, MembersAt, EncodeMembers,
      AllMembersShaped, FieldsOf, AllDecoded, BodyStart, MethodsCountAt, FrontStored, EncodeFront, MembersFail,
      FieldsFail, MethodsFail;
    ClassMembers(s);
    var fieldsCount := ReadU16(s, at);
    if fieldsCount.Fail? {
      MembersFailShort(s, at, cf.constantPool);
      return Fail(fieldsCount.failure);
    }
    var fields := ReadFields(s, at + 2, cf.constantPool, fieldsCount.value.item);
    if fields.Fail? {
      MembersFailInFields(s, at, at + 2, cf.constantPool, fields);
      return Fail(fields.failure);
    }
    MembersFailAfterFields(s, at, at + 2, cf.constantPool, fields.value);
    ClassFromParts(s, at + 2, cf.constantPool, fields.value);
    var methodsCount := ReadU16(s, fields.value.next);
    if methodsCount.Fail? {
      return Fail(methodsCount.failure);
    }
    var methods := ReadMethods(s, methodsCount.value.next, cf.constantPool, methodsCount.value.item);
    if methods.Fail? {
      return Fail(methods.failure);
    }
    r := Ok(cf.(fieldsCount := fieldsCount.value.item, fields := fields.value.item,
                methodsCount := methodsCount.value.item, methods := methods.value.item, attributes := []));
    StoredFromMembers(s, at, cf, fieldsCount.value.item, fields.value, methodsCount.value.item, methods.value);
  }

  /** Without room for `fields_count`, the members part can only fail by reading past the end. */
  lemma MembersFailShort(s: bytes, at: nat, pool: seq<CpInfo>)
    requires at <= |s| && AllDecoded(pool)
    ensures at + 2 > |s| ==> forall f :: MembersFail(s, at, pool, f) ==> f == Panicked(ReadPastEnd)
  {
  }

  /** When the fields loop at pos, just after `fields_count` at at, fails, the members part fails as it does. */
  lemma MembersFailInFields(s: bytes, at: nat, pos: nat, pool: seq<CpInfo>, fields: Outcome<Parsed<seq<FieldInfo>>>)
    requires pos == at + 2 <= |s| && AllDecoded(pool) && fields.Fail?
    requires forall ms :: (|ms| == U16At(s, at) && MembersAt(s, pos, pool, ms) ==> fields == FieldsOf(pool, ms, pos))
    requires forall f :: FieldsFail(s, pos, pool, U16At(s, at), f) ==> fields == Fail(f)
    ensures forall f :: MembersFail(s, at, pool, f) ==> fields.failure == f
  {
    hide FieldsFail, MembersAt, FieldsOf;
    forall f | MembersFail(s, at, pool, f)
      ensures fields.failure == f
    {
      if !FieldsFail(s, pos, pool, U16At(s, at), f) {
        assert false;
      }
    }
  }

  /**
   * When the fields loop at pos, just after `fields_count` at at, completes,
   * the members part can only fail after it, where `methods_count` is read.
   */
  lemma MembersFailAfterFields(s: bytes, at: nat, pos: nat, pool: seq<CpInfo>, fields: Parsed<seq<FieldInfo>>)
    requires pos == at + 2 <= |s| && AllDecoded(pool) && fields.next <= |s|
    requires forall ms :: (|ms| == U16At(s, at) && MembersAt(s, pos, pool, ms) ==> Ok(fields) == FieldsOf(pool, ms, pos))
    requires forall f :: FieldsFail(s, pos, pool, U16At(s, at), f) ==> Ok(fields) == Fail(f)
    ensures forall f :: MembersFail(s, at, pool, f) ==>
      fields.next <= |s| && if fields.next + 2 > |s| then f == Panicked(ReadPastEnd)
                            else MethodsFail(s, fields.next + 2, pool, U16At(s, fields.next), f)
  {
    hide FieldsFail, MethodsFail, MembersAt, FieldsOf, EncodeMembers;
    forall f | MembersFail(s, at, pool, f)
      ensures fields.next <= |s| && if fields.next + 2 > |s| then f == Panicked(ReadPastEnd)
                                    else MethodsFail(s, fields.next + 2, pool, U16At(s, fields.next), f)
    {
      if FieldsFail(s, pos, pool, U16At(s, at), f) {
        assert false;
      }
      var fs :| MethodsAfterFields(s, at, pool, fs, f);
      FieldsOfEnd(pool, fs, pos);
      assert Ok(fields) == FieldsOf(pool, fs, pos);
    }
  }

  /**
   * The fields and methods, each read after its count from at, complete
   * every stored front that ends at at into a stored class.
   */
  lemma StoredFromMembers(s: bytes, at: nat, cf: ClassFile, fc: uint16, fields: Parsed<seq<FieldInfo>>, mc: uint16,
                          methods: Parsed<seq<MethodInfo>>)
    requires at + 2 <= |s| && s[at..at + 2] == Encode16(fc) && AllDecoded(cf.constantPool)
    requires exists fs :: (|fs| == fc && MembersAt(s, at + 2, cf.constantPool, fs)
                           && Ok(fields) == FieldsOf(cf.constantPool, fs, at + 2))
    requires fields.next + 2 <= |s| && s[fields.next..fields.next + 2] == Encode16(mc)
    requires |methods.item| == mc && AllMembersShaped(cf.constantPool, methods.item)
    requires Spans(s, fields.next + 2, EncodeMembers(methods.item), methods.next)
    ensures forall c0 :: (FrontStored(s, c0) && at == FieldsStart(c0) - 2 && cf == FrontOf(c0)
                          ==> exists c :: (ClassAt(s, c) && cf == FrontOf(c)
                                           && Ok(cf.(fieldsCount := fc, fields := fields.item, methodsCount := mc,
                                                     methods := methods.item, attributes := [])) == ClassOf(c)))
  {
    hide FrontStored, MembersAt, FieldsOf, AllDecoded, AllMembersShaped, EncodeMembers, ClassAt, ClassOf, EncodeClass,
      Encode16;
    var pool := cf.constantPool;
    var fs :| |fs| == fc && MembersAt(s, at + 2, pool, fs) && Ok(fields) == FieldsOf(pool, fs, at + 2);
    FieldsOfEnd(pool, fs, at + 2);
    MembersSpelling(s, at, fc, fs, pool, fields.next, mc, methods.item, methods.next);
    forall c0 | FrontStored(s, c0) && at == FieldsStart(c0) - 2 && cf == FrontOf(c0)
      ensures exists c :: (ClassAt(s, c) && cf == FrontOf(c)
                           && Ok(cf.(fieldsCount := fc, fields := fields.item, methodsCount := mc,
                                     methods := methods.item, attributes := [])) == ClassOf(c))
    {
      var c := c0.(fieldsCount := fc, fields := fs, methodsCount := mc, methods := methods.item);
      ClassFromFront(s, c0, c, methods.next);
      ClassOfFront(cf, c, fields);
    }
  }

  /** The class file built from the front cf of c and the fields read for c is the one `decompile` builds from c. */
  lemma ClassOfFront(cf: ClassFile, c: ClassImage, fields: Parsed<seq<FieldInfo>>)
    requires AllDecoded(c.constantPool) && cf == FrontOf(c)
    requires Ok(fields) == FieldsOf(c.constantPool, c.fields, FieldsStart(c))
    ensures Ok(cf.(fieldsCount := c.fieldsCount, fields := fields.item, methodsCount := c.methodsCount,
                   methods := c.methods, attributes := [])) == ClassOf(c)
  {
    hide FieldsOf, AllDecoded;
  }

  /** The fields and methods, each read after its count from at, spell the members part of a class. */
  lemma MembersSpelling(s: bytes, at: nat, fc: uint16, fs: seq<MethodInfo>, pool: seq<CpInfo>, mid: nat, mc: uint16,
                        ms: seq<MethodInfo>, next: nat)
    requires at + 2 <= |s| && s[at..at + 2] == Encode16(fc)
    requires MembersAt(s, at + 2, pool, fs) && mid == at + 2 + |EncodeMembers(fs)|
    requires mid + 2 <= |s| && s[mid..mid + 2] == Encode16(mc) && Spans(s, mid + 2, EncodeMembers(ms), next)
    ensures at <= next <= |s| && AllMembersShaped(pool, fs)
    ensures Encode16(fc) + (EncodeMembers(fs) + (Encode16(mc) + EncodeMembers(ms))) == s[at..next]
  {
    hide Encode16, EncodeMembers, AllMembersShaped;
    PrefixSlice(s, at + 2, EncodeMembers(fs));
    SliceSplit(s, mid, mid + 2, next);
    SliceSplit(s, at + 2, mid, next);
    SliceSplit(s, at, at + 2, next);
  }

  /** A stored front whose members part follows it, up to next, is a stored class. */
  lemma ClassFromFront(s: bytes, c0: ClassImage, c: ClassImage, next: nat)
    requires FrontStored(s, c0) && FieldsStart(c0) - 2 <= next <= |s|
    requires c == c0.(fieldsCount := c.fieldsCount, fields := c.fields, methodsCount := c.methodsCount,
                      methods := c.methods)
    requires |c.fields| == c.fieldsCount && AllMembersShaped(c.constantPool, c.fields)
    requires |c.methods| == c.methodsCount && AllMembersShaped(c.constantPool, c.methods)
    requires EncodeClassMembers(c) == s[FieldsStart(c0) - 2..next]
    ensures ClassAt(s, c) && FrontOf(c) == FrontOf(c0) && FieldsStart(c) == FieldsStart(c0)
  {
    hide Encode16, Encode32, EncodePool, AllDecoded, EncodeMembers, AllMembersShaped, EncodeClassMembers;
    var at := FieldsStart(c0) - 2;
    ClassSpelling(c0);
    ClassSpelling(c);
    assert EncodeFront(c) == EncodeFront(c0);
    assert s[0..] == s;
    PrefixSlice(s, 0, EncodeFront(c0));
    SliceSplit(s, 0, at, next);
    SlicePrefix(s, 0, next);
  }

  /** Every class file stored at the start of s is the one built from the fields read there. */
  lemma ClassFromParts(s: bytes, at: nat, pool: seq<CpInfo>, fields: Parsed<seq<FieldInfo>>)
    requires AllDecoded(pool)
    requires forall c :: (ClassAt(s, c) && at == FieldsStart(c) && pool == c.constantPool
                          ==> Ok(fields) == FieldsOf(c.constantPool, c.fields, FieldsStart(c)))
    ensures forall c :: (ClassAt(s, c) && at == FieldsStart(c) && pool == c.constantPool
                         ==> Ok(fields.next) == Ok(MethodsCountAt(c)))
  {
    hide ClassAt, EncodeClass, FieldsOf, AllDecoded;
    forall c | ClassAt(s, c) && at == FieldsStart(c) && pool == c.constantPool
      ensures Ok(fields.next) == Ok(MethodsCountAt(c))
    {
      FieldsOfEnd(c.constantPool, c.fields, FieldsStart(c));
    }
  }

  /** The fields loop, when it completes, ends where the stored members end. */
  lemma {:induction false} FieldsOfEnd(pool: seq<CpInfo>, ms: seq<MethodInfo>, pos: nat)
    requires AllDecoded(pool)
    ensures FieldsOf(pool, ms, pos).Ok? ==> FieldsOf(pool, ms, pos).value.next == pos + |EncodeMembers(ms)|
    ensures FieldsOf(pool, ms, pos).Ok? ==> |FieldsOf(pool, ms, pos).value.item| == |ms|
    decreases |ms|
  {
    if |ms| > 0 && FieldsOf(pool, ms, pos).Ok? {
      var f := FieldOf(pool, ms[0], pos);
      FieldOfEnd(pool, ms[0], pos);
      FieldsOfEnd(pool, ms[1..], f.value.next);
    }
  }

  /** A u2 followed by rest, stored at pos: the u2 reads back, and rest follows it. */
  lemma U16Then(s: bytes, pos: nat, v: uint16, rest: bytes)
    requires pos <= |s| && Encode16(v) + rest <= s[pos..]
    ensures pos + 2 <= |s| && ReadU16(s, pos) == Ok(Parsed(v, pos + 2)) && rest <= s[pos + 2..]
  {
    hide ReadU16;
    PrefixAppendAt(s, pos, Encode16(v), rest);
    PrefixSlice(s, pos, Encode16(v));
    ReadU16OfEncoding(s, pos, v);
  }

  /** The bytes x followed by rest, stored at pos: x reads back, and rest follows it. */
  lemma BytesThen(s: bytes, pos: nat, x: bytes, rest: bytes)
    requires pos <= |s| && x + rest <= s[pos..]
    ensures pos + |x| <= |s| && ReadVariable(s, pos, |x|) == Ok(Parsed(x, pos + |x|)) && rest <= s[pos + |x|..]
  {
    PrefixAppendAt(s, pos, x, rest);
    PrefixSlice(s, pos, x);
  }

  /** A class file stored at the start of s: its front items read back, then its pool, then its body. */
  lemma FrontSplit(s: bytes, c: ClassImage)
    requires ClassAt(s, c)
    ensures ReadU32(s, 0) == Ok(Parsed(CafeBabe, 4))
    ensures ReadU16(s, 4) == Ok(Parsed(c.minorVersion, 6)) && ReadU16(s, 6) == Ok(Parsed(c.majorVersion, 8))
    ensures ReadU16(s, 8) == Ok(Parsed(c.constantPoolCount, 10))
    ensures BodyStart(c) <= |s| && PoolAt(s, 10, c.constantPool) && EncodeClassBody(c) <= s[BodyStart(c)..]
  {
    hide ReadU16, ReadU32, EncodePool, EncodeClassBody, AllDecoded, AllMembersShaped, Encode16, Encode32;
    var b := EncodeClassBody(c);
    var r2 := Encode16(c.majorVersion) + (Encode16(c.constantPoolCount) + (EncodePool(c.constantPool) + b));
    assert s[0..] == s;
    PrefixAppendAt(s, 0, Encode32(CafeBabe), Encode16(c.minorVersion) + r2);
    PrefixSlice(s, 0, Encode32(CafeBabe));
    ReadU32OfEncoding(s, 0, CafeBabe);
    U16Then(s, 4, c.minorVersion, r2);
    U16Then(s, 6, c.majorVersion, Encode16(c.constantPoolCount) + (EncodePool(c.constantPool) + b));
    U16Then(s, 8, c.constantPoolCount, EncodePool(c.constantPool) + b);
    PrefixAppendAt(s, 10, EncodePool(c.constantPool), b);
  }

  /** A class file stored at the start of s: the items after its pool read back, then its members follow. */
  lemma BodySplit(s: bytes, c: ClassImage)
    requires ClassAt(s, c)
    ensures BodyStart(c) + 8 <= |s|
    ensures ReadU16(s, BodyStart(c)) == Ok(Parsed(c.accessFlags, BodyStart(c) + 2))
    ensures ReadU16(s, BodyStart(c) + 2) == Ok(Parsed(c.thisClass, BodyStart(c) + 4))
    ensures ReadU16(s, BodyStart(c) + 4) == Ok(Parsed(c.superClass, BodyStart(c) + 6))
    ensures ReadU16(s, BodyStart(c) + 6) == Ok(Parsed(c.interfacesCount, BodyStart(c) + 8))
    ensures FieldsStart(c) <= |s|
    ensures ReadVariable(s, BodyStart(c) + 8, |c.interfaces|) == Ok(Parsed(c.interfaces, FieldsStart(c) - 2))
    ensures EncodeClassMembers(c) <= s[FieldsStart(c) - 2..]
  {
    hide ReadU16, ReadVariable, EncodePool, EncodeClass, EncodeClassMembers, AllDecoded, AllMembersShaped, Encode16,
      ClassAt;
    FrontSplit(s, c);
    var p := BodyStart(c);
    var r3 := EncodeClassMembers(c);
    U16Then(s, p, c.accessFlags, Encode16(c.thisClass) + (Encode16(c.superClass) + (Encode16(c.interfacesCount) + (c.interfaces + r3))));
    U16Then(s, p + 2, c.thisClass, Encode16(c.superClass) + (Encode16(c.interfacesCount) + (c.interfaces + r3)));
    U16Then(s, p + 4, c.superClass, Encode16(c.interfacesCount) + (c.interfaces + r3));
    U16Then(s, p + 6, c.interfacesCount, c.interfaces + r3);
    BytesThen(s, p + 8, c.interfaces, r3);
  }

  /** A class file stored at the start of s: its fields and methods read back, each after its count. */
  lemma MembersSplit(s: bytes, c: ClassImage)
    requires ClassAt(s, c)
    ensures FieldsStart(c) <= |s|
    ensures ReadU16(s, FieldsStart(c) - 2) == Ok(Parsed(c.fieldsCount, FieldsStart(c)))
    ensures MembersAt(s, FieldsStart(c), c.constantPool, c.fields) && MethodsCountAt(c) + 2 <= |s|
    ensures ReadU16(s, MethodsCountAt(c)) == Ok(Parsed(c.methodsCount, MethodsCountAt(c) + 2))
    ensures MembersAt(s, MethodsCountAt(c) + 2, c.constantPool, c.methods)
  {
    hide ReadU16, ReadVariable, EncodePool, EncodeClass, EncodeClassBody, EncodeMembers, Encode16;
    BodySplit(s, c);
    var q := FieldsStart(c) - 2;
    var r4 := Encode16(c.methodsCount) + EncodeMembers(c.methods);
    U16Then(s, q, c.fieldsCount, EncodeMembers(c.fields) + r4);
    PrefixAppendAt(s, q + 2, EncodeMembers(c.fields), r4);
    U16Then(s, MethodsCountAt(c), c.methodsCount, EncodeMembers(c.methods));
  }

  /** Every class file stored at the start of s: its front items read back, and its pool follows them. */
  lemma ClassFronts(s: bytes)
    ensures forall c :: ClassAt(s, c) ==>
      && ReadU32(s, 0) == Ok(Parsed(CafeBabe, 4))
      && ReadU16(s, 4) == Ok(Parsed(c.minorVersion, 6)) && ReadU16(s, 6) == Ok(Parsed(c.majorVersion, 8))
      && ReadU16(s, 8) == Ok(Parsed(c.constantPoolCount, 10))
      && c.constantPoolCount == |c.constantPool| + 2 && AllDecoded(c.constantPool)
      && BodyStart(c) <= |s| && PoolAt(s, 10, c.constantPool)
  {
    hide EncodeClass, EncodeClassBody, EncodePool, PoolAt, MembersAt, EncodeMembers, ReadU16, ReadU32, ReadVariable;
    forall c | ClassAt(s, c)
      ensures ReadU32(s, 0) == Ok(Parsed(CafeBabe, 4))
      ensures ReadU16(s, 4) == Ok(Parsed(c.minorVersion, 6)) && ReadU16(s, 6) == Ok(Parsed(c.majorVersion, 8))
      ensures ReadU16(s, 8) == Ok(Parsed(c.constantPoolCount, 10))
      ensures BodyStart(c) <= |s| && PoolAt(s, 10, c.constantPool)
    {
      FrontSplit(s, c);
    }
  }

  /** Every class file stored at the start of s: the items after its pool read back where the decoder looks for them. */
  lemma ClassBodies(s: bytes)
    ensures forall c :: ClassAt(s, c) ==>
      && BodyStart(c) + 8 <= |s| && AllDecoded(c.constantPool)
      && ReadU16(s, BodyStart(c)) == Ok(Parsed(c.accessFlags, BodyStart(c) + 2))
      && ReadU16(s, BodyStart(c) + 2) == Ok(Parsed(c.thisClass, BodyStart(c) + 4))
      && ReadU16(s, BodyStart(c) + 4) == Ok(Parsed(c.superClass, BodyStart(c) + 6))
      && ReadU16(s, BodyStart(c) + 6) == Ok(Parsed(c.interfacesCount, BodyStart(c) + 8))
      && |c.interfaces| == c.interfacesCount && FieldsStart(c) <= |s|
      && ReadVariable(s, BodyStart(c) + 8, |c.interfaces|) == Ok(Parsed(c.interfaces, FieldsStart(c) - 2))
  {
    hide EncodeClass, EncodeClassBody, EncodeClassMembers, EncodePool, PoolAt, MembersAt, EncodeMembers, ReadU16,
      ReadU32, ReadVariable;
    forall c | ClassAt(s, c)
      ensures BodyStart(c) + 8 <= |s|
      ensures ReadU16(s, BodyStart(c)) == Ok(Parsed(c.accessFlags, BodyStart(c) + 2))
      ensures ReadU16(s, BodyStart(c) + 2) == Ok(Parsed(c.thisClass, BodyStart(c) + 4))
      ensures ReadU16(s, BodyStart(c) + 4) == Ok(Parsed(c.superClass, BodyStart(c) + 6))
      ensures ReadU16(s, BodyStart(c) + 6) == Ok(Parsed(c.interfacesCount, BodyStart(c) + 8))
      ensures FieldsStart(c) <= |s|
      ensures ReadVariable(s, BodyStart(c) + 8, |c.interfaces|) == Ok(Parsed(c.interfaces, FieldsStart(c) - 2))
    {
      BodySplit(s, c);
    }
  }

  /** Every class file stored at the start of s: its fields and methods read back, each after its count. */
  lemma ClassMembers(s: bytes)
    ensures forall c :: ClassAt(s, c) ==>
      && FieldsStart(c) <= |s| && AllDecoded(c.constantPool)
      && ReadU16(s, FieldsStart(c) - 2) == Ok(Parsed(c.fieldsCount, FieldsStart(c)))
      && |c.fields| == c.fieldsCount && MembersAt(s, FieldsStart(c), c.constantPool, c.fields)
      && MethodsCountAt(c) + 2 <= |s|
      && ReadU16(s, MethodsCountAt(c)) == Ok(Parsed(c.methodsCount, MethodsCountAt(c) + 2))
      && |c.methods| == c.methodsCount && MembersAt(s, MethodsCountAt(c) + 2, c.constantPool, c.methods)
  {
    hide EncodeClass, EncodeClassBody, EncodeClassMembers, EncodePool, PoolAt, MembersAt, EncodeMembers, ReadU16,
      ReadU32, ReadVariable;
    forall c | ClassAt(s, c)
      ensures FieldsStart(c) <= |s|
      ensures ReadU16(s, FieldsStart(c) - 2) == Ok(Parsed(c.fieldsCount, FieldsStart(c)))
      ensures MembersAt(s, FieldsStart(c), c.constantPool, c.fields) && MethodsCountAt(c) + 2 <= |s|
      ensures ReadU16(s, MethodsCountAt(c)) == Ok(Parsed(c.methodsCount, MethodsCountAt(c) + 2))
      ensures MembersAt(s, MethodsCountAt(c) + 2, c.constantPool, c.methods)
    {
      MembersSplit(s, c);
    }
  }
}

=== FILE: divergences.dfy ===
/**
 * Where the decoder departs from the Java Virtual Machine Specification
 * (Java SE 21), stated about the model of the code as written.
 */
module Divergences {
  import opened Bytes
  import opened Outcomes
  import opened Types
  import opened ConstantPool
  import opened Decompile

  /** Long and Double entries, which take two pool slots under section 4.4.5 of the Java Virtual Machine Specification. */
  predicate IsWide(e: CpInfo)
  {
    e.info.Some? && (e.info.value.ConstantLong? || e.info.value.ConstantDouble?)
  }

  /** The number of Long and Double entries among the entries read. */
  function WideCount(pool: seq<CpInfo>): nat
  {
    if |pool| == 0 then 0 else (if IsWide(pool[0]) then 1 else 0) + WideCount(pool[1..])
  }

  /**
   * The pool slots the entries take under section 4.4.5 of the Java Virtual Machine Specification:
   * two for a Long or Double, one otherwise.
   */
  function Slots(pool: seq<CpInfo>): nat
  {
    if |pool| == 0 then 0 else (if IsWide(pool[0]) then 2 else 1) + Slots(pool[1..])
  }

  /** Every entry takes one slot, and every wide entry one more. */
  lemma {:induction false} SlotsCount(pool: seq<CpInfo>)
    ensures Slots(pool) == |pool| + WideCount(pool)
    decreases |pool|
  {
    if |pool| > 0 {
      SlotsCount(pool[1..]);
    }
  }

  /**
   * Section 4.1 of the Java Virtual Machine Specification stores as
   * `constant_pool_count` one more than the slots the entries take; the
   * decoder reads two fewer entries than the count. The two agree exactly
   * when the pool holds one Long or Double entry.
   */
  lemma PoolCountDivergence(pool: seq<CpInfo>)
    ensures 1 + Slots(pool) == |pool| + 2 <==> WideCount(pool) == 1
  {
    SlotsCount(pool);
  }

  /**
   * The entry read k-th is found at index k + 1, while section 4.4.5 of the Java Virtual Machine Specification
   * gives it the index one past the slots of the entries before it: every Long or
   * Double read earlier shifts the two apart by one.
   */
  lemma IndexDivergence(pool: seq<CpInfo>, k: nat)
    requires k < |pool|
    ensures Lookup(pool, k + 1) == Some(pool[k])
    ensures 1 + Slots(pool[..k]) == k + 1 + WideCount(pool[..k])
    ensures 1 + Slots(pool[..k]) == k + 1 <==> WideCount(pool[..k]) == 0
  {
    SlotsCount(pool[..k]);
  }

  /**
   * Nothing after the methods is read: bytes appended to a class file, such
   * as the class-level attribute table of section 4.1 of the Java Virtual Machine Specification, leave
   * it readable as the same class.
   */
  lemma TrailingBytesIgnored(s: bytes, t: bytes, c: ClassImage)
    requires ClassAt(s, c)
    ensures ClassAt(s + t, c)
  {
    assert EncodeClass(c) == (s + t)[..|EncodeClass(c)|];
  }
}

=== FILE: members.dfy ===
/**
 * Fields and methods: `read_field_info` and `read_method_info`, and the
 * loops over `fields_count` and `methods_count` (sections 4.5 and 4.6 of the
 * Java Virtual Machine Specification, Java SE 21). Both kinds of member are
 * stored alike: access flags, name index, descriptor index, an attribute
 * count, and that many attributes. A method keeps exactly that; a field
 * resolves its name and descriptor to text and takes its value from a
 * ConstantValue attribute (section 4.7.2 of the Java Virtual Machine Specification).
 */
module Members {
  import opened Bytes
  import opened Outcomes
  import opened Types
  import opened Reader
  import opened Numeric
  import opened ConstantPool
  import opened Attributes

  // ---------------------------------------------------------------- storage

  /** The eight header bytes of a member: access flags, name index, descriptor index, attribute count. */
  function EncodeMemberHeader(m: MethodInfo): (r: bytes)
    ensures |r| == 8
  {
    Encode16(m.accessFlags) + (Encode16(m.nameIndex) + (Encode16(m.descriptorIndex) + Encode16(m.attributesCount)))
  }

  /** A field_info or method_info as stored. */
  function EncodeMember(m: MethodInfo): bytes
  {
    EncodeMemberHeader(m) + EncodeAttributes(m.attributes)
  }

  /** Members as stored one after the other. */
  function EncodeMembers(ms: seq<MethodInfo>): bytes
  {
    if |ms| == 0 then [] else EncodeMember(ms[0]) + EncodeMembers(ms[1..])
  }

  /** A member the decoder can read against `pool`: as many attributes as its count, each decodable. */
  predicate MemberShaped(pool: seq<CpInfo>, m: MethodInfo)
  {
    |m.attributes| == m.attributesCount && AllDecodable(pool, m.attributes)
  }

  predicate AllMembersShaped(pool: seq<CpInfo>, ms: seq<MethodInfo>)
  {
    forall i :: 0 <= i < |ms| ==> MemberShaped(pool, ms[i])
  }

  /** A readable member is stored at pos. */
  predicate MemberAt(s: bytes, pos: nat, pool: seq<CpInfo>, m: MethodInfo)
    requires pos <= |s|
  {
    MemberShaped(pool, m) && EncodeMember(m) <= s[pos..]
  }

  /** Readable members are stored from pos, one after the other. */
  predicate MembersAt(s: bytes, pos: nat, pool: seq<CpInfo>, ms: seq<MethodInfo>)
    requires pos <= |s|
  {
    AllMembersShaped(pool, ms) && EncodeMembers(ms) <= s[pos..]
  }

  /** The member whose header is stored at pos, with the given attributes. */
  function MemberHeaderAt(s: bytes, pos: nat, attrs: seq<Attribute>): (m: MethodInfo)
    requires pos + 8 <= |s|
    ensures EncodeMemberHeader(m) == s[pos..pos + 8] && m.attributes == attrs
  {
    SliceSplit(s, pos + 4, pos + 6, pos + 8);
    SliceSplit(s, pos + 2, pos + 4, pos + 8);
    SliceSplit(s, pos, pos + 2, pos + 8);
    MethodInfo(U16At(s, pos), U16At(s, pos + 2), U16At(s, pos + 4), U16At(s, pos + 6), attrs)
  }

  // ------------------------------------------------------------ field value

  /** The payload of the pool entry at index, when there is an entry. */
  function PayloadAt(pool: seq<CpInfo>, index: int): Option<ConstantPoolType>
  {
    match Lookup(pool, index)
    case Some(e) => e.info
    case None => None
  }

  /** A payload that is a CONSTANT_Utf8. */
  predicate IsUtf8Payload(p: Option<ConstantPoolType>)
  {
    p.Some? && p.value.ConstantUtf8?
  }

  /** The kinds of entry a ConstantValue attribute may refer to. */
  predicate IsValueKind(c: ConstantPoolType)
  {
    c.ConstantInteger? || c.ConstantLong? || c.ConstantFloat? || c.ConstantDouble? || c.ConstantString?
  }

  /**
   * The value a ConstantValue attribute gives a field: the entry at its index
   * rendered as text (an `int` or `long` in decimal, a string as the text of
   * the Utf8 entry it refers to), or the raw bits of a `float` or `double`.
   * `at` is the stream position, reported when an index finds no entry; a
   * string entry whose own index finds nothing is reported under the field's
   * name index, not under the string's index.
   */
  function ConstantFieldValue(pool: seq<CpInfo>, index: uint16, nameIndex: uint16, at: nat): (r: Outcome<FieldValue>)
    requires AllDecoded(pool)
    ensures Lookup(pool, index).None? ==> r == Err(NoSuchConstantPoolEntry(nameIndex, at))
    ensures var p := PayloadAt(pool, index);
      p.Some? && p.value.ConstantInteger? ==>
        r.Ok? && r.value.Text? && |p.value.raw| == 4 && ParseDecimal(r.value.utf8) == Some(IntegerValue(p.value.raw))
    ensures var p := PayloadAt(pool, index);
      p.Some? && p.value.ConstantLong? ==>
        && r.Ok? && r.value.Text? && |p.value.highBytes| == 4 && |p.value.lowBytes| == 4
        && ParseDecimal(r.value.utf8) == Some(LongValue(p.value.highBytes, p.value.lowBytes))
    ensures var p := PayloadAt(pool, index);
      p.Some? && p.value.ConstantFloat? ==> r == Ok(RenderedFloat(p.value.raw))
    ensures var p := PayloadAt(pool, index);
      p.Some? && p.value.ConstantDouble? ==> r == Ok(RenderedDouble(p.value.highBytes, p.value.lowBytes))
    ensures var p := PayloadAt(pool, index);
      p.Some? && p.value.ConstantString? ==>
        && (forall text :: IsUtf8At(pool, p.value.stringIndex, text) ==> r == Ok(Text(text)))
        && (Lookup(pool, p.value.stringIndex).None? ==> r == Err(NoSuchConstantPoolEntry(nameIndex, at)))
        && (r.Ok? ==> r.value.Text? && IsUtf8At(pool, p.value.stringIndex, r.value.utf8))
        && (r.IsErr() && Lookup(pool, p.value.stringIndex).Some? ==> r == Err(InvalidUtf8ConstantPoolEntry(p.value.stringIndex)))
        && (Lookup(pool, p.value.stringIndex).Some? && !IsUtf8Payload(PayloadAt(pool, p.value.stringIndex))
            ==> r == Err(InvalidUtf8ConstantPoolEntry(p.value.stringIndex)))
    ensures var p := PayloadAt(pool, index); p.Some? && IsValueKind(p.value) ==> !r.IsAbort()
    ensures var p := PayloadAt(pool, index); p.Some? && !IsValueKind(p.value) ==> r == Abort(InvalidFieldValueType)
    ensures r.IsAbort() ==> r == Abort(InvalidFieldValueType)
  {
    match Lookup(pool, index)
    case None => Err(NoSuchConstantPoolEntry(nameIndex, at))
    case Some(e) =>
      assert Decoded(pool[index - 1]);
      match e.info
      case Some(ConstantDouble(hi, lo)) => Ok(RenderedDouble(hi, lo))
      case Some(ConstantFloat(raw)) => Ok(RenderedFloat(raw))
      case Some(ConstantLong(hi, lo)) =>
        DecimalRoundTrip(LongValue(hi, lo));
        Ok(Text(DecimalText(LongValue(hi, lo))))
      case Some(ConstantInteger(raw)) =>
        DecimalRoundTrip(IntegerValue(raw));
        Ok(Text(DecimalText(IntegerValue(raw))))
      case Some(ConstantString(si)) =>
        (match Lookup(pool, si)
         case None => Err(NoSuchConstantPoolEntry(nameIndex, at))
         case Some(t) =>
           if t.info.Some? && t.info.value.ConstantUtf8? then Ok(Text(t.info.value.raw))
           else Err(InvalidUtf8ConstantPoolEntry(si)))
      case _ => Abort(InvalidFieldValueType)
  }

  /**
   * One pass of the attribute loop of `read_field_info`, for an attribute
   * whose bytes end at `at`: a ConstantValue sets the value, unless one is
   * already set; any other attribute leaves it alone.
   */
  function FieldStep(pool: seq<CpInfo>, nameIndex: uint16, value: Option<FieldValue>, a: Attribute, at: nat)
    : Outcome<Option<FieldValue>>
    requires AllDecoded(pool)
  {
    if !a.ConstantValue? then Ok(value)
    else if value.Some? then Abort(DuplicateConstantValue)
    else
      var v :- ConstantFieldValue(pool, a.constantValueIndex, nameIndex, at);
      Ok(Some(v))
  }

  /** The value a field ends with after the loop meets `attrs`, stored from `at`, starting from `value`. */
  function FoldValues(pool: seq<CpInfo>, nameIndex: uint16, value: Option<FieldValue>, attrs: seq<Attribute>, at: nat)
    : Outcome<Option<FieldValue>>
    requires AllDecoded(pool)
    decreases |attrs|
  {
    if |attrs| == 0 then Ok(value)
    else
      var end := at + |EncodeAttribute(attrs[0])|;
      var v :- FieldStep(pool, nameIndex, value, attrs[0], end);
      FoldValues(pool, nameIndex, v, attrs[1..], end)
  }

  /** The number of ConstantValue attributes in a table. */
  function ConstantValueCount(attrs: seq<Attribute>): nat
  {
    if |attrs| == 0 then 0 else (if attrs[0].ConstantValue? then 1 else 0) + ConstantValueCount(attrs[1..])
  }

  /**
   * A field's loop that completes has met at most one ConstantValue, and the
   * field has a value exactly when it met one; a second one is never accepted.
   */
  lemma {:induction false} FoldValuesAtMostOne(pool: seq<CpInfo>, nameIndex: uint16, value: Option<FieldValue>,
                                               attrs: seq<Attribute>, at: nat)
    requires AllDecoded(pool) && FoldValues(pool, nameIndex, value, attrs, at).Ok?
    ensures value.Some? ==> ConstantValueCount(attrs) == 0 && FoldValues(pool, nameIndex, value, attrs, at).value == value
    ensures value.None? ==> ConstantValueCount(attrs) <= 1
    ensures value.None? ==> (FoldValues(pool, nameIndex, value, attrs, at).value.Some? <==> ConstantValueCount(attrs) == 1)
    decreases |attrs|
  {
    if |attrs| > 0 {
      var end := at + |EncodeAttribute(attrs[0])|;
      var v := FieldStep(pool, nameIndex, value, attrs[0], end);
      FoldValuesAtMostOne(pool, nameIndex, v.value, attrs[1..], end);
    }
  }

  /** A field's attributes and the value they gave it. */
  datatype FieldBody = FieldBody(value: Option<FieldValue>, attributes: seq<Attribute>)

  /** What the loop of `read_field_info` returns for the table `attrs` stored from `at`. */
  function FoldResult(pool: seq<CpInfo>, nameIndex: uint16, value: Option<FieldValue>, attrs: seq<Attribute>, at: nat)
    : Outcome<Parsed<FieldBody>>
    requires AllDecoded(pool)
  {
    match FoldValues(pool, nameIndex, value, attrs, at)
    case Ok(v) => Ok(Parsed(FieldBody(v, attrs), at + |EncodeAttributes(attrs)|))
    case Fail(f) => Fail(f)
  }

  /** The rest of a field's loop, after the attribute `a`: its failure, or `a` pushed in front. */
  function PrependBody(a: Attribute, rest: Outcome<Parsed<FieldBody>>): Outcome<Parsed<FieldBody>>
  {
    match rest
    case Ok(p) => Ok(Parsed(FieldBody(p.item.value, [a] + p.item.attributes), p.next))
    case Fail(f) => Fail(f)
  }

  /**
   * The attribute loop of `read_field_info` over count attributes at pos,
   * starting from `value`, stops with f at the run `attrs` stored there:
   * either the fold of `attrs` fails with f, or `attrs` is shorter than count,
   * folds, and the attribute right after it fails with f.
   */
  ghost predicate FieldTableStops(s: bytes, pos: nat, pool: seq<CpInfo>, nameIndex: uint16, count: nat,
                                  value: Option<FieldValue>, attrs: seq<Attribute>, f: Failure)
    requires pos <= |s| && AllDecoded(pool)
  {
    |attrs| <= count && AttributesAt(s, pos, pool, attrs) &&
    match FoldValues(pool, nameIndex, value, attrs, pos)
    case Fail(g) => f == g
    case Ok(_) => |attrs| < count && AttributeFails(s, pos + |EncodeAttributes(attrs)|, pool, f)
  }

  /** The attribute loop of `read_field_info` over count attributes at pos, starting from `value`, fails with f. */
  ghost predicate FieldTableFails(s: bytes, pos: nat, pool: seq<CpInfo>, nameIndex: uint16, count: nat,
                                  value: Option<FieldValue>, f: Failure)
    requires AllDecoded(pool)
  {
    pos <= |s| && exists attrs :: FieldTableStops(s, pos, pool, nameIndex, count, value, attrs, f)
  }

  /**
   * The attribute loop of `read_field_info`, from the attribute at pos on,
   * with `count` attributes left and the value set so far. Each attribute is
   * read and folded into the value before the next one is read, so the first
   * failure in file order ends the loop, whether a read or a fold.
   */
  method ReadFieldAttributes(s: bytes, pos: nat, pool: seq<CpInfo>, nameIndex: uint16, count: nat,
                             value: Option<FieldValue>) returns (r: Outcome<Parsed<FieldBody>>)
    requires pos <= |s| && AllDecoded(pool)
    ensures r.Ok? ==> |r.value.item.attributes| == count && pos <= r.value.next <= |s|
    ensures r.Ok? ==> AllDecodable(pool, r.value.item.attributes)
    ensures r.Ok? ==> Spans(s, pos, EncodeAttributes(r.value.item.attributes), r.value.next)
    ensures r.Ok? ==> FoldValues(pool, nameIndex, value, r.value.item.attributes, pos) == Ok(r.value.item.value)
    ensures r.IsErr() ==> r.failure.error.NoSuchConstantPoolEntry? || r.failure.error.InvalidUtf8ConstantPoolEntry?
    ensures forall attrs :: (|attrs| == count && AttributesAt(s, pos, pool, attrs)
                             ==> r == FoldResult(pool, nameIndex, value, attrs, pos))
    ensures forall f :: FieldTableFails(s, pos, pool, nameIndex, count, value, f) ==> r == Fail(f)
    decreases count
  {
    hide AttributesAt, AttributeAt, Decodable, BodyShaped, EncodeBody, EncodeAttribute, ConstantFieldValue,
      FieldTableFails, AttributeFails, TableFails, FoldResult, FoldValues, EncodeAttributes, AttributeBodyFails, CodeFails;
    if count == 0 {
      r := Ok(Parsed(FieldBody(value, []), pos));
      FieldTableEmpty(s, pos, pool, nameIndex, value);
      return;
    }
    var e := ReadAttribute(s, pos, pool);
    if e.Fail? {
      NoAttributesWithoutHead(s, pos, pool, count, e);
      FieldTableFailsAtHead(s, pos, pool, nameIndex, count, value, e);
      return Fail(e.failure);
    }
    var v := FieldStep(pool, nameIndex, value, e.value.item, e.value.next);
    if v.Fail? {
      FoldFailsAtHead(s, pos, pool, nameIndex, count, value, e.value, v);
      FieldTableFailsAtStep(s, pos, pool, nameIndex, count, value, e.value, v);
      return Fail(v.failure);
    }
    var rest := ReadFieldAttributes(s, e.value.next, pool, nameIndex, count - 1, v.value);
    FoldFromParts(s, pos, pool, nameIndex, count, value, e.value, rest);
    FieldTableFailsAfterHead(s, pos, pool, nameIndex, count, value, e.value, rest);
    if rest.Ok? {
      AttributesCons(s, pos, pool, e.value, Parsed(rest.value.item.attributes, rest.value.next));
      FoldCons(pool, nameIndex, value, e.value.item, rest.value.item.attributes, pos, e.value.next);
    }
    r := PrependBody(e.value.item, rest);
  }

  /** A fold that fails on the first attribute read at pos fails the same way on every table stored there. */
  lemma FoldFailsAtHead(s: bytes, pos: nat, pool: seq<CpInfo>, nameIndex: uint16, count: nat, value: Option<FieldValue>,
                        head: Parsed<Attribute>, v: Outcome<Option<FieldValue>>)
    requires pos <= |s| && count > 0 && AllDecoded(pool) && v.Fail?
    requires forall a :: AttributeAt(s, pos, pool, a) ==> Ok(head) == Ok(Parsed(a, pos + |EncodeAttribute(a)|))
    requires v == FieldStep(pool, nameIndex, value, head.item, head.next)
    ensures forall attrs :: (|attrs| == count && AttributesAt(s, pos, pool, attrs)
                             ==> Fail(v.failure) == FoldResult(pool, nameIndex, value, attrs, pos))
  {
    hide AttributesAt, AttributeAt, Decodable, BodyShaped, EncodeBody, EncodeAttribute, EncodeAttributes, FieldStep,
      ConstantFieldValue;
    forall attrs | |attrs| == count && AttributesAt(s, pos, pool, attrs)
      ensures Fail(v.failure) == FoldResult(pool, nameIndex, value, attrs, pos)
    {
      AttributesHead(s, pos, pool, attrs);
    }
  }

  /** An empty loop keeps the value, consumes nothing and does not fail. */
  lemma FieldTableEmpty(s: bytes, pos: nat, pool: seq<CpInfo>, nameIndex: uint16, value: Option<FieldValue>)
    requires pos <= |s| && AllDecoded(pool)
    ensures FoldValues(pool, nameIndex, value, [], pos) == Ok(value)
    ensures AllDecodable(pool, []) && Spans(s, pos, EncodeAttributes([]), pos)
    ensures forall attrs :: (|attrs| == 0 && AttributesAt(s, pos, pool, attrs)
                             ==> Ok(Parsed(FieldBody(value, []), pos)) == FoldResult(pool, nameIndex, value, attrs, pos))
    ensures forall f :: !FieldTableFails(s, pos, pool, nameIndex, 0, value, f)
  {
  }

  /** When the first attribute cannot be read, the loop fails as that attribute does. */
  lemma FieldTableFailsAtHead(s: bytes, pos: nat, pool: seq<CpInfo>, nameIndex: uint16, count: nat,
                              value: Option<FieldValue>, e: Outcome<Parsed<Attribute>>)
    requires pos <= |s| && AllDecoded(pool) && e.Fail?
    requires forall a :: AttributeAt(s, pos, pool, a) ==> e == Ok(Parsed(a, pos + |EncodeAttribute(a)|))
    requires forall f :: AttributeFails(s, pos, pool, f) ==> e == Fail(f)
    ensures forall f :: FieldTableFails(s, pos, pool, nameIndex, count, value, f) ==> e == Fail(f)
  {
    hide AttributeFails, Decodable, EncodeAttribute, FieldStep;
    forall f | FieldTableFails(s, pos, pool, nameIndex, count, value, f)
      ensures e == Fail(f)
    {
      var attrs :| FieldTableStops(s, pos, pool, nameIndex, count, value, attrs, f);
      if |attrs| > 0 {
        AttributesHead(s, pos, pool, attrs);
      }
    }
  }

  /** When the first attribute is read but does not fold, the loop fails as the fold does. */
  lemma FieldTableFailsAtStep(s: bytes, pos: nat, pool: seq<CpInfo>, nameIndex: uint16, count: nat,
                              value: Option<FieldValue>, head: Parsed<Attribute>, v: Outcome<Option<FieldValue>>)
    requires pos <= |s| && AllDecoded(pool) && v.Fail?
    requires forall a :: AttributeAt(s, pos, pool, a) ==> Ok(head) == Ok(Parsed(a, pos + |EncodeAttribute(a)|))
    requires forall f :: !AttributeFails(s, pos, pool, f)
    requires v == FieldStep(pool, nameIndex, value, head.item, head.next)
    ensures forall f :: FieldTableFails(s, pos, pool, nameIndex, count, value, f) ==> v.failure == f
  {
    hide AttributeFails, Decodable, EncodeAttribute, FieldStep, ConstantFieldValue;
    forall f | FieldTableFails(s, pos, pool, nameIndex, count, value, f)
      ensures v.failure == f
    {
      var attrs :| FieldTableStops(s, pos, pool, nameIndex, count, value, attrs, f);
      if |attrs| > 0 {
        AttributesHead(s, pos, pool, attrs);
      }
    }
  }

  /**
   * When the first attribute is read and folds, a run stored at pos is that
   * attribute followed by a run stored after it, so the loop fails as the
   * rest of the loop, after the first attribute, does.
   */
  lemma FieldTableFailsAfterHead(s: bytes, pos: nat, pool: seq<CpInfo>, nameIndex: uint16, count: nat,
                                 value: Option<FieldValue>, head: Parsed<Attribute>, rest: Outcome<Parsed<FieldBody>>)
    requires pos <= |s| && count > 0 && AllDecoded(pool)
    requires forall a :: AttributeAt(s, pos, pool, a) ==> Ok(head) == Ok(Parsed(a, pos + |EncodeAttribute(a)|))
    requires forall f :: !AttributeFails(s, pos, pool, f)
    requires FieldStep(pool, nameIndex, value, head.item, head.next).Ok?
    requires forall f :: (FieldTableFails(s, head.next, pool, nameIndex, count - 1,
                                          FieldStep(pool, nameIndex, value, head.item, head.next).value, f)
                          ==> rest == Fail(f))
    ensures forall f :: FieldTableFails(s, pos, pool, nameIndex, count, value, f) ==> PrependBody(head.item, rest) == Fail(f)
  {
    hide AttributeFails, Decodable, EncodeAttribute, FieldStep, ConstantFieldValue, FieldTableStops;
    forall f | FieldTableFails(s, pos, pool, nameIndex, count, value, f)
      ensures PrependBody(head.item, rest) == Fail(f)
    {
      var attrs :| FieldTableStops(s, pos, pool, nameIndex, count, value, attrs, f);
      FieldTableStopsTail(s, pos, pool, nameIndex, count, value, head, attrs, f);
      var v := FieldStep(pool, nameIndex, value, head.item, head.next).value;
      assert FieldTableFails(s, head.next, pool, nameIndex, count - 1, v, f);
    }
  }

  /** Past a first attribute that is read and folds, the loop stops at the rest of the same run. */
  lemma FieldTableStopsTail(s: bytes, pos: nat, pool: seq<CpInfo>, nameIndex: uint16, count: nat,
                            value: Option<FieldValue>, head: Parsed<Attribute>, attrs: seq<Attribute>, f: Failure)
    requires pos <= |s| && count > 0 && AllDecoded(pool)
    requires forall a :: AttributeAt(s, pos, pool, a) ==> Ok(head) == Ok(Parsed(a, pos + |EncodeAttribute(a)|))
    requires forall f :: !AttributeFails(s, pos, pool, f)
    requires FieldStep(pool, nameIndex, value, head.item, head.next).Ok?
    requires FieldTableStops(s, pos, pool, nameIndex, count, value, attrs, f)
    ensures |attrs| > 0 && head.next <= |s|
    ensures FieldTableStops(s, head.next, pool, nameIndex, count - 1,
                            FieldStep(pool, nameIndex, value, head.item, head.next).value, attrs[1..], f)
  {
    hide AttributeFails, Decodable, EncodeAttribute, FieldStep, ConstantFieldValue;
    if |attrs| > 0 {
      AttributesHead(s, pos, pool, attrs);
      assert FoldValues(pool, nameIndex, value, attrs, pos)
          == FoldValues(pool, nameIndex, FieldStep(pool, nameIndex, value, head.item, head.next).value, attrs[1..], head.next);
    }
  }

  /** Every table stored at pos folds as its first attribute, read there, followed by the rest, read after it. */
  lemma FoldFromParts(s: bytes, pos: nat, pool: seq<CpInfo>, nameIndex: uint16, count: nat, value: Option<FieldValue>,
                      head: Parsed<Attribute>, rest: Outcome<Parsed<FieldBody>>)
    requires pos <= |s| && count > 0 && AllDecoded(pool) && head.next <= |s|
    requires forall a :: AttributeAt(s, pos, pool, a) ==> Ok(head) == Ok(Parsed(a, pos + |EncodeAttribute(a)|))
    requires FieldStep(pool, nameIndex, value, head.item, head.next).Ok?
    requires forall attrs :: (|attrs| == count - 1 && AttributesAt(s, head.next, pool, attrs)
                              ==> rest == FoldResult(pool, nameIndex, FieldStep(pool, nameIndex, value, head.item, head.next).value,
                                                     attrs, head.next))
    ensures forall attrs :: (|attrs| == count && AttributesAt(s, pos, pool, attrs)
                             ==> PrependBody(head.item, rest) == FoldResult(pool, nameIndex, value, attrs, pos))
  {
    hide AttributesAt, AttributeAt, Decodable, BodyShaped, EncodeBody, EncodeAttribute, EncodeAttributes, FieldStep,
      ConstantFieldValue;
    forall attrs | |attrs| == count && AttributesAt(s, pos, pool, attrs)
      ensures PrependBody(head.item, rest) == FoldResult(pool, nameIndex, value, attrs, pos)
    {
      AttributesHead(s, pos, pool, attrs);
      assert attrs == [attrs[0]] + attrs[1..];
    }
  }

  /** Folding a table read one attribute after another. */
  lemma FoldCons(pool: seq<CpInfo>, nameIndex: uint16, value: Option<FieldValue>, a: Attribute, rest: seq<Attribute>,
                 pos: nat, next: nat)
    requires AllDecoded(pool) && next == pos + |EncodeAttribute(a)|
    requires FieldStep(pool, nameIndex, value, a, next).Ok?
    ensures FoldValues(pool, nameIndex, value, [a] + rest, pos)
         == FoldValues(pool, nameIndex, FieldStep(pool, nameIndex, value, a, next).value, rest, next)
  {
    assert ([a] + rest)[0] == a && ([a] + rest)[1..] == rest;
  }

  // ------------------------------------------------------------- one member

  /** A member stored at pos: its four header items read back, its attribute table right after. */
  lemma MemberHeads(s: bytes, pos: nat, pool: seq<CpInfo>)
    requires pos <= |s|
    ensures forall m :: MemberAt(s, pos, pool, m) ==>
      && pos + 8 <= |s|
      && ReadU16(s, pos) == Ok(Parsed(m.accessFlags, pos + 2))
      && ReadU16(s, pos + 2) == Ok(Parsed(m.nameIndex, pos + 4))
      && ReadU16(s, pos + 4) == Ok(Parsed(m.descriptorIndex, pos + 6))
      && ReadU16(s, pos + 6) == Ok(Parsed(m.attributesCount, pos + 8))
      && AttributesAt(s, pos + 8, pool, m.attributes)
      && |m.attributes| == m.attributesCount
      && |EncodeMember(m)| == 8 + |EncodeAttributes(m.attributes)|
  {
    forall m | MemberAt(s, pos, pool, m)
      ensures pos + 8 <= |s|
      ensures ReadU16(s, pos) == Ok(Parsed(m.accessFlags, pos + 2))
      ensures ReadU16(s, pos + 2) == Ok(Parsed(m.nameIndex, pos + 4))
      ensures ReadU16(s, pos + 4) == Ok(Parsed(m.descriptorIndex, pos + 6))
      ensures ReadU16(s, pos + 6) == Ok(Parsed(m.attributesCount, pos + 8))
      ensures AttributesAt(s, pos + 8, pool, m.attributes)
    {
      MemberSplit(s, pos, pool, m);
    }
  }

  lemma MemberSplit(s: bytes, pos: nat, pool: seq<CpInfo>, m: MethodInfo)
    requires pos <= |s| && MemberAt(s, pos, pool, m)
    ensures pos + 8 <= |s|
    ensures ReadU16(s, pos) == Ok(Parsed(m.accessFlags, pos + 2))
    ensures ReadU16(s, pos + 2) == Ok(Parsed(m.nameIndex, pos + 4))
    ensures ReadU16(s, pos + 4) == Ok(Parsed(m.descriptorIndex, pos + 6))
    ensures ReadU16(s, pos + 6) == Ok(Parsed(m.attributesCount, pos + 8))
    ensures AttributesAt(s, pos + 8, pool, m.attributes)
  {
    hide AllDecodable, EncodeAttributes, ReadU16;
    var e3 := Encode16(m.descriptorIndex) + Encode16(m.attributesCount);
    var e2 := Encode16(m.nameIndex) + e3;
    PrefixAppendAt(s, pos, EncodeMemberHeader(m), EncodeAttributes(m.attributes));
    PrefixAppendAt(s, pos, Encode16(m.accessFlags), e2);
    PrefixAppendAt(s, pos + 2, Encode16(m.nameIndex), e3);
    PrefixAppendAt(s, pos + 4, Encode16(m.descriptorIndex), Encode16(m.attributesCount));
    PrefixSlice(s, pos, Encode16(m.accessFlags));
    PrefixSlice(s, pos + 2, Encode16(m.nameIndex));
    PrefixSlice(s, pos + 4, Encode16(m.descriptorIndex));
    PrefixSlice(s, pos + 6, Encode16(m.attributesCount));
    ReadU16OfEncoding(s, pos, m.accessFlags);
    ReadU16OfEncoding(s, pos + 2, m.nameIndex);
    ReadU16OfEncoding(s, pos + 4, m.descriptorIndex);
    ReadU16OfEncoding(s, pos + 6, m.attributesCount);
  }

  /** Four header items and an attribute table read one after the other spell a readable member. */
  lemma MemberGlue(s: bytes, pos: nat, next: nat, pool: seq<CpInfo>, m: MethodInfo)
    requires pos + 8 <= next <= |s|
    requires s[pos..pos + 2] == Encode16(m.accessFlags) && s[pos + 2..pos + 4] == Encode16(m.nameIndex)
    requires s[pos + 4..pos + 6] == Encode16(m.descriptorIndex) && s[pos + 6..pos + 8] == Encode16(m.attributesCount)
    requires s[pos + 8..next] == EncodeAttributes(m.attributes) && MemberShaped(pool, m)
    ensures s[pos..next] == EncodeMember(m) && next == pos + |EncodeMember(m)| && MemberAt(s, pos, pool, m)
  {
    hide AllDecodable, EncodeAttributes;
    SliceSplit(s, pos + 4, pos + 6, pos + 8);
    SliceSplit(s, pos + 2, pos + 4, pos + 8);
    SliceSplit(s, pos, pos + 2, pos + 8);
    SliceSplit(s, pos, pos + 8, next);
    SlicePrefix(s, pos, next);
  }

  /** `read_method_info` at pos fails with f: a header cut short, or its attribute table failing with f. */
  ghost predicate MethodFails(s: bytes, pos: nat, pool: seq<CpInfo>, f: Failure)
  {
    if pos + 8 > |s| then f == Panicked(ReadPastEnd)
    else TableFails(s, pos + 8, pool, U16At(s, pos + 6), f)
  }

  /**
   * `read_method_info`: the four header items, then the attribute table. The
   * name and descriptor stay pool indices, so a method is read back exactly
   * as it is stored.
   */
  method ReadMethod(s: bytes, pos: nat, pool: seq<CpInfo>) returns (r: Outcome<Parsed<MethodInfo>>)
    requires pos <= |s|
    ensures pos + 8 > |s| ==> r == Abort(ReadPastEnd)
    ensures r.Ok? ==> MemberAt(s, pos, pool, r.value.item) && r.value.next == pos + |EncodeMember(r.value.item)|
    ensures r.IsErr() ==> r.failure.error.NoSuchConstantPoolEntry? || r.failure.error.InvalidUtf8ConstantPoolEntry?
    ensures forall m :: MemberAt(s, pos, pool, m) ==> r == Ok(Parsed(m, pos + |EncodeMember(m)|))
    ensures forall f :: MethodFails(s, pos, pool, f) ==> r == Fail(f)
  {
    hide MemberAt, AttributesAt, EncodeMember, EncodeAttributes, AllDecodable, TableFails;
    MemberHeads(s, pos, pool);
    var accessFlags := ReadU16(s, pos);
    if accessFlags.Fail? {
      return Fail(accessFlags.failure);
    }
    var nameIndex := ReadU16(s, pos + 2);
    if nameIndex.Fail? {
      return Fail(nameIndex.failure);
    }
    var descriptorIndex := ReadU16(s, pos + 4);
    if descriptorIndex.Fail? {
      return Fail(descriptorIndex.failure);
    }
    var attributesCount := ReadU16(s, pos + 6);
    if attributesCount.Fail? {
      return Fail(attributesCount.failure);
    }
    var attrs := ReadAttributes(s, pos + 8, pool, attributesCount.value.item);
    if attrs.Fail? {
      return Fail(attrs.failure);
    }
    var m := MethodInfo(accessFlags.value.item, nameIndex.value.item, descriptorIndex.value.item,
                        attributesCount.value.item, attrs.value.item);
    MemberGlue(s, pos, attrs.value.next, pool, m);
    r := Ok(Parsed(m, attrs.value.next));
  }

  /**
   * The field that `read_field_info` builds from the member m stored at pos:
   * its name and descriptor resolved (both reported at the position just past
   * the header), then its attributes folded into its value.
   */
  function FieldOf(pool: seq<CpInfo>, m: MethodInfo, pos: nat): Outcome<Parsed<FieldInfo>>
    requires AllDecoded(pool)
  {
    var name :- ResolveUtf8(pool, m.nameIndex, pos + 8);
    var descriptor :- ResolveUtf8(pool, m.descriptorIndex, pos + 8);
    var value :- FoldValues(pool, m.nameIndex, None, m.attributes, pos + 8);
    Ok(Parsed(FieldInfo(m.accessFlags, name, descriptor, value, m.attributes), pos + |EncodeMember(m)|))
  }

  /**
   * `read_field_info` at pos fails with f: a header cut short, a name or a
   * descriptor that does not resolve (the name is resolved first), or the
   * attribute loop after the header failing with f.
   */
  ghost predicate FieldFails(s: bytes, pos: nat, pool: seq<CpInfo>, f: Failure)
    requires AllDecoded(pool)
  {
    if pos + 8 > |s| then f == Panicked(ReadPastEnd)
    else
      var name := ResolveUtf8(pool, U16At(s, pos + 2), pos + 8);
      var descriptor := ResolveUtf8(pool, U16At(s, pos + 4), pos + 8);
      if name.Fail? then f == name.failure
      else if descriptor.Fail? then f == descriptor.failure
      else FieldTableFails(s, pos + 8, pool, U16At(s, pos + 2), U16At(s, pos + 6), None, f)
  }

  /**
   * `read_field_info`. The name and the descriptor are resolved before any
   * attribute is read; every attribute read is kept, in file order.
   */
  method ReadField(s: bytes, pos: nat, pool: seq<CpInfo>) returns (r: Outcome<Parsed<FieldInfo>>)
    requires pos <= |s| && AllDecoded(pool)
    ensures pos + 8 > |s| ==> r == Abort(ReadPastEnd)
    ensures r.Ok? ==> pos + 8 <= |s| && MemberAt(s, pos, pool, MemberHeaderAt(s, pos, r.value.item.attributes))
    ensures r.Ok? ==> r == FieldOf(pool, MemberHeaderAt(s, pos, r.value.item.attributes), pos)
    ensures r.IsErr() ==> r.failure.error.NoSuchConstantPoolEntry? || r.failure.error.InvalidUtf8ConstantPoolEntry?
    ensures forall m :: MemberAt(s, pos, pool, m) ==> r == FieldOf(pool, m, pos)
    ensures pos + 8 <= |s| && ResolveUtf8(pool, U16At(s, pos + 2), pos + 8).Fail? ==>
      r == Fail(ResolveUtf8(pool, U16At(s, pos + 2), pos + 8).failure)
    ensures forall f :: FieldFails(s, pos, pool, f) ==> r == Fail(f)
  {
    hide MemberAt, AttributesAt, EncodeMember, EncodeAttributes, AllDecodable, FoldValues, ConstantFieldValue,
      FieldTableFails;
    MemberHeads(s, pos, pool);
    var accessFlags := ReadU16(s, pos);
    if accessFlags.Fail? {
      return Fail(accessFlags.failure);
    }
    var nameIndex := ReadU16(s, pos + 2);
    if nameIndex.Fail? {
      return Fail(nameIndex.failure);
    }
    var descriptorIndex := ReadU16(s, pos + 4);
    if descriptorIndex.Fail? {
      return Fail(descriptorIndex.failure);
    }
    var attributesCount := ReadU16(s, pos + 6);
    if attributesCount.Fail? {
      return Fail(attributesCount.failure);
    }
    var name := ResolveUtf8(pool, nameIndex.value.item, pos + 8);
    if name.Fail? {
      return Fail(name.failure);
    }
    var descriptor := ResolveUtf8(pool, descriptorIndex.value.item, pos + 8);
    if descriptor.Fail? {
      return Fail(descriptor.failure);
    }
    var body := ReadFieldAttributes(s, pos + 8, pool, nameIndex.value.item, attributesCount.value.item, None);
    if body.Fail? {
      return Fail(body.failure);
    }
    var attrs := body.value.item.attributes;
    var m := MethodInfo(accessFlags.value.item, nameIndex.value.item, descriptorIndex.value.item,
                        attributesCount.value.item, attrs);
    MemberGlue(s, pos, body.value.next, pool, m);
    r := Ok(Parsed(FieldInfo(accessFlags.value.item, name.value, descriptor.value, body.value.item.value, attrs),
                   body.value.next));
  }

  /**
   * A field read from the member m: the same access flags and attributes,
   * the name and descriptor are the UTF-8 texts m points at, and the field
   * has a value exactly when m has one ConstantValue attribute.
   */
  lemma FieldOfMeaning(pool: seq<CpInfo>, m: MethodInfo, pos: nat)
    requires AllDecoded(pool) && FieldOf(pool, m, pos).Ok?
    ensures var f := FieldOf(pool, m, pos).value.item;
      && f.accessFlags == m.accessFlags && f.attributes == m.attributes
      && IsUtf8At(pool, m.nameIndex, f.name) && IsUtf8At(pool, m.descriptorIndex, f.descriptor)
      && (f.value.Some? <==> ConstantValueCount(m.attributes) == 1)
    ensures FieldOf(pool, m, pos).value.next == pos + |EncodeMember(m)|
  {
    FoldValuesAtMostOne(pool, m.nameIndex, None, m.attributes, pos + 8);
  }

  // ------------------------------------------------------------ member lists

  /** A list stored at pos starts with a member stored at pos, and continues right after it. */
  lemma MembersHead(s: bytes, pos: nat, pool: seq<CpInfo>, ms: seq<MethodInfo>)
    requires pos <= |s| && |ms| > 0 && MembersAt(s, pos, pool, ms)
    ensures MemberAt(s, pos, pool, ms[0]) && pos + |EncodeMember(ms[0])| <= |s|
    ensures MembersAt(s, pos + |EncodeMember(ms[0])|, pool, ms[1..])
    ensures |EncodeMembers(ms)| == |EncodeMember(ms[0])| + |EncodeMembers(ms[1..])|
  {
    hide EncodeMember, MemberShaped;
    PrefixAppendAt(s, pos, EncodeMember(ms[0]), EncodeMembers(ms[1..]));
    assert MemberShaped(pool, ms[0]);
  }

  /**
   * The `methods_count` loop over count methods at pos fails with f: a
   * shorter run of methods is stored there, and the method right after it
   * fails with f.
   */
  ghost predicate MethodsFail(s: bytes, pos: nat, pool: seq<CpInfo>, count: nat, f: Failure)
  {
    pos <= |s| && exists ms :: (|ms| < count && MembersAt(s, pos, pool, ms)
                                && MethodFails(s, pos + |EncodeMembers(ms)|, pool, f))
  }

  /**
   * The `methods_count` loop: count methods read in file order. The first
   * failing method ends the loop with its failure.
   */
  method ReadMethods(s: bytes, pos: nat, pool: seq<CpInfo>, count: nat) returns (r: Outcome<Parsed<seq<MethodInfo>>>)
    requires pos <= |s|
    ensures r.Ok? ==> |r.value.item| == count && pos <= r.value.next <= |s|
    ensures r.Ok? ==> AllMembersShaped(pool, r.value.item) && Spans(s, pos, EncodeMembers(r.value.item), r.value.next)
    ensures r.IsErr() ==> r.failure.error.NoSuchConstantPoolEntry? || r.failure.error.InvalidUtf8ConstantPoolEntry?
    ensures forall ms :: (|ms| == count && MembersAt(s, pos, pool, ms)
                          ==> r == Ok(Parsed(ms, pos + |EncodeMembers(ms)|)))
    ensures forall f :: MethodsFail(s, pos, pool, count, f) ==> r == Fail(f)
    decreases count
  {
    hide MembersAt, MemberAt, MemberShaped, EncodeMember, AttributesAt, EncodeAttributes, AllDecodable, MethodFails;
    if count == 0 {
      r := Ok(Parsed([], pos));
      return;
    }
    var m := ReadMethod(s, pos, pool);
    if m.Fail? {
      NoMembersWithoutHead(s, pos, pool, count, m);
      MethodsFailAtHead(s, pos, pool, count, m);
      return Fail(m.failure);
    }
    MemberAtSlice(s, pos, m.value.next, pool, m.value.item);
    var rest := ReadMethods(s, m.value.next, pool, count - 1);
    MethodsFailAfterHead(s, pos, pool, count, m.value, rest);
    if rest.Fail? {
      NoMembersWithoutTail(s, pos, pool, count, m.value, rest);
      return Fail(rest.failure);
    }
    MembersCons(s, pos, pool, m.value, rest.value);
    MembersFromParts(s, pos, pool, count, m.value, rest.value);
    r := Ok(Parsed([m.value.item] + rest.value.item, rest.value.next));
  }

  /** When the first method cannot be read, the loop fails as that method does. */
  lemma MethodsFailAtHead(s: bytes, pos: nat, pool: seq<CpInfo>, count: nat, e: Outcome<Parsed<MethodInfo>>)
    requires pos <= |s| && e.Fail?
    requires forall m :: MemberAt(s, pos, pool, m) ==> e == Ok(Parsed(m, pos + |EncodeMember(m)|))
    requires forall f :: MethodFails(s, pos, pool, f) ==> e == Fail(f)
    ensures forall f :: MethodsFail(s, pos, pool, count, f) ==> e == Fail(f)
  {
    hide MethodFails, MemberAt, EncodeMember, MemberShaped;
    forall f | MethodsFail(s, pos, pool, count, f)
      ensures e == Fail(f)
    {
      var ms :| |ms| < count && MembersAt(s, pos, pool, ms) && MethodFails(s, pos + |EncodeMembers(ms)|, pool, f);
      if |ms| > 0 {
        MembersHead(s, pos, pool, ms);
      }
    }
  }

  /**
   * When the first method is read, a shorter run stored at pos is that method
   * followed by a shorter run stored after it, so the loop fails as the rest,
   * read after the first method, does.
   */
  lemma MethodsFailAfterHead<T>(s: bytes, pos: nat, pool: seq<CpInfo>, count: nat, head: Parsed<MethodInfo>, rest: Outcome<T>)
    requires pos <= |s| && count > 0
    requires forall m :: MemberAt(s, pos, pool, m) ==> Ok(head) == Ok(Parsed(m, pos + |EncodeMember(m)|))
    requires forall f :: !MethodFails(s, pos, pool, f)
    requires forall f :: MethodsFail(s, head.next, pool, count - 1, f) ==> rest == Fail(f)
    ensures forall f :: MethodsFail(s, pos, pool, count, f) ==> rest == Fail(f)
  {
    hide MethodFails, MemberAt, EncodeMember, MemberShaped, MembersAt;
    forall f | MethodsFail(s, pos, pool, count, f)
      ensures rest == Fail(f)
    {
      var ms :| |ms| < count && MembersAt(s, pos, pool, ms) && MethodFails(s, pos + |EncodeMembers(ms)|, pool, f);
      if |ms| > 0 {
        MembersHead(s, pos, pool, ms);
        var tail := ms[1..];
        assert |tail| < count - 1 && MembersAt(s, head.next, pool, tail)
               && MethodFails(s, head.next + |EncodeMembers(tail)|, pool, f);
        assert MethodsFail(s, head.next, pool, count - 1, f);
      }
    }
  }

  /** A member stored at pos, read back to next, spells the bytes from pos to next. */
  lemma MemberAtSlice(s: bytes, pos: nat, next: nat, pool: seq<CpInfo>, m: MethodInfo)
    requires pos <= |s| && MemberAt(s, pos, pool, m) && next == pos + |EncodeMember(m)|
    ensures next <= |s| && s[pos..next] == EncodeMember(m) && MemberShaped(pool, m)
  {
    hide EncodeMember, MemberShaped;
    PrefixSlice(s, pos, EncodeMember(m));
  }

  /** When the first member cannot be read, no list of count members is stored at pos. */
  lemma NoMembersWithoutHead(s: bytes, pos: nat, pool: seq<CpInfo>, count: nat, e: Outcome<Parsed<MethodInfo>>)
    requires pos <= |s| && count > 0 && e.Fail?
    requires forall m :: MemberAt(s, pos, pool, m) ==> e == Ok(Parsed(m, pos + |EncodeMember(m)|))
    ensures forall ms :: |ms| == count ==> !MembersAt(s, pos, pool, ms)
  {
    hide MemberAt, MembersAt, EncodeMember;
    forall ms | |ms| == count
      ensures !MembersAt(s, pos, pool, ms)
    {
      if MembersAt(s, pos, pool, ms) {
        MembersHead(s, pos, pool, ms);
      }
    }
  }

  /** When the rest of the list cannot be read after its first member, no list of count members is stored at pos. */
  lemma NoMembersWithoutTail(s: bytes, pos: nat, pool: seq<CpInfo>, count: nat, head: Parsed<MethodInfo>,
                             rest: Outcome<Parsed<seq<MethodInfo>>>)
    requires pos <= |s| && count > 0 && rest.Fail? && head.next <= |s|
    requires forall m :: MemberAt(s, pos, pool, m) ==> Ok(head) == Ok(Parsed(m, pos + |EncodeMember(m)|))
    requires forall ms :: (|ms| == count - 1 && MembersAt(s, head.next, pool, ms)
                           ==> rest == Ok(Parsed(ms, head.next + |EncodeMembers(ms)|)))
    ensures forall ms :: |ms| == count ==> !MembersAt(s, pos, pool, ms)
  {
    hide MemberAt, MembersAt, EncodeMember, EncodeMembers;
    forall ms | |ms| == count
      ensures !MembersAt(s, pos, pool, ms)
    {
      if MembersAt(s, pos, pool, ms) {
        MembersHead(s, pos, pool, ms);
      }
    }
  }

  /** A list read one member after another spells a readable list. */
  lemma MembersCons(s: bytes, pos: nat, pool: seq<CpInfo>, head: Parsed<MethodInfo>, rest: Parsed<seq<MethodInfo>>)
    requires pos <= head.next <= rest.next <= |s|
    requires MemberShaped(pool, head.item) && s[pos..head.next] == EncodeMember(head.item)
    requires AllMembersShaped(pool, rest.item) && s[head.next..rest.next] == EncodeMembers(rest.item)
    ensures AllMembersShaped(pool, [head.item] + rest.item)
    ensures s[pos..rest.next] == EncodeMembers([head.item] + rest.item)
  {
    hide EncodeMember, MemberShaped;
    SliceSplit(s, pos, head.next, rest.next);
    assert ([head.item] + rest.item)[0] == head.item && ([head.item] + rest.item)[1..] == rest.item;
  }

  /** Every list stored at pos is the first member read there followed by the rest read after it. */
  lemma MembersFromParts(s: bytes, pos: nat, pool: seq<CpInfo>, count: nat, head: Parsed<MethodInfo>,
                         rest: Parsed<seq<MethodInfo>>)
    requires pos <= |s| && count > 0 && head.next <= |s|
    requires forall m :: MemberAt(s, pos, pool, m) ==> Ok(head) == Ok(Parsed(m, pos + |EncodeMember(m)|))
    requires forall ms :: (|ms| == count - 1 && MembersAt(s, head.next, pool, ms)
                           ==> Ok(rest) == Ok(Parsed(ms, head.next + |EncodeMembers(ms)|)))
    ensures forall ms :: (|ms| == count && MembersAt(s, pos, pool, ms)
                          ==> Ok(Parsed([head.item] + rest.item, rest.next)) == Ok(Parsed(ms, pos + |EncodeMembers(ms)|)))
  {
    hide MemberAt, MembersAt, EncodeMember, EncodeMembers, MemberShaped;
    forall ms | |ms| == count && MembersAt(s, pos, pool, ms)
      ensures Ok(Parsed([head.item] + rest.item, rest.next)) == Ok(Parsed(ms, pos + |EncodeMembers(ms)|))
    {
      MembersHead(s, pos, pool, ms);
      assert ms == [ms[0]] + ms[1..];
    }
  }

  /** The fields that the `fields_count` loop builds from the members ms stored from pos. */
  function FieldsOf(pool: seq<CpInfo>, ms: seq<MethodInfo>, pos: nat): Outcome<Parsed<seq<FieldInfo>>>
    requires AllDecoded(pool)
    decreases |ms|
  {
    if |ms| == 0 then Ok(Parsed([], pos))
    else
      var f :- FieldOf(pool, ms[0], pos);
      PrependField(f.item, FieldsOf(pool, ms[1..], f.next))
  }

  /** The rest of the fields loop, after the field f: its failure, or f pushed in front. */
  function PrependField(f: FieldInfo, rest: Outcome<Parsed<seq<FieldInfo>>>): Outcome<Parsed<seq<FieldInfo>>>
  {
    match rest
    case Ok(p) => Ok(Parsed([f] + p.item, p.next))
    case Fail(e) => Fail(e)
  }

  /**
   * The `fields_count` loop over count fields at pos stops with f at the run
   * `ms` of members stored there: either the fields of `ms` fail with f, or
   * `ms` is shorter than count, its fields resolve, and the field right
   * after it fails with f.
   */
  ghost predicate FieldsStop(s: bytes, pos: nat, pool: seq<CpInfo>, count: nat, ms: seq<MethodInfo>, f: Failure)
    requires pos <= |s| && AllDecoded(pool)
  {
    |ms| <= count && MembersAt(s, pos, pool, ms) &&
    match FieldsOf(pool, ms, pos)
    case Fail(g) => f == g
    case Ok(_) => |ms| < count && FieldFails(s, pos + |EncodeMembers(ms)|, pool, f)
  }

  /** The `fields_count` loop over count fields at pos fails with f. */
  ghost predicate FieldsFail(s: bytes, pos: nat, pool: seq<CpInfo>, count: nat, f: Failure)
    requires AllDecoded(pool)
  {
    pos <= |s| && exists ms :: FieldsStop(s, pos, pool, count, ms, f)
  }

  /**
   * The `fields_count` loop: count fields read in file order. The first
   * failing field ends the loop with its failure.
   */
  method ReadFields(s: bytes, pos: nat, pool: seq<CpInfo>, count: nat) returns (r: Outcome<Parsed<seq<FieldInfo>>>)
    requires pos <= |s| && AllDecoded(pool)
    ensures r.Ok? ==> |r.value.item| == count && pos <= r.value.next <= |s|
    ensures r.IsErr() ==> r.failure.error.NoSuchConstantPoolEntry? || r.failure.error.InvalidUtf8ConstantPoolEntry?
    ensures forall ms :: |ms| == count && MembersAt(s, pos, pool, ms) ==> r == FieldsOf(pool, ms, pos)
    ensures r.Ok? ==> exists ms :: |ms| == count && MembersAt(s, pos, pool, ms) && r == FieldsOf(pool, ms, pos)
    ensures forall f :: FieldsFail(s, pos, pool, count, f) ==> r == Fail(f)
    decreases count
  {
    hide MembersAt, MemberAt, MemberShaped, EncodeMember, AttributesAt, EncodeAttributes, AllDecodable, FieldOf,
      FieldsFail, FieldFails;
    if count == 0 {
      FieldsEmpty(s, pos, pool);
      return Ok(Parsed([], pos));
    }
    var f := ReadField(s, pos, pool);
    if f.Fail? {
      FieldsFailAtHead(s, pos, pool, count, f);
      FieldsStopAtHead(s, pos, pool, count, f);
      return Fail(f.failure);
    }
    ReadFieldEnd(s, pos, pool, f.value);
    var rest := ReadFields(s, f.value.next, pool, count - 1);
    FieldsFromParts(s, pos, pool, count, f.value, rest);
    FieldsStopAfterHead(s, pos, pool, count, f.value, rest);
    r := PrependField(f.value.item, rest);
    FieldsStored(s, pos, pool, count, f.value, rest);
  }

  /** A field read at pos followed by a list read where it ends: together, a list stored at pos. */
  lemma FieldsStored(s: bytes, pos: nat, pool: seq<CpInfo>, count: nat, f: Parsed<FieldInfo>,
                     rest: Outcome<Parsed<seq<FieldInfo>>>)
    requires pos + 8 <= |s| && AllDecoded(pool) && count > 0 && f.next <= |s|
    requires MemberAt(s, pos, pool, MemberHeaderAt(s, pos, f.item.attributes))
    requires Ok(f) == FieldOf(pool, MemberHeaderAt(s, pos, f.item.attributes), pos)
    requires rest.Ok? ==> exists ms :: (|ms| == count - 1 && MembersAt(s, f.next, pool, ms)
                                        && rest == FieldsOf(pool, ms, f.next))
    ensures PrependField(f.item, rest).Ok? ==>
      exists ms :: |ms| == count && MembersAt(s, pos, pool, ms) && PrependField(f.item, rest) == FieldsOf(pool, ms, pos)
  {
    hide MembersAt, MemberAt, FieldsOf, FieldOf;
    if rest.Ok? {
      var ms :| |ms| == count - 1 && MembersAt(s, f.next, pool, ms) && rest == FieldsOf(pool, ms, f.next);
      var m := MemberHeaderAt(s, pos, f.item.attributes);
      FieldsCons(s, pos, pool, m, f, ms);
      assert |[m] + ms| == count;
    }
  }

  /** A member stored at pos, read as the field f, followed by members stored where f ends, is a list stored at pos. */
  lemma FieldsCons(s: bytes, pos: nat, pool: seq<CpInfo>, m: MethodInfo, f: Parsed<FieldInfo>, ms: seq<MethodInfo>)
    requires pos <= |s| && AllDecoded(pool) && MemberAt(s, pos, pool, m) && Ok(f) == FieldOf(pool, m, pos)
    requires f.next <= |s| && MembersAt(s, f.next, pool, ms)
    ensures MembersAt(s, pos, pool, [m] + ms)
    ensures FieldsOf(pool, [m] + ms, pos) == PrependField(f.item, FieldsOf(pool, ms, f.next))
  {
    hide EncodeMember, MemberShaped, FieldOf;
    FieldOfEnd(pool, m, pos);
    MemberAtSlice(s, pos, f.next, pool, m);
    PrefixSlice(s, f.next, EncodeMembers(ms));
    var next := f.next + |EncodeMembers(ms)|;
    MembersCons(s, pos, pool, Parsed(m, f.next), Parsed(ms, next));
    SlicePrefix(s, pos, next);
    assert ([m] + ms)[0] == m && ([m] + ms)[1..] == ms;
  }

  /** A field that was read ends inside the file. */
  lemma ReadFieldEnd(s: bytes, pos: nat, pool: seq<CpInfo>, f: Parsed<FieldInfo>)
    requires pos + 8 <= |s| && AllDecoded(pool)
    requires MemberAt(s, pos, pool, MemberHeaderAt(s, pos, f.item.attributes))
    requires Ok(f) == FieldOf(pool, MemberHeaderAt(s, pos, f.item.attributes), pos)
    ensures pos <= f.next <= |s|
  {
    var m := MemberHeaderAt(s, pos, f.item.attributes);
    hide MemberAt, MemberShaped, AllDecodable;
    PrefixSlice(s, pos, EncodeMember(m));
  }

  /** A fields loop whose first field fails fails the same way on every list stored at pos. */
  lemma FieldsFailAtHead(s: bytes, pos: nat, pool: seq<CpInfo>, count: nat, f: Outcome<Parsed<FieldInfo>>)
    requires pos <= |s| && count > 0 && AllDecoded(pool) && f.Fail?
    requires forall m :: MemberAt(s, pos, pool, m) ==> f == FieldOf(pool, m, pos)
    ensures forall ms :: (|ms| == count && MembersAt(s, pos, pool, ms) ==> Fail(f.failure) == FieldsOf(pool, ms, pos))
  {
    hide MemberAt, MembersAt, EncodeMember, EncodeMembers, MemberShaped, FieldOf;
    forall ms | |ms| == count && MembersAt(s, pos, pool, ms)
      ensures Fail(f.failure) == FieldsOf(pool, ms, pos)
    {
      MembersHead(s, pos, pool, ms);
    }
  }

  /** Every list stored at pos reads as its first field, read there, followed by the rest, read after it. */
  lemma FieldsFromParts(s: bytes, pos: nat, pool: seq<CpInfo>, count: nat, head: Parsed<FieldInfo>,
                        rest: Outcome<Parsed<seq<FieldInfo>>>)
    requires pos <= |s| && count > 0 && AllDecoded(pool) && head.next <= |s|
    requires forall m :: MemberAt(s, pos, pool, m) ==> Ok(head) == FieldOf(pool, m, pos)
    requires forall ms :: (|ms| == count - 1 && MembersAt(s, head.next, pool, ms) ==> rest == FieldsOf(pool, ms, head.next))
    ensures forall ms :: (|ms| == count && MembersAt(s, pos, pool, ms)
                          ==> PrependField(head.item, rest) == FieldsOf(pool, ms, pos))
  {
    hide MemberAt, MembersAt, EncodeMembers, MemberShaped, FieldOf;
    forall ms | |ms| == count && MembersAt(s, pos, pool, ms)
      ensures PrependField(head.item, rest) == FieldsOf(pool, ms, pos)
    {
      MembersHead(s, pos, pool, ms);
      FieldOfEnd(pool, ms[0], pos);
    }
  }

  /** An empty fields loop does not fail. */
  lemma FieldsEmpty(s: bytes, pos: nat, pool: seq<CpInfo>)
    requires pos <= |s| && AllDecoded(pool)
    ensures MembersAt(s, pos, pool, []) && FieldsOf(pool, [], pos) == Ok(Parsed([], pos))
    ensures forall ms :: |ms| == 0 && MembersAt(s, pos, pool, ms) ==> Ok(Parsed([], pos)) == FieldsOf(pool, ms, pos)
    ensures forall f :: !FieldsFail(s, pos, pool, 0, f)
  {
  }

  /** When the first field cannot be read, the loop fails as that field does. */
  lemma FieldsStopAtHead(s: bytes, pos: nat, pool: seq<CpInfo>, count: nat, e: Outcome<Parsed<FieldInfo>>)
    requires pos <= |s| && AllDecoded(pool) && e.Fail?
    requires forall m :: MemberAt(s, pos, pool, m) ==> e == FieldOf(pool, m, pos)
    requires forall f :: FieldFails(s, pos, pool, f) ==> e == Fail(f)
    ensures forall f :: FieldsFail(s, pos, pool, count, f) ==> e == Fail(f)
  {
    hide FieldFails, MemberAt, MemberShaped, EncodeMember, FieldOf;
    forall f | FieldsFail(s, pos, pool, count, f)
      ensures e == Fail(f)
    {
      var ms :| FieldsStop(s, pos, pool, count, ms, f);
      if |ms| > 0 {
        MembersHead(s, pos, pool, ms);
      }
    }
  }

  /**
   * When the first field is read, a run stored at pos is its member followed
   * by a run stored after it, so the loop fails as the rest, read after the
   * first field, does.
   */
  lemma FieldsStopAfterHead(s: bytes, pos: nat, pool: seq<CpInfo>, count: nat, head: Parsed<FieldInfo>,
                            rest: Outcome<Parsed<seq<FieldInfo>>>)
    requires pos <= |s| && count > 0 && AllDecoded(pool)
    requires forall m :: MemberAt(s, pos, pool, m) ==> Ok(head) == FieldOf(pool, m, pos)
    requires forall f :: !FieldFails(s, pos, pool, f)
    requires forall f :: FieldsFail(s, head.next, pool, count - 1, f) ==> rest == Fail(f)
    ensures forall f :: FieldsFail(s, pos, pool, count, f) ==> PrependField(head.item, rest) == Fail(f)
  {
    hide FieldFails, MemberAt, MemberShaped, EncodeMember, FieldOf, FieldsStop;
    forall f | FieldsFail(s, pos, pool, count, f)
      ensures PrependField(head.item, rest) == Fail(f)
    {
      var ms :| FieldsStop(s, pos, pool, count, ms, f);
      FieldsStopTail(s, pos, pool, count, head, ms, f);
      assert FieldsFail(s, head.next, pool, count - 1, f);
    }
  }

  /** Past a first field that is read, the loop stops at the rest of the same run. */
  lemma FieldsStopTail(s: bytes, pos: nat, pool: seq<CpInfo>, count: nat, head: Parsed<FieldInfo>,
                       ms: seq<MethodInfo>, f: Failure)
    requires pos <= |s| && count > 0 && AllDecoded(pool)
    requires forall m :: MemberAt(s, pos, pool, m) ==> Ok(head) == FieldOf(pool, m, pos)
    requires forall f :: !FieldFails(s, pos, pool, f)
    requires FieldsStop(s, pos, pool, count, ms, f)
    ensures |ms| > 0 && head.next <= |s|
    ensures FieldsStop(s, head.next, pool, count - 1, ms[1..], f)
  {
    hide FieldFails, MemberAt, MemberShaped, EncodeMember, FieldOf;
    if |ms| > 0 {
      MembersHead(s, pos, pool, ms);
      FieldOfEnd(pool, ms[0], pos);
      assert FieldsOf(pool, ms, pos) == PrependField(head.item, FieldsOf(pool, ms[1..], head.next));
    }
  }

  /** A field read from the member m at pos ends where m ends. */
  lemma FieldOfEnd(pool: seq<CpInfo>, m: MethodInfo, pos: nat)
    requires AllDecoded(pool)
    ensures FieldOf(pool, m, pos).Ok? ==> FieldOf(pool, m, pos).value.next == pos + |EncodeMember(m)|
  {
  }
}

=== FILE: numeric.dfy ===
/**
 * The numeric payloads of constant-pool entries, kept as raw bytes, and the
 * decimal text the decoder renders for an `int` or `long` ConstantValue
 * (Rust's `format!("{value}")` of an `i32`/`i64`).
 */
module Numeric {
  import opened Bytes
  import opened Outcomes

  /** The two's-complement value of an unsigned `width`-byte quantity. */
  function ToSigned(u: nat, width: nat): (r: int)
    requires u < Pow256(width) && width > 0
    ensures -(Pow256(width) as int) / 2 <= r < Pow256(width) / 2
    ensures r == u || r == u - Pow256(width)
  {
    if u < Pow256(width) / 2 then u else u - Pow256(width)
  }

  /**
   * The `i32` a CONSTANT_Integer's four bytes hold (section 4.4.4 of the Java
   * Virtual Machine Specification): always in the 32-bit signed range.
   */
  function IntegerValue(b: bytes): (r: int)
    requires |b| == 4
    ensures -0x8000_0000 <= r < 0x8000_0000
  {
    BigEndianBound(b);
    ToSigned(BigEndian(b), 4)
  }

  /**
   * The `i64` a CONSTANT_Long's two halves hold: high * 2^32 + low, read as
   * two's complement (section 4.4.5 of the Java Virtual Machine Specification).
   */
  function LongValue(high: bytes, low: bytes): int
    requires |high| == 4 && |low| == 4
  {
    BigEndianBound(high);
    BigEndianBound(low);
    ToSigned(BigEndian(high) * Pow256(4) + BigEndian(low), 8)
  }

  /** The halves read separately give the same value as the eight bytes read as one `i64`. */
  lemma LongValueOfBytes(high: bytes, low: bytes)
    requires |high| == 4 && |low| == 4
    ensures BigEndian(high + low) < Pow256(8)
    ensures LongValue(high, low) == ToSigned(BigEndian(high + low), 8)
    ensures -0x8000_0000_0000_0000 <= LongValue(high, low) < 0x8000_0000_0000_0000
  {
    BigEndianConcat(high, low);
    BigEndianBound(high + low);
  }

  const Minus: uint8 := 0x2D
  const Zero: uint8 := 0x30

  predicate IsDigit(b: uint8) {
    Zero <= b < Zero + 10
  }

  /** The decimal digits of n, most significant first, without leading zeros. */
  function Digits(n: nat): (r: bytes)
    ensures |r| > 0 && forall i :: 0 <= i < |r| ==> IsDigit(r[i])
    ensures |r| > 1 ==> r[0] != Zero
    decreases n
  {
    if n < 10 then [Zero + n] else Digits(n / 10) + [Zero + n % 10]
  }

  /** The text `format!("{}", n)` produces for an integer: an optional '-' then its digits. */
  function DecimalText(n: int): bytes
  {
    if n < 0 then [Minus] + Digits(-n) else Digits(n)
  }

  /** The value of a run of decimal digits. */
  function DigitsValue(s: bytes): nat
    requires forall i :: 0 <= i < |s| ==> IsDigit(s[i])
  {
    if |s| == 0 then 0
    else
      assert IsDigit(s[|s| - 1]);
      DigitsValue(s[..|s| - 1]) * 10 + (s[|s| - 1] as int - Zero as int)
  }

  /** At least one decimal digit, and no leading zero unless the digit is the only one. */
  predicate CanonicalDigits(d: bytes)
  {
    |d| > 0 && (forall i :: 0 <= i < |d| ==> IsDigit(d[i])) && (|d| > 1 ==> d[0] != Zero)
  }

  /**
   * Reads back a decimal text in the form `format!` writes it: an optional
   * '-' followed by digits without a leading zero, and no "-0".
   */
  function ParseDecimal(s: bytes): Option<int>
  {
    if |s| > 0 && s[0] == Minus then
      var d := s[1..];
      if CanonicalDigits(d) && d != [Zero] then Some(-(DigitsValue(d) as int)) else None
    else if CanonicalDigits(s) then Some(DigitsValue(s))
    else None
  }

  lemma {:induction false} DigitsRoundTrip(n: nat)
    ensures DigitsValue(Digits(n)) == n
    decreases n
  {
    if n >= 10 {
      var d := Digits(n);
      assert d[..|d| - 1] == Digits(n / 10);
      DigitsRoundTrip(n / 10);
    }
  }

  /** Canonical digits are the digits of their own value. */
  lemma {:induction false} CanonicalDigitsOfValue(d: bytes)
    requires CanonicalDigits(d)
    ensures Digits(DigitsValue(d)) == d
    decreases |d|
  {
    if |d| > 1 {
      var init := d[..|d| - 1];
      assert CanonicalDigits(init) by {
        assert forall i :: 0 <= i < |init| ==> init[i] == d[i];
      }
      CanonicalDigitsOfValue(init);
      assert init[0] == d[0];
      assert DigitsValue(init) > 0;
      assert d == init + [d[|d| - 1]];
    }
  }

  /** The rendered text of an integer reads back as that integer. */
  lemma DecimalRoundTrip(n: int)
    ensures ParseDecimal(DecimalText(n)) == Some(n)
  {
    if n < 0 {
      assert DecimalText(n)[1..] == Digits(-n);
      DigitsRoundTrip(-n);
    } else {
      DigitsRoundTrip(n);
    }
  }

  /** A text reads back as n exactly when it is the rendered text of n: the rendering is the only spelling accepted. */
  lemma DecimalTextUnique(s: bytes, n: int)
    ensures ParseDecimal(s) == Some(n) <==> s == DecimalText(n)
  {
    DecimalRoundTrip(n);
    if ParseDecimal(s) == Some(n) {
      if |s| > 0 && s[0] == Minus {
        CanonicalDigitsOfValue(s[1..]);
        assert s == [Minus] + s[1..];
      } else {
        CanonicalDigitsOfValue(s);
      }
    }
  }
}

=== FILE: outcomes.dfy ===
/**
 * The outcomes of a decoding step. Besides success, the decoder ends in one of
 * two distinct ways: a typed error value that it returns to its caller, or a
 * panic (an `expect`, `unwrap`, `assert_eq!`, `todo!` or an arithmetic
 * underflow) that ends the process. The two are kept apart so that every
 * property can say which one a malformed input leads to.
 */
module Outcomes {
  import opened Bytes

  datatype Option<+T> = None | Some(value: T)

  /** The error values the decoder returns. Byte offsets are absolute positions in the file. */
  datatype DecompileError =
    | InvalidMagicNumber(magic: uint32)
      /** A failed `read_exact` inside a numeric constant decoder, propagated with `?`. */
    | IOError
    | InvalidConstantPoolTag(tag: uint8, offset: nat)
    | NoSuchConstantPoolEntry(index: uint16, offset: nat)
    | InvalidUtf8ConstantPoolEntry(index: uint16)

  /** The panic sites of the decoder. */
  datatype Panic =
      /** `expect("invalid class file")` in the byte reader: fewer bytes remain than a read needs. */
    | ReadPastEnd
      /** `constant_pool_count - 2` computed on a count below 2. */
    | PoolCountUnderflow
      /** `from_utf8(..).unwrap()` on bytes that are not well-formed UTF-8. */
    | MalformedUtf8
      /** `assert_eq!(length, 2)` for a ConstantValue attribute. */
    | ConstantValueLength(length: uint32)
      /** `todo!` when a field carries a second ConstantValue attribute. */
    | DuplicateConstantValue
      /** `todo!` when a ConstantValue refers to an entry of an unsupported kind. */
    | InvalidFieldValueType
      /** `todo!` for an attribute name the decoder has no branch for. */
    | UnsupportedAttribute(name: bytes)

  /** How a decoding step failed: an error value returned to the caller, or a panic. */
  datatype Failure = Error(error: DecompileError) | Panicked(panic: Panic)

  /** The outcome of a decoding step; a failure propagates through `:-` as `?` and unwinding do. */

  datatype Outcome<+T> = Ok(value: T) | Fail(failure: Failure)
  {
    predicate IsFailure() {
      Fail?
    }

    function PropagateFailure<U>(): Outcome<U>
      requires Fail?
    {
      Fail(failure)
    }

    function Extract(): T
      requires Ok?
    {
      value
    }

    /** The step returned an error value. */
    predicate IsErr() {
      Fail? && failure.Error?
    }

    /** The step panicked. */
    predicate IsAbort() {
      Fail? && failure.Panicked?
    }
  }

  function Err<T>(e: DecompileError): Outcome<T> {
    Fail(Error(e))
  }

  function Abort<T>(p: Panic): Outcome<T> {
    Fail(Panicked(p))
  }

  /** A decoded item together with the cursor position just after it. */
  datatype Parsed<+T> = Parsed(item: T, next: nat)
}

=== FILE: reader.dfy ===
/**
 * The byte reader of the decoder (`read_u8`, `read_u16`, `read_u32`,
 * `read_variable`, and the `read_exact` calls of the numeric constant
 * decoders). The stream is the whole file `s`; the cursor is a position in
 * it. Every read takes exactly its width from the cursor or fails without
 * returning any data.
 */
module Reader {
  import opened Bytes
  import opened Outcomes

  /** `read_u8`: one byte; panics when the stream is exhausted. */
  function ReadU8(s: bytes, pos: nat): (r: Outcome<Parsed<uint8>>)
    requires pos <= |s|
    ensures r.Ok? <==> pos + 1 <= |s|
    ensures !r.Ok? ==> r == Abort(ReadPastEnd)
    ensures r.Ok? ==> r.value.next == pos + 1 <= |s| && s[pos..pos + 1] == [r.value.item]
  {
    if pos + 1 <= |s| then Ok(Parsed(s[pos], pos + 1)) else Abort(ReadPastEnd)
  }

  /** `read_u16`: a big-endian u2; panics when fewer than two bytes remain. */
  function ReadU16(s: bytes, pos: nat): (r: Outcome<Parsed<uint16>>)
    requires pos <= |s|
    ensures r.Ok? <==> pos + 2 <= |s|
    ensures !r.Ok? ==> r == Abort(ReadPastEnd)
    ensures r.Ok? ==> r.value.next == pos + 2 <= |s| && s[pos..pos + 2] == Encode16(r.value.item)
  {
    if pos + 2 <= |s| then
      Ok(Parsed(U16At(s, pos), pos + 2))
    else Abort(ReadPastEnd)
  }

  /** `read_u32`: a big-endian u4; panics when fewer than four bytes remain. */
  function ReadU32(s: bytes, pos: nat): (r: Outcome<Parsed<uint32>>)
    requires pos <= |s|
    ensures r.Ok? <==> pos + 4 <= |s|
    ensures !r.Ok? ==> r == Abort(ReadPastEnd)
    ensures r.Ok? ==> r.value.next == pos + 4 <= |s| && s[pos..pos + 4] == Encode32(r.value.item)
  {
    if pos + 4 <= |s| then
      Encode32OfBigEndian(s[pos..pos + 4]);
      Ok(Parsed(BigEndian(s[pos..pos + 4]), pos + 4))
    else Abort(ReadPastEnd)
  }

  /** `read_variable(len)`: the next len bytes; panics when fewer remain. */
  function ReadVariable(s: bytes, pos: nat, len: nat): (r: Outcome<Parsed<bytes>>)
    requires pos <= |s|
    ensures r.Ok? <==> pos + len <= |s|
    ensures !r.Ok? ==> r == Abort(ReadPastEnd)
    ensures r.Ok? ==> r.value.next == pos + len <= |s| && s[pos..pos + len] == r.value.item
  {
    if pos + len <= |s| then Ok(Parsed(s[pos..pos + len], pos + len)) else Abort(ReadPastEnd)
  }

  /**
   * `reader.read_exact(&mut buf)?` in the numeric constant decoders: the same
   * read, but a short stream is returned as an I/O error instead of a panic.
   */
  function ReadExact(s: bytes, pos: nat, len: nat): (r: Outcome<Parsed<bytes>>)
    requires pos <= |s|
    ensures r.Ok? <==> pos + len <= |s|
    ensures !r.Ok? ==> r == Err(IOError)
    ensures r.Ok? ==> r.value.next == pos + len <= |s| && s[pos..pos + len] == r.value.item
  {
    if pos + len <= |s| then Ok(Parsed(s[pos..pos + len], pos + len)) else Err(IOError)
  }

  /** The encoding of a run of u2 items, one after the other. */
  function EncodeU16s(vs: seq<uint16>): (r: bytes)
    ensures |r| == 2 * |vs|
  {
    if |vs| == 0 then [] else Encode16(vs[0]) + EncodeU16s(vs[1..])
  }

  /** n consecutive `read_u16` calls, as in a record of u2 fields. */
  function ReadU16s(s: bytes, pos: nat, n: nat): (r: Outcome<Parsed<seq<uint16>>>)
    requires pos <= |s|
    ensures r.Ok? <==> pos + 2 * n <= |s|
    ensures !r.Ok? ==> r == Abort(ReadPastEnd)
    ensures r.Ok? ==> |r.value.item| == n && r.value.next == pos + 2 * n
    decreases n
  {
    if n == 0 then Ok(Parsed([], pos))
    else
      var v :- ReadU16(s, pos);
      var rest :- ReadU16s(s, v.next, n - 1);
      Ok(Parsed([v.item] + rest.item, rest.next))
  }

  /** The bytes a run of u2 reads consumes are the encoding of what it returns. */
  lemma {:induction false} ReadU16sConsumes(s: bytes, pos: nat, n: nat)
    requires pos <= |s| && ReadU16s(s, pos, n).Ok?
    ensures s[pos..ReadU16s(s, pos, n).value.next] == EncodeU16s(ReadU16s(s, pos, n).value.item)
    decreases n
  {
    if n > 0 {
      var r := ReadU16s(s, pos, n).value;
      ReadU16sConsumes(s, pos + 2, n - 1);
      SliceSplit(s, pos, pos + 2, r.next);
      assert r.item[1..] == ReadU16s(s, pos + 2, n - 1).value.item;
    }
  }

  /** The encoding of a table of u2 records. */
  function EncodeRows(rows: seq<seq<uint16>>): bytes
  {
    if |rows| == 0 then [] else EncodeU16s(rows[0]) + EncodeRows(rows[1..])
  }

  /** The byte size of `count` records of `width` u2 fields: 2 * width * count. */
  function RowsSize(count: nat, width: nat): nat
  {
    if count == 0 then 0 else 2 * width + RowsSize(count - 1, width)
  }

  lemma {:induction false} RowsSizeIsProduct(count: nat, width: nat)
    ensures RowsSize(count, width) == 2 * width * count
  {
    if count > 0 {
      RowsSizeIsProduct(count - 1, width);
    }
  }

  /** A table of `count` records of `width` u2 fields each, read in file order. */
  function ReadRows(s: bytes, pos: nat, count: nat, width: nat): (r: Outcome<Parsed<seq<seq<uint16>>>>)
    requires pos <= |s|
    ensures r.Ok? <==> pos + RowsSize(count, width) <= |s|
    ensures !r.Ok? ==> r == Abort(ReadPastEnd)
    ensures r.Ok? ==> |r.value.item| == count && r.value.next == pos + RowsSize(count, width)
    ensures r.Ok? ==> forall i :: 0 <= i < count ==> |r.value.item[i]| == width
    decreases count
  {
    if count == 0 then Ok(Parsed([], pos))
    else
      var row :- ReadU16s(s, pos, width);
      var rest :- ReadRows(s, row.next, count - 1, width);
      Ok(Parsed([row.item] + rest.item, rest.next))
  }

  /** The bytes a table read consumes are the encoding of the records it returns. */
  lemma {:induction false} ReadRowsConsumes(s: bytes, pos: nat, count: nat, width: nat)
    requires pos <= |s| && ReadRows(s, pos, count, width).Ok?
    ensures s[pos..ReadRows(s, pos, count, width).value.next] == EncodeRows(ReadRows(s, pos, count, width).value.item)
    decreases count
  {
    if count > 0 {
      var r := ReadRows(s, pos, count, width).value;
      var row := ReadU16s(s, pos, width).value;
      ReadU16sConsumes(s, pos, width);
      ReadRowsConsumes(s, row.next, count - 1, width);
      SliceSplit(s, pos, row.next, r.next);
      assert r.item[1..] == ReadRows(s, row.next, count - 1, width).value.item;
    }
  }

  /** A u2 read back from its own encoding. */
  lemma ReadU16OfEncoding(s: bytes, pos: nat, v: uint16)
    requires pos + 2 <= |s| && s[pos..pos + 2] == Encode16(v)
    ensures ReadU16(s, pos) == Ok(Parsed(v, pos + 2))
  {
  }

  /** A u4 read back from its own encoding. */
  lemma ReadU32OfEncoding(s: bytes, pos: nat, v: uint32)
    requires pos + 4 <= |s| && s[pos..pos + 4] == Encode32(v)
    ensures ReadU32(s, pos) == Ok(Parsed(v, pos + 4))
  {
  }

  /** Distinct runs of u2 items have distinct encodings. */
  lemma {:induction false} EncodeU16sInjective(a: seq<uint16>, b: seq<uint16>)
    requires EncodeU16s(a) == EncodeU16s(b)
    ensures a == b
    decreases |a|
  {
    if |a| > 0 {
      var ea, eb := EncodeU16s(a), EncodeU16s(b);
      assert ea[..2] == Encode16(a[0]) && eb[..2] == Encode16(b[0]);
      assert ea[2..] == EncodeU16s(a[1..]) && eb[2..] == EncodeU16s(b[1..]);
      EncodeU16sInjective(a[1..], b[1..]);
    }
  }

  /** Distinct tables of records of one width have distinct encodings. */
  lemma {:induction false} EncodeRowsInjective(a: seq<seq<uint16>>, b: seq<seq<uint16>>, width: nat)
    requires |a| == |b|
    requires forall i :: 0 <= i < |a| ==> |a[i]| == width && |b[i]| == width
    requires EncodeRows(a) == EncodeRows(b)
    ensures a == b
    decreases |a|
  {
    if |a| > 0 {
      var ea, eb := EncodeRows(a), EncodeRows(b);
      var w := 2 * width;
      assert ea[..w] == EncodeU16s(a[0]) && eb[..w] == EncodeU16s(b[0]);
      assert ea[w..] == EncodeRows(a[1..]) && eb[w..] == EncodeRows(b[1..]);
      EncodeU16sInjective(a[0], b[0]);
      EncodeRowsInjective(a[1..], b[1..], width);
    }
  }

  /** A run of u2 items read back from its own encoding. */
  lemma ReadU16sOfEncoding(s: bytes, pos: nat, vs: seq<uint16>)
    requires pos + 2 * |vs| <= |s| && s[pos..pos + 2 * |vs|] == EncodeU16s(vs)
    ensures ReadU16s(s, pos, |vs|) == Ok(Parsed(vs, pos + 2 * |vs|))
  {
    ReadU16sConsumes(s, pos, |vs|);
    EncodeU16sInjective(ReadU16s(s, pos, |vs|).value.item, vs);
  }

  /** A table of records of equal width encodes to RowsSize bytes. */
  lemma {:induction false} EncodeRowsSize(rows: seq<seq<uint16>>, width: nat)
    requires forall i :: 0 <= i < |rows| ==> |rows[i]| == width
    ensures |EncodeRows(rows)| == RowsSize(|rows|, width)
    decreases |rows|
  {
    if |rows| > 0 {
      EncodeRowsSize(rows[1..], width);
    }
  }

  /** A table of u2 records read back from its own encoding. */
  lemma ReadRowsOfEncoding(s: bytes, pos: nat, rows: seq<seq<uint16>>, width: nat)
    requires forall i :: 0 <= i < |rows| ==> |rows[i]| == width
    requires pos + |EncodeRows(rows)| <= |s| && s[pos..pos + |EncodeRows(rows)|] == EncodeRows(rows)
    ensures ReadRows(s, pos, |rows|, width) == Ok(Parsed(rows, pos + |EncodeRows(rows)|))
  {
    EncodeRowsSize(rows, width);
    ReadRowsConsumes(s, pos, |rows|, width);
    EncodeRowsInjective(ReadRows(s, pos, |rows|, width).value.item, rows, width);
  }

  /** A u2 count followed by that many records: the layout of every table inside an attribute body. */
  function EncodeTable16(count: uint16, rows: seq<seq<uint16>>): bytes
  {
    Encode16(count) + EncodeRows(rows)
  }

  /** A u1 count followed by that many records, as in MethodParameters. */
  function EncodeTable8(count: uint8, rows: seq<seq<uint16>>): bytes
  {
    [count] + EncodeRows(rows)
  }

  /** A u4 length followed by that many raw bytes, as the code array of a Code attribute. */
  function EncodeBlob32(length: uint32, data: bytes): bytes
  {
    Encode32(length) + data
  }

  /** A table under a u2 count: reads the count, then that many records of `width` u2 fields. */
  function ReadTable16(s: bytes, pos: nat, width: nat): (r: Outcome<Parsed<seq<seq<uint16>>>>)
    requires pos <= |s|
    ensures !r.Ok? ==> r == Abort(ReadPastEnd)
    ensures r.Ok? ==> |r.value.item| < 0x1_0000
    ensures r.Ok? ==> forall i :: 0 <= i < |r.value.item| ==> |r.value.item[i]| == width
    ensures r.Ok? ==> pos < r.value.next && |r.value.item| < 0x1_0000 && Spans(s, pos, EncodeTable16(|r.value.item|, r.value.item), r.value.next)
  {
    var n :- ReadU16(s, pos);
    var rows :- ReadRows(s, n.next, n.item, width);
    ReadRowsConsumes(s, n.next, n.item, width);
    SliceSplit(s, pos, n.next, rows.next);
    Ok(Parsed(rows.item, rows.next))
  }

  /** A table under a u1 count: reads the count, then that many records of `width` u2 fields. */
  function ReadTable8(s: bytes, pos: nat, width: nat): (r: Outcome<Parsed<seq<seq<uint16>>>>)
    requires pos <= |s|
    ensures !r.Ok? ==> r == Abort(ReadPastEnd)
    ensures r.Ok? ==> |r.value.item| < 0x100
    ensures r.Ok? ==> forall i :: 0 <= i < |r.value.item| ==> |r.value.item[i]| == width
    ensures r.Ok? ==> pos < r.value.next && |r.value.item| < 0x100 && Spans(s, pos, EncodeTable8(|r.value.item|, r.value.item), r.value.next)
  {
    var n :- ReadU8(s, pos);
    var rows :- ReadRows(s, n.next, n.item, width);
    ReadRowsConsumes(s, n.next, n.item, width);
    SliceSplit(s, pos, n.next, rows.next);
    Ok(Parsed(rows.item, rows.next))
  }

  /** A u4 length, then exactly that many bytes. */
  function ReadBlob32(s: bytes, pos: nat): (r: Outcome<Parsed<bytes>>)
    requires pos <= |s|
    ensures !r.Ok? ==> r == Abort(ReadPastEnd)
    ensures r.Ok? ==> |r.value.item| < 0x1_0000_0000
    ensures r.Ok? ==> pos < r.value.next && |r.value.item| < 0x1_0000_0000 && Spans(s, pos, EncodeBlob32(|r.value.item|, r.value.item), r.value.next)
  {
    var n :- ReadU32(s, pos);
    var data :- ReadVariable(s, n.next, n.item);
    SliceSplit(s, pos, n.next, data.next);
    Ok(Parsed(data.item, data.next))
  }

  /** A u2-counted table read back from its own encoding, whatever follows it. */
  lemma ReadTable16OfEncoding(s: bytes, pos: nat, rows: seq<seq<uint16>>, width: nat)
    requires pos <= |s| && |rows| < 0x1_0000 && forall i :: 0 <= i < |rows| ==> |rows[i]| == width
    requires EncodeTable16(|rows|, rows) <= s[pos..]
    ensures ReadTable16(s, pos, width) == Ok(Parsed(rows, pos + |EncodeTable16(|rows|, rows)|))
  {
    PrefixAppendAt(s, pos, Encode16(|rows|), EncodeRows(rows));
    PrefixSlice(s, pos, Encode16(|rows|));
    PrefixSlice(s, pos + 2, EncodeRows(rows));
    ReadU16OfEncoding(s, pos, |rows|);
    ReadRowsOfEncoding(s, pos + 2, rows, width);
  }

  /** A u1-counted table read back from its own encoding, whatever follows it. */
  lemma ReadTable8OfEncoding(s: bytes, pos: nat, rows: seq<seq<uint16>>, width: nat)
    requires pos <= |s| && |rows| < 0x100 && forall i :: 0 <= i < |rows| ==> |rows[i]| == width
    requires EncodeTable8(|rows|, rows) <= s[pos..]
    ensures ReadTable8(s, pos, width) == Ok(Parsed(rows, pos + |EncodeTable8(|rows|, rows)|))
  {
    PrefixCons(s[pos..], |rows|, EncodeRows(rows));
    assert s[pos..][1..] == s[pos + 1..];
    PrefixSlice(s, pos + 1, EncodeRows(rows));
    ReadRowsOfEncoding(s, pos + 1, rows, width);
  }

  /** A length-prefixed byte string read back from its own encoding, whatever follows it. */
  lemma ReadBlob32OfEncoding(s: bytes, pos: nat, data: bytes)
    requires pos <= |s| && |data| < 0x1_0000_0000 && EncodeBlob32(|data|, data) <= s[pos..]
    ensures ReadBlob32(s, pos) == Ok(Parsed(data, pos + 4 + |data|))
  {
    PrefixAppendAt(s, pos, Encode32(|data|), data);
    PrefixSlice(s, pos, Encode32(|data|));
    PrefixSlice(s, pos + 4, data);
    ReadU32OfEncoding(s, pos, |data|);
  }
}

=== FILE: types.dfy ===
/**
 * The values the decoder builds: the constant pool with its seventeen entry
 * kinds (section 4.4 of the Java Virtual Machine Specification, Java SE 21),
 * the attributes it knows how to decode (section 4.7 of the same
 * specification), fields, methods and the class file itself (its section
 * 4.1). Numeric constants keep their raw bytes; text is kept as the UTF-8
 * bytes it was read from.
 */
module Types {
  import opened Bytes
  import opened Outcomes

  /** The signature every class file starts with. */
  const CafeBabe: uint32 := 0xCAFE_BABE

  /** The payload of a constant-pool entry, one variant per accepted tag. */
  datatype ConstantPoolType =
    | ConstantClass(nameIndex: uint16)
    | ConstantFieldref(classIndex: uint16, nameAndTypeIndex: uint16)
    | ConstantMethodref(classIndex: uint16, nameAndTypeIndex: uint16)
    | ConstantInterfaceMethodref(classIndex: uint16, nameAndTypeIndex: uint16)
    | ConstantString(stringIndex: uint16)
    | ConstantInteger(raw: bytes)
    | ConstantFloat(raw: bytes)
    | ConstantLong(highBytes: bytes, lowBytes: bytes)
    | ConstantDouble(highBytes: bytes, lowBytes: bytes)
    | ConstantNameAndType(nameIndex: uint16, descriptorIndex: uint16)
    | ConstantUtf8(len: uint16, raw: bytes)
    | ConstantMethodHandle(referenceKind: uint8, referenceIndex: uint16)
    | ConstantMethodType(descriptorIndex: uint16)
    | ConstantDynamic(bootstrapMethodAttrIndex: uint16, nameAndTypeIndex: uint16)
    | ConstantInvokeDynamic(bootstrapMethodAttrIndex: uint16, nameAndTypeIndex: uint16)
    | ConstantModule(nameIndex: uint16)
    | ConstantPackage(nameIndex: uint16)

  /** The tag byte that introduces each kind of entry (Table 4.4-B). */
  function Tag(c: ConstantPoolType): uint8
  {
    match c
    case ConstantUtf8(_, _) => 1
    case ConstantInteger(_) => 3
    case ConstantFloat(_) => 4
    case ConstantLong(_, _) => 5
    case ConstantDouble(_, _) => 6
    case ConstantClass(_) => 7
    case ConstantString(_) => 8
    case ConstantFieldref(_, _) => 9
    case ConstantMethodref(_, _) => 10
    case ConstantInterfaceMethodref(_, _) => 11
    case ConstantNameAndType(_, _) => 12
    case ConstantMethodHandle(_, _) => 15
    case ConstantMethodType(_) => 16
    case ConstantDynamic(_, _) => 17
    case ConstantInvokeDynamic(_, _) => 18
    case ConstantModule(_) => 19
    case ConstantPackage(_) => 20
  }

  /** The tags the pool decoder accepts. */
  const KnownTags: set<uint8> := {1, 3, 4, 5, 6, 7, 8, 9, 10, 11, 12, 15, 16, 17, 18, 19, 20}

  /** A pool entry: the tag byte as read and the decoded payload, if any. */
  datatype CpInfo = CpInfo(tag: uint8, info: Option<ConstantPoolType>)

  /** `CpInfo::default()`: tag 0 and no payload. */
  const DefaultCpInfo: CpInfo := CpInfo(0, None)

  /**
   * Pool lookup by 1-based index over the entries in the order they were
   * appended. `get_constant_pool_entry` is not part of this model; this is the
   * assumed behaviour: index 0 and indices past the last entry find nothing.
   */
  function Lookup(pool: seq<CpInfo>, index: int): (r: Option<CpInfo>)
    ensures r.Some? <==> 1 <= index <= |pool|
    ensures r.Some? ==> r.value == pool[index - 1]
  {
    if 1 <= index <= |pool| then Some(pool[index - 1]) else None
  }

  /** The UTF-8 text of the pool entry at index, when that entry is a CONSTANT_Utf8. */
  predicate IsUtf8At(pool: seq<CpInfo>, index: int, text: bytes)
  {
    match Lookup(pool, index)
    case Some(CpInfo(_, Some(ConstantUtf8(_, raw)))) => raw == text
    case _ => false
  }

  /** One row of a Code attribute's exception table (section 4.7.3 of the Java Virtual Machine Specification). */
  datatype ExceptionTable = ExceptionTable(startPc: uint16, endPc: uint16, handlerPc: uint16, catchType: uint16)

  /** One row of a LineNumberTable attribute (section 4.7.12 of the Java Virtual Machine Specification). */
  datatype LineNumberTableEntry = LineNumberTableEntry(startPc: uint16, lineNumber: uint16)

  /** One row of a MethodParameters attribute (section 4.7.24 of the Java Virtual Machine Specification). */
  datatype MethodParameter = MethodParameter(nameIndex: uint16, accessFlags: uint16)

  /** One row of an InnerClasses attribute (section 4.7.6 of the Java Virtual Machine Specification). */
  datatype InnerClassInfo = InnerClassInfo(
    innerClassInfoIndex: uint16,
    outerClassInfoIndex: uint16,
    innerNameIndex: uint16,
    innerClassAccessFlags: uint16)

  /** The attributes the decoder has a branch for. */
  datatype Attribute =
    | ConstantValue(attributeNameIndex: uint16, attributeLength: uint32, constantValueIndex: uint16)
    | Code(
        attributeNameIndex: uint16,
        attributeLength: uint32,
        maxStack: uint16,
        maxLocals: uint16,
        codeLength: uint32,
        code: bytes,
        exceptionTableLength: uint16,
        exceptionTable: seq<ExceptionTable>,
        attributesCount: uint16,
        attributes: seq<Attribute>)
    | LineNumberTable(
        attributeNameIndex: uint16,
        attributeLength: uint32,
        lineNumberTableLength: uint16,
        lineNumberTable: seq<LineNumberTableEntry>)
    | SourceFile(attributeNameIndex: uint16, attributeLength: uint32, sourcefileIndex: uint16)
    | MethodParameters(
        attributeNameIndex: uint16,
        attributeLength: uint32,
        parametersCount: uint8,
        parameters: seq<MethodParameter>)
    | InnerClasses(
        attributeNameIndex: uint16,
        attributeLength: uint32,
        numberOfClasses: uint16,
        classes: seq<InnerClassInfo>)

  /**
   * The value a ConstantValue attribute gives a field. Integers and strings
   * are text; a float or double keeps the bits its text would be rendered
   * from, since floating-point formatting is not modelled.
   */
  datatype FieldValue =
    | Text(utf8: bytes)
    | RenderedFloat(raw: bytes)
    | RenderedDouble(highBytes: bytes, lowBytes: bytes)

  /** A field, with its name and descriptor resolved to text (section 4.5 of the Java Virtual Machine Specification). */
  datatype FieldInfo = FieldInfo(
    accessFlags: uint16,
    name: bytes,
    descriptor: bytes,
    value: Option<FieldValue>,
    attributes: seq<Attribute>)

  /** A method, with its name and descriptor left as pool indices (section 4.6 of the Java Virtual Machine Specification). */
  datatype MethodInfo = MethodInfo(
    accessFlags: uint16,
    nameIndex: uint16,
    descriptorIndex: uint16,
    attributesCount: uint16,
    attributes: seq<Attribute>)

  /** An undecoded attribute: its name index, declared length and raw bytes. */
  datatype AttributeInfo = AttributeInfo(attributeNameIndex: uint16, attributeLength: uint32, info: bytes)

  /** The decoded class file. `interfaces` holds one byte per interface, as the decoder reads them. */
  datatype ClassFile = ClassFile(
    magic: uint32,
    minorVersion: uint16,
    majorVersion: uint16,
    constantPool: seq<CpInfo>,
    accessFlags: uint16,
    thisClass: uint16,
    superClass: uint16,
    interfacesCount: uint16,
    interfaces: seq<uint8>,
    fieldsCount: uint16,
    fields: seq<FieldInfo>,
    methodsCount: uint16,
    methods: seq<MethodInfo>,
    attributes: seq<AttributeInfo>)

  /** `ClassFile::default()`. */
  const DefaultClassFile: ClassFile := ClassFile(0, 0, 0, [], 0, 0, 0, 0, [], 0, [], 0, [], [])

  /**
   * `ClassFile::new(magic)`, which is not part of this model: assumed to be
   * the default class file with the given magic.
   */
  function NewClassFile(magic: uint32): ClassFile
  {
    DefaultClassFile.(magic := magic)
  }

  /** Every tag the decoder accepts introduces exactly one kind of entry, and every kind has an accepted tag. */
  lemma TagsOfKinds()
    ensures forall c :: Tag(c) in KnownTags
    ensures forall t :: t in KnownTags ==> exists c :: Tag(c) == t
  {
    assert Tag(ConstantUtf8(0, [])) == 1;
    assert Tag(ConstantInteger([])) == 3;
    assert Tag(ConstantFloat([])) == 4;
    assert Tag(ConstantLong([], [])) == 5;
    assert Tag(ConstantDouble([], [])) == 6;
    assert Tag(ConstantClass(0)) == 7;
    assert Tag(ConstantString(0)) == 8;
    assert Tag(ConstantFieldref(0, 0)) == 9;
    assert Tag(ConstantMethodref(0, 0)) == 10;
    assert Tag(ConstantInterfaceMethodref(0, 0)) == 11;
    assert Tag(ConstantNameAndType(0, 0)) == 12;
    assert Tag(ConstantMethodHandle(0, 0)) == 15;
    assert Tag(ConstantMethodType(0)) == 16;
    assert Tag(ConstantDynamic(0, 0)) == 17;
    assert Tag(ConstantInvokeDynamic(0, 0)) == 18;
    assert Tag(ConstantModule(0)) == 19;
    assert Tag(ConstantPackage(0)) == 20;
  }

  /** Appending an entry makes it resolvable at the next index and leaves earlier lookups alone. */
  lemma LookupAfterAppend(pool: seq<CpInfo>, e: CpInfo)
    ensures Lookup(pool + [e], |pool| + 1) == Some(e)
    ensures forall i :: i != |pool| + 1 ==> Lookup(pool + [e], i) == Lookup(pool, i)
    ensures Lookup(pool + [e], 0) == None
  {
  }
}

=== FILE: utf8.dfy ===
/**
 * Well-formed UTF-8 (the Unicode Standard, Table 3-7 "Well-Formed UTF-8 Byte
 * Sequences"): the check Rust's `str::from_utf8` performs on the bytes of a
 * CONSTANT_Utf8 entry. The modified UTF-8 of section 4.4.7 of the Java Virtual
 * Machine Specification (encoded NUL, surrogate pairs) is not what the decoder
 * accepts, and so is not what is modelled here.
 */
module Utf8 {
  import opened Bytes

  predicate Continuation(b: uint8) {
    0x80 <= b <= 0xBF
  }

  /**
   * The length of the well-formed UTF-8 sequence that starts s, or 0 when s
   * does not start with one.
   */
  function LeadLength(s: bytes): (n: nat)
    requires |s| > 0
    ensures n <= 4 && n <= |s|
  {
    var b := s[0];
    if b < 0x80 then 1
    else if 0xC2 <= b <= 0xDF then
      if |s| >= 2 && Continuation(s[1]) then 2 else 0
    else if 0xE0 <= b <= 0xEF then
      var lo := if b == 0xE0 then 0xA0 else 0x80;
      var hi := if b == 0xED then 0x9F else 0xBF;
      if |s| >= 3 && lo <= s[1] <= hi && Continuation(s[2]) then 3 else 0
    else if 0xF0 <= b <= 0xF4 then
      var lo := if b == 0xF0 then 0x90 else 0x80;
      var hi := if b == 0xF4 then 0x8F else 0xBF;
      if |s| >= 4 && lo <= s[1] <= hi && Continuation(s[2]) && Continuation(s[3]) then 4 else 0
    else 0
  }

  /** s is a sequence of well-formed UTF-8 byte sequences. */
  predicate ValidUtf8(s: bytes)
    decreases |s|
  {
    |s| == 0 || (LeadLength(s) > 0 && ValidUtf8(s[LeadLength(s)..]))
  }

  /** The UTF-8 encoding of one Unicode scalar value. */
  function EncodeChar(c: char): (r: bytes)
    ensures 1 <= |r| <= 4
    ensures (c as int < 0x80) <==> |r| == 1
  {
    var v := c as int;
    if v < 0x80 then [v]
    else if v < 0x800 then [0xC0 + v / 0x40, 0x80 + v % 0x40]
    else if v < 0x1_0000 then [0xE0 + v / 0x1000, 0x80 + (v / 0x40) % 0x40, 0x80 + v % 0x40]
    else [0xF0 + v / 0x4_0000, 0x80 + (v / 0x1000) % 0x40, 0x80 + (v / 0x40) % 0x40, 0x80 + v % 0x40]
  }

  /** The UTF-8 encoding of a string. */
  function EncodeString(s: string): (r: bytes)
    ensures |r| >= |s|
  {
    if |s| == 0 then [] else EncodeChar(s[0]) + EncodeString(s[1..])
  }

  predicate IsAscii(s: string) {
    forall i :: 0 <= i < |s| ==> s[i] as int < 0x80
  }

  /** An ASCII string encodes to one byte per character, each the character's code. */
  lemma {:induction false} EncodeAscii(s: string)
    requires IsAscii(s)
    ensures |EncodeString(s)| == |s|
    ensures forall i :: 0 <= i < |s| ==> EncodeString(s)[i] == s[i] as int
  {
    if |s| > 0 {
      EncodeAscii(s[1..]);
    }
  }

  /** The encoding of a scalar value is recognised, whole, whatever follows it. */
  lemma EncodeCharIsLead(c: char, rest: bytes)
    ensures LeadLength(EncodeChar(c) + rest) == |EncodeChar(c)|
  {
    var v := c as int;
    var s := EncodeChar(c) + rest;
    if 0x800 <= v < 0x1_0000 {
      assert s[0] == 0xE0 + v / 0x1000;
      assert s[1] == 0x80 + (v / 0x40) % 0x40;
      if v < 0x1000 {
        assert v / 0x40 >= 0x20;
      }
      if 0xD000 <= v < 0xE000 {
        assert v < 0xD800;
        assert (v / 0x40) % 0x40 < 0x20;
      }
    } else if 0x1_0000 <= v {
      assert s[0] == 0xF0 + v / 0x4_0000;
      if v < 0x4_0000 {
        assert v / 0x1000 >= 0x10;
      }
      if v >= 0x10_0000 {
        assert v / 0x1000 < 0x110;
        assert (v / 0x1000) % 0x40 < 0x10;
      }
    }
  }

  /** Every encoded string is well-formed UTF-8. */
  lemma {:induction false} EncodeStringIsValid(s: string)
    ensures ValidUtf8(EncodeString(s))
  {
    if |s| > 0 {
      var e := EncodeChar(s[0]);
      var rest := EncodeString(s[1..]);
      EncodeCharIsLead(s[0], rest);
      assert (e + rest)[|e|..] == rest;
      EncodeStringIsValid(s[1..]);
    }
  }
}
